=== FILE: README.md ===
# Physician dashboard: the scanning pipeline and the patient summaries

A Dafny model of the core of a physician dashboard for patients discharged with a care
pathway. The model covers these parts:

- **The phone-side document stability detector** (`DocumentStability`). Each sampling tick
  it compares a 160x120 RGBA analysis frame with the previous one. It counts consecutive
  stable ticks and fires a full-resolution capture when the run is long enough. After a
  capture it holds off for a cooldown window.
- **The WebRTC signalling hook** (`WebRtcSignaling`). One side of the offer, answer and
  ICE-candidate exchange over a broadcast channel. Remote candidates wait in a buffer until
  a remote description is set.
- **The analytics rollups** (`Analytics`): patient counts, average video completion,
  average quiz score, thirty daily engagement buckets, and the top searched questions.
- **The patient-detail cards**: quiz performance (`QuizPerformance`), the engagement
  timeline (`EngagementTimeline`) and pathway progress (`PathwayProgress`).
- **The patient list**: the progress bar (`ProgressBar`), and the initials and
  row-selection logic of the table (`PatientTable`).
- **The scanner's validation rules** (`ScannerSchema`): extracted clinical data, and the
  form that confirms a new patient.
- **The `extract-discharge` edge function** (`ExtractDischarge`). It authorises the
  request and marks the scan as processing. It downloads the file, chooses its media type
  and sends it to the vision model. It strips code fences from the reply and parses it.
  Finally it records the scan as failed or ready for review.

Helper modules:

- `Wrappers`: `Option`.
- `JsMath`: `Math.round`, and `Math.round(100 * a / b)` in integers.
- `JsStrings`: the white-space set of `trim`, `trimStart`, `trimEnd`, ASCII case mapping,
  `split`, `join`, `startsWith` and `endsWith`.
- `Sorting`: `Array.prototype.sort` with a descending-key comparator, which is a stable
  sort, then `slice(0, k)`.

**Stateful code as classes.** The two hooks keep state in refs and update it step by step.
They are classes whose methods are proved against specification functions or
whole-state postconditions:

- `StabilityDetector.Tick` equals the pure `Analyze`, and the lemmas about tick sequences
  are stated on `Analyze` and `Run`.
- `SignalingPeer` keeps the invariant that every remote candidate received is either
  applied or still buffered, in arrival order.
- The selection of the patient table is a class with the table's two toggles.

**Loops as methods.** Each source loop is a method proved equal to a specification
function:

- the similarity loop, the video-completion sum and the bucket counting;
- the search-query counting;
- the quiz grouping and the per-module loop;
- the timeline's three push loops;
- the byte-to-string loop of the edge function.

**Inputs.** Query results, clocks and the outcomes of foreign calls are parameters. A query
whose data is `null` behaves like an empty result in every function, so the model gives it
the empty sequence.

**Where descriptions differ, the model follows the code.** Consider a still page under the
default settings. The first tick only stores the baseline, so the third stable comparison
and the capture come on the fourth sample (`StillPageCapturesOnce`). A fifth tick falls in
the cooldown.

## Model

| member | source | states |
|---|---|---|
| DocumentStability.ComputeSimilarity | src/hooks/use-document-stability.ts:35-47 | The stride-4 loop over R, G and B differences returns exactly `1 - totalDiff / maxDiff`, as given by `Similarity` |
| DocumentStability.Similarity | src/hooks/use-document-stability.ts:35-47 | For two valid 160x120 frames the score lies in [0, 1] |
| DocumentStability.DiffSumBound | src/hooks/use-document-stability.ts:39-45 | Over n pixels the difference sum is at most 765·n, which keeps the score at or above 0 |
| DocumentStability.PixelDiff | src/hooks/use-document-stability.ts:40-42 | Computes one pixel's contribution: the absolute R, G and B differences at byte offsets 4p, 4p+1 and 4p+2, alpha never read (its bounds and alpha-blindness are stated by `DiffSumBound`, `DiffSumOpposite` and `DiffSumAlpha`) |
| DocumentStability.DiffSum | src/hooks/use-document-stability.ts:37-43 | Computes `totalDiff` over the first n pixels, the quantity the stride-4 loop of `ComputeSimilarity` is proved to accumulate |
| DocumentStability.SimilarityReflexive | src/hooks/use-document-stability.ts:35-47 | A frame compared with itself scores exactly 1 |
| DocumentStability.DiffSumSelf | src/hooks/use-document-stability.ts:39-43 | The difference sum of a frame with itself is 0 |
| DocumentStability.SimilaritySymmetric | src/hooks/use-document-stability.ts:35-47 | The score does not depend on which frame is the previous one |
| DocumentStability.DiffSumSymmetric | src/hooks/use-document-stability.ts:39-43 | The difference sum is symmetric in its two frames |
| DocumentStability.AlphaIgnored | src/hooks/use-document-stability.ts:39-43 | Frames that differ only at alpha positions (index mod 4 = 3) get the same score |
| DocumentStability.DiffSumAlpha | src/hooks/use-document-stability.ts:39-43 | The difference sum reads no alpha byte |
| DocumentStability.ColourOffsets | src/hooks/use-document-stability.ts:40-42 | The three bytes read for pixel p are at offsets 0, 1 and 2 mod 4, never the alpha offset |
| DocumentStability.BlackAgainstWhite | src/hooks/use-document-stability.ts:35-47 | An all-black frame against an all-white frame scores exactly 0 |
| DocumentStability.DiffSumOpposite | src/hooks/use-document-stability.ts:39-45 | Channels at 0 against channels at 255 give the maximum sum, 765 per pixel |
| DocumentStability.FirstTickIsBaseline | src/hooks/use-document-stability.ts:85-89 | With no previous frame a tick stores the frame, reports 0, cannot capture and leaves counter and cooldown alone |
| DocumentStability.TickReplacesPrevious | src/hooks/use-document-stability.ts:91-93 | Every later tick stores the current frame and reports its score against the old one, in cooldown or not |
| DocumentStability.CooldownSuppresses | src/hooks/use-document-stability.ts:96-99 | Before the cooldown deadline the counter is forced to 0, nothing is captured and the deadline stays |
| DocumentStability.UnstableResets | src/hooks/use-document-stability.ts:101-120 | A sub-threshold score resets the counter and never captures, however long the stable run was |
| DocumentStability.CaptureExactly | src/hooks/use-document-stability.ts:96-117 | Capture iff previous frame, out of cooldown, score ≥ threshold and counter+1 ≥ stableFrameCount; then counter 0 and deadline now+cooldownMs; otherwise the deadline does not move |
| DocumentStability.Analyze | src/hooks/use-document-stability.ts:76-121 | Computes one analysed tick: a baseline with score 0 when there is no previous frame; otherwise the score against it, the counter forced to 0 in cooldown, raised on a score at or above the threshold and reset below it, and a capture with counter 0 and deadline now + cooldownMs when it reaches stableFrameCount (stated by the tick lemmas above and by `StabilityDetector.Tick`) |
| DocumentStability.CounterStaysInRange | src/hooks/use-document-stability.ts:101-120 | After every tick the counter stays below stableFrameCount, or is 0 |
| DocumentStability.Run | src/hooks/use-document-stability.ts:76-124 | A sequence of ticks yields one result per sample |
| DocumentStability.CapturesAfterDeadline | src/hooks/use-document-stability.ts:96-99 | No capture in a run comes before the cooldown deadline the run starts with |
| DocumentStability.CapturesSpaced | src/hooks/use-document-stability.ts:96-117 | Any two captures of a run are at least cooldownMs apart |
| DocumentStability.StillPageCapturesOnce | src/hooks/use-document-stability.ts:17-19 | With the defaults, five ticks 200 ms apart over a still page capture exactly once, on the fourth |
| DocumentStability.StabilityDetector.constructor | src/hooks/use-document-stability.ts:22-27 | The refs start empty (no frame, counter 0, deadline 0) and the score at 0 |
| DocumentStability.StabilityDetector.SetEnabled | src/hooks/use-document-stability.ts:51-59 | Disabling stops sampling and reports 0; frame, counter and cooldown are untouched |
| DocumentStability.StabilityDetector.Tick | src/hooks/use-document-stability.ts:76-121 | Without sampling or a ready video nothing changes; otherwise the new state is `Analyze` of the old; a capture comes at least cooldownMs after the previous one |
| WebRtcSignaling.MapTransportState | src/hooks/use-webrtc-signaling.ts:61-67 | Connected, disconnected, failed and connecting are copied to the exposed state; new and closed leave it unchanged |
| WebRtcSignaling.DeliverDefaults | src/hooks/use-webrtc-signaling.ts:162-167 | A missing page number or page total is delivered as 0, a present one unchanged |
| WebRtcSignaling.Deliver | src/hooks/use-webrtc-signaling.ts:159-167 | Computes the callback for an app-level broadcast: PHONE_CONNECTED to `onPhoneConnected`, PAGE_CAPTURED and SCAN_DONE to their callbacks with `?? 0` (stated by `DeliverDefaults`) |
| WebRtcSignaling.SignalingPeer.constructor | src/hooks/use-webrtc-signaling.ts:29-58 | State "new", no remote description, empty buffer, nothing sent |
| WebRtcSignaling.SignalingPeer.SendSignal | src/hooks/use-webrtc-signaling.ts:36-45 | Appends the signal to what was broadcast while the channel exists, and only then |
| WebRtcSignaling.SignalingPeer.AddIceCandidate | src/hooks/use-webrtc-signaling.ts:98-102 | The candidate is handed over and nothing else changes; the catch only logs a rejection, so the outcome is not a parameter |
| WebRtcSignaling.SignalingPeer.FlushIceCandidates | src/hooks/use-webrtc-signaling.ts:96-105 | Every buffered candidate is applied once, in order, whatever each outcome; then the buffer is empty |
| WebRtcSignaling.SignalingPeer.OnOffer | src/hooks/use-webrtc-signaling.ts:113-130 | Only a receiver with an sdp acts: it goes connecting, applies the buffer, sends exactly one ANSWER on success, and goes failed on any error |
| WebRtcSignaling.SignalingPeer.OnAnswer | src/hooks/use-webrtc-signaling.ts:131-142 | Only a sender with an sdp acts: remote description set and buffer applied; an error leaves everything, connection state included, unchanged |
| WebRtcSignaling.SignalingPeer.OnIceCandidate | src/hooks/use-webrtc-signaling.ts:143-158 | No candidate: ignored; before a remote description it joins the buffer's end unapplied; after, it is applied directly |
| WebRtcSignaling.SignalingPeer.OnLocalCandidate | src/hooks/use-webrtc-signaling.ts:70-76 | Each local candidate is broadcast at once |
| WebRtcSignaling.SignalingPeer.OnSubscribed | src/hooks/use-webrtc-signaling.ts:168-184 | On SUBSCRIBED a sender with a stream goes connecting and sends PHONE_CONNECTED before OFFER, failed on error; otherwise nothing |
| WebRtcSignaling.SignalingPeer.OnTransportState | src/hooks/use-webrtc-signaling.ts:61-67 | The exposed state becomes `MapTransportState` of the transport state; nothing else changes |
| WebRtcSignaling.SignalingPeer.SendMessage | src/hooks/use-webrtc-signaling.ts:48-53 | App-level messages go out on the same channel |
| WebRtcSignaling.SignalingPeer.Teardown | src/hooks/use-webrtc-signaling.ts:188-195 | Closes the channel, clears the remote-description flag and the buffer, keeps the invariant |
| WebRtcSignaling.ReceiverNegotiation | src/hooks/use-webrtc-signaling.ts:113-158 | Two early candidates and a late one are applied in arrival order, exactly once, around one ANSWER |
| WebRtcSignaling.SenderNegotiation | src/hooks/use-webrtc-signaling.ts:131-184 | A sender announces itself, offers, and applies its buffered candidate once the answer arrives |
| Analytics.CountActive | src/lib/queries/analytics.ts:34 | The active count is at most the total, and equals it iff every assignment is active |
| Analytics.GetPatientStats | src/lib/queries/analytics.ts:33-37 | active + completed = total, completed ≥ 0, and completed is 0 iff all are active |
| Analytics.CountTrue | src/lib/queries/analytics.ts:88 | The correct count is at most the number of responses |
| Analytics.GetAvgQuizScore | src/lib/queries/analytics.ts:77-89 | 0 without patients or responses; otherwise round(100·correct/n), within 0..100 |
| Analytics.AvgQuizScoreExtremes | src/lib/queries/analytics.ts:86-89 | All correct gives 100 and none correct gives 0 |
| Analytics.CountTrueAll | src/lib/queries/analytics.ts:88 | All true counts everything and all false counts nothing |
| Analytics.DurationOf | src/lib/queries/analytics.ts:62-66 | A module's duration is known iff some row has its id |
| Analytics.DurationOfLastRow | src/lib/queries/analytics.ts:62 | The duration read is that of the last row with the id |
| Analytics.Contribution | src/lib/queries/analytics.ts:66-67 | A row contributes at most 1 (missing duration read as 1); it is NaN exactly for a zero duration with position 0 |
| Analytics.TotalPct | src/lib/queries/analytics.ts:64-68 | The running sum lies between 0 and the number of rows |
| Analytics.TotalPctNaN | src/lib/queries/analytics.ts:64-68 | The sum is NaN iff some row contributes NaN |
| Analytics.AvgVideoCompletion | src/lib/queries/analytics.ts:44-70 | 0 without patients or rows; otherwise within 0..100, and NaN iff some row has position 0 on a zero-length module |
| Analytics.GetAvgVideoCompletion | src/lib/queries/analytics.ts:44-70 | The summing loop returns `AvgVideoCompletion` |
| Analytics.MeanBounds | src/lib/queries/analytics.ts:70 | The rounded mean of n values in [0, 1], times 100, lies in 0..100 |
| Analytics.CountOnDay | src/lib/queries/analytics.ts:127-138 | A day's count is at most the number of rows |
| Analytics.DateKey | src/lib/queries/analytics.ts:123-135 | Computes `split("T")[0]`: the text before the first `T`, or the whole stamp when it has none |
| Analytics.CountOnDayStep | src/lib/queries/analytics.ts:127-138 | A row adds 1 to its own day's count and nothing to any other day |
| Analytics.Present | src/lib/queries/analytics.ts:134-135 | Quiz creation times are never null |
| Analytics.Truthful | src/lib/queries/analytics.ts:128 | A null or empty first-watched timestamp reads as absent; every other row is kept as it is |
| Analytics.DayKeys | src/lib/queries/analytics.ts:118-125 | The Map's keys: distinct, exactly the day keys, in first-insertion order |
| Analytics.DayKeysDistinct | src/lib/queries/analytics.ts:118-125 | There is one bucket per day key iff the day keys are distinct, and then the buckets follow the day keys |
| Analytics.ZeroBuckets | src/lib/queries/analytics.ts:118-125 | One zeroed bucket per day key, and the key order is `DayKeys` |
| Analytics.AddVideoViews | src/lib/queries/analytics.ts:127-132 | Each bucket's views grow by the rows dated that day; null or empty timestamps and unknown days change nothing; no key is added |
| Analytics.AddQuizCompletions | src/lib/queries/analytics.ts:134-138 | Each bucket's quiz count grows by the responses dated that day; unknown days change nothing |
| Analytics.GetEngagementOverTime | src/lib/queries/analytics.ts:96-143 | No patients gives []; otherwise one bucket per distinct day key in first-insertion order, each with that day's counts; 30 buckets iff the 30 keys are distinct, and then in day order |
| Analytics.CountInDays | src/lib/queries/analytics.ts:127-138 | The rows landing in some bucket are at most all the rows |
| Analytics.BucketsCountEachRowOnce | src/lib/queries/analytics.ts:127-138 | Summed over the buckets, each row that lands in a bucket is counted exactly once |
| Analytics.SumOverDaysNoRows | src/lib/queries/analytics.ts:118-125 | With no rows every bucket sum is 0 |
| Analytics.SumOverDaysStep | src/lib/queries/analytics.ts:127-138 | One more row raises the bucket total by 1 if its day is a bucket, else by 0 |
| Analytics.NormalizeMerges | src/lib/queries/analytics.ts:163 | Queries differing only in case or surrounding white space share one key |
| Analytics.Normalize | src/lib/queries/analytics.ts:163 | Computes `toLowerCase().trim()` (its merging of case and white-space variants is `NormalizeMerges`) |
| Analytics.LowerConcat | src/lib/queries/analytics.ts:163 | Lower-casing distributes over concatenation |
| Analytics.LowerWhite | src/lib/queries/analytics.ts:163 | Lower-casing leaves white space alone |
| Analytics.KeyedLogs | src/lib/queries/analytics.ts:162-166 | Each log is reduced to its normalised query and its zero-results flag, in order |
| Analytics.KeyOf | src/lib/queries/analytics.ts:163-166 | Computes a log's key: its normalised query and whether it returned no results |
| Analytics.CountQuery | src/lib/queries/analytics.ts:165 | A query's count is at most the number of logs |
| Analytics.CountUnresolved | src/lib/queries/analytics.ts:166 | A query's unresolved count is at most its count |
| Analytics.Keys | src/lib/queries/analytics.ts:161-168 | The map's keys are distinct and are exactly the queries with a positive count |
| Analytics.Entries | src/lib/queries/analytics.ts:170-171 | One entry per key, in key order, carrying that key's counts |
| Analytics.EntryFor | src/lib/queries/analytics.ts:170-171 | Computes one spread entry `{ query, count, unresolved }` from the counts of its key (its counts are stated by `Entries` and `TopEntryCounted`) |
| Analytics.CountZeroResults | src/lib/queries/analytics.ts:175 | The unresolved total is at most the number of logs |
| Analytics.CountQueries | src/lib/queries/analytics.ts:161-168 | The counting loop builds exactly the keys of `Keys` and each key's count and unresolved count |
| Analytics.GetTopSearches | src/lib/queries/analytics.ts:150-177 | Empty without patients or logs; otherwise the entries sorted by count and cut to 10; sorted descending; each entry carries its query's own counts; the unresolved total counts every zero-result log |
| Analytics.TopEntryCounted | src/lib/queries/analytics.ts:170-173 | Each entry kept after the sort and cut has its query's real counts |
| Analytics.EntriesCountAllLogs | src/lib/queries/analytics.ts:161-171 | Before the cut, the entry counts add up to the number of logs |
| Analytics.SumCountsPrefix | src/lib/queries/analytics.ts:170-171 | Summing entry counts equals summing the query counts of the same keys |
| Analytics.KeysCountAllLogs | src/lib/queries/analytics.ts:161-168 | Over all keys, the query counts add up to the number of logs |
| Analytics.SumQueryCountsStep | src/lib/queries/analytics.ts:162-168 | One more log raises the key total by 1 if its key is listed, else by 0 |
| Sorting.Insert | src/lib/queries/analytics.ts:172 | Inserting into a descending list keeps it descending and adds exactly the element |
| Sorting.ConsSorted | src/lib/queries/analytics.ts:172 | A head at least as large as the first element keeps a descending list descending |
| Sorting.HeadBoundsAll | src/lib/queries/analytics.ts:172 | A bound on all elements and on x bounds every rearrangement of them |
| Sorting.SortDesc | src/lib/queries/analytics.ts:172 | The sort returns a descending permutation of its input |
| Sorting.WithKey | src/lib/queries/analytics.ts:172 | The elements picked for a key value all have that key, and there are no more of them than elements |
| Sorting.InsertStable | src/lib/queries/analytics.ts:172 | An inserted element goes in front of the ties already placed |
| Sorting.SortDescStable | src/lib/queries/analytics.ts:172 | The sort is stable: for every key value, the elements with that key keep their input order |
| Sorting.WithKeyPrefix | src/lib/queries/analytics.ts:173 | The elements with a key in a prefix are a prefix of the elements with that key |
| Sorting.TopKTiesFirst | src/lib/queries/analytics.ts:172-173 | Among tied elements, the cut keeps the ones that come first in the input |
| Sorting.Take | src/lib/queries/analytics.ts:173 | `slice(0, k)` keeps the first min(k, n) elements |
| Sorting.TopKBound | src/lib/queries/analytics.ts:172-173 | Every element cut off has a key no greater than every element kept |
| Sorting.TopKKept | src/lib/queries/analytics.ts:172-173 | An element whose key beats the last kept one, or any element when nothing is cut, is kept |
| JsMath.Round | src/lib/queries/analytics.ts:70 | `Math.round`: the nearest integer, halves rounded up |
| JsMath.RoundPct | src/lib/queries/analytics.ts:89 | `Math.round(100·a/b)` for b > 0, characterised by integer bounds |
| JsMath.RoundPctBounds | src/lib/queries/analytics.ts:89 | A fraction in [0, 1] gives 0..100, with 0 and 1 exact |
| JsMath.RoundPctUnique | src/lib/queries/analytics.ts:89 | The integer characterisation has exactly one solution |
| QuizPerformance.DemoOverall | src/components/patient-detail/quiz-performance.tsx:23-39 | The demo reduces to 6 of 8 correct, 75% |
| QuizPerformance.SumDemoTotal | src/components/patient-detail/quiz-performance.tsx:37 | Computes the `reduce` summing the demo modules' totals (its value on the demo data is stated by `DemoOverall`) |
| QuizPerformance.SumDemoCorrect | src/components/patient-detail/quiz-performance.tsx:38 | Computes the `reduce` summing the demo modules' correct counts (its value on the demo data is stated by `DemoOverall`) |
| QuizPerformance.Filter | src/components/patient-detail/quiz-performance.tsx:87-100 | A group is no longer than the input |
| QuizPerformance.FilterMembers | src/components/patient-detail/quiz-performance.tsx:87-100 | An item is in its key's group iff it is in the input with that key |
| QuizPerformance.Get | src/components/patient-detail/quiz-performance.tsx:89-131 | Computes `map.get(k) ?? []` (what the grouped maps hold under a key is stated by `GroupBy`) |
| QuizPerformance.GroupBy | src/components/patient-detail/quiz-performance.tsx:87-100 | Each key's group is the input's items with that key, in input order; no empty group is stored |
| QuizPerformance.CountCorrect | src/components/patient-detail/quiz-performance.tsx:104 | The correct count is at most the number of responses |
| QuizPerformance.CountCorrectAll | src/components/patient-detail/quiz-performance.tsx:104 | All correct counts every response; none correct counts none |
| QuizPerformance.OverallExtremes | src/components/patient-detail/quiz-performance.tsx:103-106 | With responses, the overall line reads 100% when all are correct and 0% when none is |
| QuizPerformance.OverallOf | src/components/patient-detail/quiz-performance.tsx:103-106 | total is the number of responses and correct their `CountCorrect`; with responses the percentage is `RoundPct(correct, total)`, `Math.round(correct / total * 100)`, within 0..100; 0 with none |
| QuizPerformance.MaxAttempt | src/components/patient-detail/quiz-performance.tsx:134-137 | `Math.max(floor, ...)` bounds every attempt number and is the floor or one of them |
| QuizPerformance.ModTotal | src/components/patient-detail/quiz-performance.tsx:132 | Computes `modTotal` after the given questions: the sum of their response counts (with distinct ids, the module's response count: `ModTotalCountsModuleResponses`) |
| QuizPerformance.ModCorrect | src/components/patient-detail/quiz-performance.tsx:133 | A module's correct count is at most its total |
| QuizPerformance.ModAttempts | src/components/patient-detail/quiz-performance.tsx:134-137 | Computes `attempts` after the given questions (the maximum attempt number, or 0: `ModAttemptsBound` and `ModAttemptsAttained`) |
| QuizPerformance.SummaryOf | src/components/patient-detail/quiz-performance.tsx:122-142 | A module is omitted iff it has no questions or no responses; otherwise its id and title, total = `ModTotal`, correct = `ModCorrect`, attempts = `ModAttempts` and pct = `RoundPct(correct, total)`, with 0 < total, correct ≤ total, pct within 0..100 and attempts ≥ 0 |
| QuizPerformance.AttemptsAtLeastZero | src/components/patient-detail/quiz-performance.tsx:128 | attempts starts at 0 and never drops below it |
| QuizPerformance.SummarizeModule | src/components/patient-detail/quiz-performance.tsx:123-142 | The per-question loop over the grouped responses returns `SummaryOf` |
| QuizPerformance.Summaries | src/components/patient-detail/quiz-performance.tsx:122-142 | Computes the listed summaries: `SummaryOf` of each module with its grouped questions, in module order, omitted modules dropped |
| QuizPerformance.BuildQuizPerformance | src/components/patient-detail/quiz-performance.tsx:34-142 | Demo iff there are no responses, with 6/8 and 75%; otherwise the overall line and the module summaries in module order |
| QuizPerformance.ModTotalCountsModuleResponses | src/components/patient-detail/quiz-performance.tsx:130-133 | With distinct question ids, modTotal is the number of responses to the module's questions |
| QuizPerformance.CountAnsweringNone | src/components/patient-detail/quiz-performance.tsx:127 | No question ids, no responses counted |
| QuizPerformance.CountAnsweringAdd | src/components/patient-detail/quiz-performance.tsx:130-132 | Adding a new question id adds exactly its responses |
| QuizPerformance.IdsSnoc | src/components/patient-detail/quiz-performance.tsx:130 | The module's question ids grow by one question at a time |
| QuizPerformance.ModAttemptsBound | src/components/patient-detail/quiz-performance.tsx:128-137 | attempts is at least every attempt number among the module's responses |
| QuizPerformance.ModAttemptsAttained | src/components/patient-detail/quiz-performance.tsx:128-137 | attempts is 0 or the attempt number of one of the module's responses, so with the bound it is the maximum |
| EngagementTimeline.StartEvent | src/components/patient-detail/engagement-timeline.tsx:66-73 | A start event has a `vp-start-` id, the start kind and the first-watched time |
| EngagementTimeline.DoneEvent | src/components/patient-detail/engagement-timeline.tsx:74-81 | A done event has a `vp-done-` id, the completion kind and the completed time |
| EngagementTimeline.ProgressEvents | src/components/patient-detail/engagement-timeline.tsx:65-82 | A row yields a start iff first_watched_at is truthy and a done event iff completed_at is truthy |
| EngagementTimeline.Truthy | src/components/patient-detail/engagement-timeline.tsx:66-74 | JavaScript truthiness of a nullable timestamp: null and "" are false |
| EngagementTimeline.AllProgressEvents | src/components/patient-detail/engagement-timeline.tsx:65-82 | Computes the progress loop's events: `ProgressEvents` of each row in row order (counted by `ProgressEventCounts`) |
| EngagementTimeline.PrefixExcludes | src/components/patient-detail/engagement-timeline.tsx:68-95 | Prefixes with different first letters cannot both start an id |
| EngagementTimeline.QuizEvent | src/components/patient-detail/engagement-timeline.tsx:84-91 | A `qr-` event labelled correct iff the answer was correct, incorrect otherwise |
| EngagementTimeline.SearchEvent | src/components/patient-detail/engagement-timeline.tsx:93-103 | An `sl-` event of kind unresolved iff results_returned = 0, with the matching label |
| EngagementTimeline.AllQuizEvents | src/components/patient-detail/engagement-timeline.tsx:84-91 | Exactly one event per quiz response, in order |
| EngagementTimeline.AllSearchEvents | src/components/patient-detail/engagement-timeline.tsx:93-103 | Exactly one event per search log, in order |
| EngagementTimeline.RowEvents | src/components/patient-detail/engagement-timeline.tsx:64-104 | Computes the real events: progress events, then quiz events, then search events (their ids are stated by `RowEventIds`) |
| EngagementTimeline.CountTruthy | src/components/patient-detail/engagement-timeline.tsx:66-74 | At most one truthy timestamp per row |
| EngagementTimeline.FirstWatched | src/components/patient-detail/engagement-timeline.tsx:66 | The rows' first-watched column, in order |
| EngagementTimeline.Completed | src/components/patient-detail/engagement-timeline.tsx:74 | The rows' completed column, in order |
| EngagementTimeline.ProgressEventCounts | src/components/patient-detail/engagement-timeline.tsx:65-82 | The progress rows yield as many events as they have truthy first-watched and completed stamps |
| EngagementTimeline.RowEventIds | src/components/patient-detail/engagement-timeline.tsx:68-95 | Every real event's id carries its source's prefix and never the demo prefix |
| EngagementTimeline.ProgressEventId | src/components/patient-detail/engagement-timeline.tsx:68-77 | A progress event is a start with `vp-start-` or a completion with `vp-done-` |
| EngagementTimeline.DemoEvent | src/components/patient-detail/engagement-timeline.tsx:35-46 | A demo event has a `demo-` id and the given time |
| EngagementTimeline.DemoEarly | src/components/patient-detail/engagement-timeline.tsx:35-40 | The first six demo events lie between 47 and 28.5 hours ago |
| EngagementTimeline.DemoLate | src/components/patient-detail/engagement-timeline.tsx:41-46 | The last six demo events lie between 8 and 0.5 hours ago |
| EngagementTimeline.DemoEvents | src/components/patient-detail/engagement-timeline.tsx:31-48 | Twelve demo events, all `demo-` ids, between 47 and 0.5 hours ago |
| EngagementTimeline.PushProgressEvents | src/components/patient-detail/engagement-timeline.tsx:65-82 | The progress loop pushes exactly the progress events, in row order |
| EngagementTimeline.PushQuizEvents | src/components/patient-detail/engagement-timeline.tsx:84-91 | The quiz loop appends exactly the quiz events |
| EngagementTimeline.PushSearchEvents | src/components/patient-detail/engagement-timeline.tsx:93-103 | The search loop appends exactly the search events |
| EngagementTimeline.Recent | src/components/patient-detail/engagement-timeline.tsx:106-110 | At most 20 events, newest first |
| EngagementTimeline.RecentEvents | src/components/patient-detail/engagement-timeline.tsx:55-110 | The component's pipeline (demo choice, pushes, sort, slice) returns `Recent` |
| EngagementTimeline.Events | src/components/patient-detail/engagement-timeline.tsx:55-104 | Computes the unsorted events: the demo events when all three lists are empty, otherwise `RowEvents` (stated by `DemoWhenEmpty` and `NoDemoOtherwise`) |
| EngagementTimeline.RecentFromEvents | src/components/patient-detail/engagement-timeline.tsx:106-110 | Every event shown is one of the events built |
| EngagementTimeline.DemoWhenEmpty | src/components/patient-detail/engagement-timeline.tsx:55-63 | With no rows at all the twelve demo events are shown |
| EngagementTimeline.NoDemoOtherwise | src/components/patient-detail/engagement-timeline.tsx:55-63 | With any row no demo event is shown, even if the rows yield no event |
| EngagementTimeline.KeepsLatest | src/components/patient-detail/engagement-timeline.tsx:106-110 | An event newer than the oldest one shown is shown: the 20 kept are the latest |
| PathwayProgress.ProgressPct | src/components/patient-detail/pathway-progress.tsx:50-52 | Never above 100, exactly 100 from the last day on, round(100·day/total) before it, non-negative for a non-negative day |
| PathwayProgress.DayNumber | src/components/patient-detail/pathway-progress.tsx:50 | Computes `differenceInDays(now, start) + 1`, the whole-day difference being an input |
| PathwayProgress.RoundPctRange | src/components/patient-detail/pathway-progress.tsx:52 | The rounded percentage is ≥ 0 for a non-negative day, ≥ 100 from the total on, ≤ 100 up to it |
| PathwayProgress.DisplayDay | src/components/patient-detail/pathway-progress.tsx:75 | The day shown is at least 1, and the day itself when that is at least 1 |
| PathwayProgress.ProgressFor | src/components/patient-detail/pathway-progress.tsx:56-132 | A module has a progress entry iff some row names it, and then it is one of those rows |
| PathwayProgress.LastRowWins | src/components/patient-detail/pathway-progress.tsx:56-58 | A later row for the same module replaces the earlier one; a row for another module changes nothing |
| PathwayProgress.WatchPct | src/components/patient-detail/pathway-progress.tsx:132-141 | 0 without a row; otherwise min(round(100·furthest/duration), 100), 100 once fully watched; NaN only for a zero duration at position 0 |
| PathwayProgress.Line | src/components/patient-detail/pathway-progress.tsx:131-148 | Computes one module's line: its `WatchPct` from the `progressMap` entry and the check mark iff that entry exists and is completed |
| PathwayProgress.CountCompleted | src/components/patient-detail/pathway-progress.tsx:61-62 | The completed count is at most the number of items, 0 iff none is completed and all of them iff all are |
| PathwayProgress.DemoCompleted | src/components/patient-detail/pathway-progress.tsx:36-61 | Three of the five demo modules are completed |
| PathwayProgress.BuildPathway | src/components/patient-detail/pathway-progress.tsx:50-141 | Demo iff there are no modules; the day shown is `DisplayDay` of the day number (≥ 1), the progress is `ProgressPct` of it (≤ 100), the total days are passed through, and the demo count is the demo modules' completed count; real modules give one line each, the module count and the completed-row count |
| PathwayProgress.DemoCard | src/components/patient-detail/pathway-progress.tsx:54-64 | The demo card reads 3 of 5 completed |
| PathwayProgress.CompletedCountCanExceedModules | src/components/patient-detail/pathway-progress.tsx:60-64 | Completed rows of unlisted modules still count, so the count can exceed the modules shown |
| ProgressBar.Clamp | src/components/patients/progress-bar.tsx:12 | The clamped value lies in [0, 100] and is the input when already in range |
| ProgressBar.ClampIdempotent | src/components/patients/progress-bar.tsx:12 | Clamping twice is clamping once |
| ProgressBar.GetColor | src/components/patients/progress-bar.tsx:5-9 | Success iff ≥ 80, info iff in [50, 80), warning iff < 50 |
| ProgressBar.RenderBar | src/components/patients/progress-bar.tsx:12-19 | Width and colour both come from the clamped value; above 100 is full and success, below 0 empty and warning |
| PatientTable.FirstChars | src/components/patients/patient-table.tsx:24-25 | At most one character per word |
| PatientTable.Initials | src/components/patients/patient-table.tsx:21-28 | At most two characters, none of them a lower-case letter |
| PatientTable.InitialsOfWords | src/components/patients/patient-table.tsx:21-28 | For words joined by single spaces, the initials are the upper-cased first characters of the words, cut to two |
| PatientTable.EmptyWordsAddNothing | src/components/patients/patient-table.tsx:23-25 | An empty word from repeated spaces adds no initial |
| PatientTable.InitialsExample | src/components/patients/patient-table.tsx:21-28 | "ada lovelace byron" shows "AL" |
| PatientTable.AllSelectedOf | src/components/patients/patient-table.tsx:63 | All selected iff there is a row and the selection has as many ids as there are rows |
| PatientTable.RowIds | src/components/patients/patient-table.tsx:69 | Computes `new Set(rows.map((r) => r.id))` (its size is stated by `RowIdsCount` and `DuplicateIdsNeverAll`) |
| PatientTable.Toggled | src/components/patients/patient-table.tsx:73-81 | The id's membership flips and every other id keeps its membership |
| PatientTable.ToggleTwice | src/components/patients/patient-table.tsx:73-81 | Toggling the same row twice restores the selection |
| PatientTable.RowIdsCount | src/components/patients/patient-table.tsx:69 | With distinct row ids, selecting every row's id selects as many ids as rows |
| PatientTable.StaleSelectionReadsAsAll | src/components/patients/patient-table.tsx:63 | Sizes only: a leftover selection of another id reads as all selected |
| PatientTable.DuplicateIdsNeverAll | src/components/patients/patient-table.tsx:63-71 | With a duplicated row id, select-all never reads as all selected |
| PatientTable.Selection.constructor | src/components/patients/patient-table.tsx:61 | The selection starts empty |
| PatientTable.Selection.ToggleRow | src/components/patients/patient-table.tsx:73-81 | The new selection is the old one with the id toggled |
| PatientTable.Selection.ToggleAll | src/components/patients/patient-table.tsx:65-71 | Clears when all are selected, otherwise selects exactly the rows' ids; with distinct ids the all-selected reading flips |
| PatientTable.Selection.AllSelected | src/components/patients/patient-table.tsx:63 | `allSelected` of the current selection: `AllSelectedOf` the selection and the rows |
| ScannerSchema.KindOf | src/lib/schemas/scanner.ts:4-47 | "medications" is the medication list, the numeric keys are nullable numbers, the rest nullable strings |
| ScannerSchema.NumberKeysDeclared | src/lib/schemas/scanner.ts:9-29 | Every numeric key and the medication list are declared keys |
| ScannerSchema.ItemsIssues | src/lib/schemas/scanner.ts:29-37 | No issue iff every item is a valid medication |
| ScannerSchema.ItemIssues | src/lib/schemas/scanner.ts:31-35 | Computes one medication item's issues: not an object, a missing or non-string `name`, a non-string `dosage` or `frequency` (no issue iff valid: `ItemsIssues`) |
| ScannerSchema.ValueIssues | src/lib/schemas/scanner.ts:5-46 | No issue iff the value is acceptable for its key's kind |
| ScannerSchema.ShapeIssues | src/lib/schemas/scanner.ts:4-47 | Computes the issues of every declared key present, in declaration order (no issue iff each is acceptable: `ShapeIssuesNone`) |
| ScannerSchema.CleanKeeps | src/lib/schemas/scanner.ts:29-37 | Cleaning changes only medication items, which keep exactly their name, dosage and frequency, with the same values |
| ScannerSchema.StripItem | src/lib/schemas/scanner.ts:31-35 | Computes zod's stripping of a medication item: only `name`, `dosage` and `frequency` are kept |
| ScannerSchema.Clean | src/lib/schemas/scanner.ts:29-37 | Computes the parsed value of a key: a medication list with every item stripped, anything else unchanged (stated by `CleanKeeps` and `CleanValid`) |
| ScannerSchema.ParseExtracted | src/lib/schemas/scanner.ts:4-47 | A successful parse is an object holding exactly the declared keys present in the input, each with its cleaned value |
| ScannerSchema.ShapeIssuesNone | src/lib/schemas/scanner.ts:4-47 | No issue over a list of keys iff each present one holds an acceptable value |
| ScannerSchema.ParseExtractedSucceedsIff | src/lib/schemas/scanner.ts:4-47 | The parse succeeds exactly on the values the declarative rules accept |
| ScannerSchema.EmptyObjectValid | src/lib/schemas/scanner.ts:4-47 | Every field is optional: the empty object parses to itself |
| ScannerSchema.SingleKey | src/lib/schemas/scanner.ts:4-47 | A one-key object parses iff that key's value is acceptable |
| ScannerSchema.NumberFieldAccepts | src/lib/schemas/scanner.ts:9-26 | A numeric field accepts a number or null and nothing else |
| ScannerSchema.MedicationsAccept | src/lib/schemas/scanner.ts:29-37 | Items need a string name; dosage and frequency are optional strings, and null is refused |
| ScannerSchema.ParseExtractedIdempotent | src/lib/schemas/scanner.ts:4-47 | Parsing parsed data gives the same data back |
| ScannerSchema.CleanValid | src/lib/schemas/scanner.ts:29-37 | Stripping unknown item keys keeps a value acceptable, and a second strip changes nothing |
| ScannerSchema.OptString | src/lib/schemas/scanner.ts:52-59 | An optional string field has no issue iff absent or a string, and then parses to the string it holds, or none when absent |
| ScannerSchema.RequiredString | src/lib/schemas/scanner.ts:53-60 | No issue iff present, a string and non-empty; an empty string gives exactly the field's message |
| ScannerSchema.StringItems | src/lib/schemas/scanner.ts:57 | No issue iff every item is a string, and then the strings come out in order |
| ScannerSchema.Medications | src/lib/schemas/scanner.ts:57 | Absent medications give the empty list with no issue; issues arise iff the value is not an array of strings; without issues the array's strings come out in order |
| ScannerSchema.ClinicalData | src/lib/schemas/scanner.ts:61 | Clinical data has no issue iff absent or an object, and then parses to that object's fields, or none when absent |
| ScannerSchema.ParseConfirm | src/lib/schemas/scanner.ts:51-62 | Succeeds iff the declarative confirm rules hold; then name and pathway are the non-empty strings given, each optional string is the input's string or none when absent, the medications are the array's strings in order ([] when absent), and the clinical data is the input object's fields |
| ScannerSchema.EmptyNameFails | src/lib/schemas/scanner.ts:53 | An empty name fails with "Patient name is required" |
| ScannerSchema.EmptyPathwayFails | src/lib/schemas/scanner.ts:60 | An empty care pathway fails with "Care pathway is required" |
| ScannerSchema.MedicationsDefault | src/lib/schemas/scanner.ts:57 | An absent medication list parses to the empty list |
| ScannerSchema.MinimalConfirm | src/lib/schemas/scanner.ts:51-62 | A name and a pathway alone parse, everything else defaulted |
| ExtractDischarge.MediaType | supabase/functions/extract-discharge/index.ts:64-68 | ".pdf" gives application/pdf, else ".png" gives image/png, else image/jpeg |
| ExtractDischarge.CharCodes | supabase/functions/extract-discharge/index.ts:58-61 | One char code per character, in order |
| ExtractDischarge.BinaryString | supabase/functions/extract-discharge/index.ts:56-61 | The loop builds the string whose char codes are the file's bytes |
| ExtractDischarge.StripLeadingFence | supabase/functions/extract-discharge/index.ts:153 | Text not opening with a fence is left alone |
| ExtractDischarge.StripTrailingFence | supabase/functions/extract-discharge/index.ts:153 | Text not closing with a fence is left alone; a closing fence removes at least three characters |
| ExtractDischarge.StripFences | supabase/functions/extract-discharge/index.ts:153 | Computes the two `replace` calls and the `trim` (stated by `FenceFreeOnlyTrimmed`, `FencedBodyRoundTrip` and `DefaultTextUnchanged`) |
| ExtractDischarge.FenceFreeOnlyTrimmed | supabase/functions/extract-discharge/index.ts:153 | Fence-free text is only trimmed |
| ExtractDischarge.StripLeadingFenceOf | supabase/functions/extract-discharge/index.ts:153 | Behind an opening fence the optional "json" tag and the white space after it go |
| ExtractDischarge.LeadingFenceRemoved | supabase/functions/extract-discharge/index.ts:153 | A fence, an optional tag in any case and a newline go, with the white space after them |
| ExtractDischarge.FenceAndTagRemoved | supabase/functions/extract-discharge/index.ts:153 | The fence and tag go, leaving the newline to the trim |
| ExtractDischarge.TagDropped | supabase/functions/extract-discharge/index.ts:153 | After a "json" tag in any case, or none, what remains is the newline and the rest |
| ExtractDischarge.TrailingFenceRemoved | supabase/functions/extract-discharge/index.ts:153 | A closing fence with one newline before it goes |
| ExtractDischarge.OpeningFenceRemoved | supabase/functions/extract-discharge/index.ts:153 | Removing the opening fence of a block leaves the body, front-trimmed, and the closing fence |
| ExtractDischarge.FencedBodyRoundTrip | supabase/functions/extract-discharge/index.ts:153 | A body wrapped in a fenced block, tagged or not, comes back trimmed |
| ExtractDischarge.TrimStartIdempotent | supabase/functions/extract-discharge/index.ts:153 | Trimming after a front trim is just trimming |
| ExtractDischarge.DefaultTextUnchanged | supabase/functions/extract-discharge/index.ts:150-153 | The default reply "{}" passes through the stripping unchanged |
| ExtractDischarge.ApiErrorMessage | supabase/functions/extract-discharge/index.ts:145 | A `null` body throws the TypeError of reading `error`; otherwise the message is never null: the API's own message when present, else "Claude API error" |
| ExtractDischarge.Field | supabase/functions/extract-discharge/index.ts:145-150 | Computes a property read with `?.` on a non-null value: the key's value in an object, missing otherwise |
| ExtractDischarge.ReplyText | supabase/functions/extract-discharge/index.ts:150 | A `null` body throws the TypeError of reading `content`; otherwise the text is never null: the first block's text (array element or key "0") when present, else "{}" |
| ExtractDischarge.FirstBlock | supabase/functions/extract-discharge/index.ts:150 | Computes `content?.[0]`: an array's first element or an object's key "0", missing otherwise |
| ExtractDischarge.ErrorResponse | supabase/functions/extract-discharge/index.ts:145-185 | Computes a JSON `{ error: message }` response with the given status |
| ExtractDischarge.Caught | supabase/functions/extract-discharge/index.ts:180-185 | Computes the catch's answer: `{ error: message }` with status 500 |
| ExtractDischarge.Admitted | supabase/functions/extract-discharge/index.ts:21-34 | A request past the preflight, the authorization check and the body read (an update is written iff admitted: `Handle`) |
| ExtractDischarge.Handle | supabase/functions/extract-discharge/index.ts:21-185 | OPTIONS answers "ok" with no update; no authorization gives 401 with no update; a body read that throws answers `{ error: message }` with 500 and no update; an admitted request is marked processing first; a failed download answers failed/400, a thrown model call `Caught(message)`; 200 iff OPTIONS or review; a failed status gives 400 or 500 |
| ExtractDischarge.Process | supabase/functions/extract-discharge/index.ts:36-185 | A failed download gives failed/400; the file goes out with its media type and bytes; a thrown model call answers `Caught(message)` with no failed update; a non-ok API marks the scan failed first and answers 500 with the API's message, or with the TypeError's message for a `null` body; on an ok reply a `null` body or a non-string text answers `Caught` with the TypeError's message, a parse failure gives failed/500 with the raw text and a success review/200 with `{ success: true, extracted_data }` |
| ExtractDischarge.Interpret | supabase/functions/extract-discharge/index.ts:150-185 | A `null` body or a non-string reply text throws (`Caught` with the error's message, no failed update); otherwise the stripped text is parsed: failure gives failed/500 storing the raw text, success review/200 answering `{ success: true, extracted_data }` with the data |
| JsStrings.TrimStart | supabase/functions/extract-discharge/index.ts:153 | The result is no longer and does not start with white space |
| JsStrings.TrimStartIsSuffix | supabase/functions/extract-discharge/index.ts:153 | trimStart keeps a suffix of its input |
| JsStrings.TrimStartWhite | supabase/functions/extract-discharge/index.ts:153 | What trimStart drops is all white space |
| JsStrings.TrimEnd | supabase/functions/extract-discharge/index.ts:153 | The result is no longer and does not end with white space |
| JsStrings.TrimEndIsPrefix | supabase/functions/extract-discharge/index.ts:153 | trimEnd keeps a prefix of its input |
| JsStrings.TrimEndWhite | supabase/functions/extract-discharge/index.ts:153 | What trimEnd drops is all white space |
| JsStrings.Trim | supabase/functions/extract-discharge/index.ts:153 | No white space at either end |
| JsStrings.TrimOnlyWhite | supabase/functions/extract-discharge/index.ts:153 | trim removes only white space, and only from the two ends |
| JsStrings.TrimSurrounded | src/lib/queries/analytics.ts:163 | White space added around a string does not survive trimming |
| JsStrings.TrimStartAllWhite | supabase/functions/extract-discharge/index.ts:153 | An all-white string trims to nothing |
| JsStrings.TrimStartPrefix | supabase/functions/extract-discharge/index.ts:153 | A white prefix makes no difference to trimStart |
| JsStrings.TrimStartSuffix | supabase/functions/extract-discharge/index.ts:153 | trimStart looks into an appended part only when the front is all white |
| JsStrings.TrimStartDropWhite | supabase/functions/extract-discharge/index.ts:153 | A white first character is dropped |
| JsStrings.TrimStartKeep | supabase/functions/extract-discharge/index.ts:153 | A string starting with a non-white character is kept |
| JsStrings.TrimEndSuffix | supabase/functions/extract-discharge/index.ts:153 | A white suffix makes no difference to trimEnd |
| JsStrings.Lower | src/lib/queries/analytics.ts:163 | `toLowerCase` maps each character, keeping the length |
| JsStrings.Upper | src/components/patients/patient-table.tsx:26 | `toUpperCase` maps each character, keeping the length |
| JsStrings.Split | src/components/patients/patient-table.tsx:23 | `split` yields at least one piece and no piece holds the separator |
| JsStrings.SplitJoin | src/components/patients/patient-table.tsx:23 | Joining the pieces with the separator gives the string back |
| JsStrings.Join | src/components/patients/patient-table.tsx:25 | Computes the pieces joined with the separator, the inverse of `Split` (`SplitJoin`, `JoinSplit`) |
| JsStrings.SplitNoSep | src/components/patients/patient-table.tsx:23 | A separator-free string splits into itself |
| JsStrings.SplitConcat | src/components/patients/patient-table.tsx:23 | A separator-free piece before the separator splits off first |
| JsStrings.JoinSplit | src/components/patients/patient-table.tsx:23 | Splitting the join of separator-free pieces gives the pieces back |

## Left out

- Canvas drawing, `getImageData`, the full-resolution capture and its JPEG encoding. A tick is handed the analysis frame's bytes, and a capture is a flag. The analysis frame is fixed at 160x120 RGBA, as the code draws it.
- The `captureCtx` null case. The model always delivers the capture. Counter and cooldown are reset either way, as in the code.
- `setInterval`, `Date.now`, React state, refs and effects. Each tick and each handler runs atomically with an explicit clock reading.
- The interleaving of awaited handlers is not modelled. Each signalling handler runs to completion as one step.
- The peer connection (`RTCPeerConnection`, track handling, `setLocalDescription`). Each call that can fail has its outcome as a boolean parameter, except `addIceCandidate`, whose rejection is only logged, and the session descriptions it produces are parameters. What was applied is a ghost record.
- IEEE-754 arithmetic. Scores and averages are exact rationals, and `Math.round` is exact rounding.
- The NaN behaviour of `Math.min`/`Math.max` in `ProgressBar.Clamp`: a NaN input is not modelled.
- Date arithmetic (`date-fns`, `toISOString`, `new Date(...).getTime()`). Day keys and timestamps are inputs, and the model allows the 30 day keys to repeat, as a daylight-saving change can make them. An invalid timestamp, which sorts unpredictably, is not modelled.
- `PathwayProgress.ProgressPct` requires `totalDays > 0`, and so do `PathwayProgress.BuildPathway` and `PathwayProgress.DemoCard`, which call it. A pathway of zero days would divide by zero in the code; the model excludes that case instead of modelling its Infinity or NaN.
- `JsStrings.Lower` and `JsStrings.Upper` map ASCII letters only. Non-ASCII case mapping is not modelled.
- `PatientTable.Initials` takes whole Unicode scalar values, where `n[0]` and `slice(0, 2)` take UTF-16 code units. For a word starting with a character outside the Basic Multilingual Plane (an emoji), the code yields a lone surrogate and the character fills both slots; the model keeps the whole character. Strings are `seq<char>`, and a Dafny `char` cannot be a surrogate.
- `JSON.parse` is a parameter (`None` when it throws). The edge function's output JSON is not serialised.
- `btoa` (base64, section 4 of RFC 4648) is not modelled. The model records the binary string that would be encoded.
- Supabase queries, storage, the model API `fetch`, `Deno.serve` and the CORS headers. Their results are parameters, and the database writes are the returned list of status updates.
- `ExtractDischarge.Handle` states the preflight, authorization and body guards with their full responses, the download failure, a thrown model call and the outcome summary. The reply and parse stages are stated in full by `ExtractDischarge.Process` and `ExtractDischarge.Interpret`, which `Handle` calls.
- A thrown value that is not an `Error` answers "Unknown error" in the catch. The model's thrown outcomes carry the message the catch answers with, so that case is one choice of that message.
- `ScannerSchema.ParseExtracted` places every issue at its top-level key. zod's nested issue paths and exact messages for items are not modelled. The confirm form's messages for its two required fields are exact.
- JSX rendering, styling, icons and charts are not modelled, nor are the other pages and forms of the dashboard.

=== FILE: analytics.dfy ===
/**
 * The rollups behind the analytics page, from the rows the queries return. A query that
 * yields `null` data is treated by every function exactly like an empty result, so it is
 * modelled as the empty sequence; the physician's patient ids are passed in.
 */
module Analytics {
  import opened Wrappers
  import opened JsMath
  import opened JsStrings
  import opened Sorting

  // ---------------------------------------------------------------------------
  // getPatientStats

  datatype Assignment = Assignment(id: string, isActive: bool)

  datatype PatientStats = PatientStats(total: nat, active: nat, completed: int)

  /** `filter((a) => a.is_active).length`. */
  function CountActive(assignments: seq<Assignment>): (n: nat)
    ensures n <= |assignments|
    ensures n == |assignments| <==> forall i :: 0 <= i < |assignments| ==> assignments[i].isActive
  {
    if assignments == [] then 0
    else CountActive(assignments[..|assignments| - 1]) + (if assignments[|assignments| - 1].isActive then 1 else 0)
  }

  function GetPatientStats(assignments: seq<Assignment>): (s: PatientStats)
    ensures s.total == |assignments| && s.active == CountActive(assignments)
    ensures s.active + s.completed == s.total && s.completed >= 0
    ensures s.completed == 0 <==> forall i :: 0 <= i < |assignments| ==> assignments[i].isActive
  {
    var total := |assignments|;
    var active := CountActive(assignments);
    PatientStats(total, active, total - active)
  }

  // ---------------------------------------------------------------------------
  // getAvgQuizScore

  /** Number of true flags (`filter((r) => r.is_correct).length`). */
  function CountTrue(flags: seq<bool>): (n: nat)
    ensures n <= |flags|
  {
    if flags == [] then 0 else CountTrue(flags[..|flags| - 1]) + (if flags[|flags| - 1] then 1 else 0)
  }

  /** `is_correct` of every response of the physician's patients. */
  function GetAvgQuizScore(patientIds: seq<string>, responses: seq<bool>): (r: int)
    ensures 0 <= r <= 100
    ensures patientIds == [] || responses == [] ==> r == 0
    ensures patientIds != [] && responses != [] ==> r == RoundPct(CountTrue(responses), |responses|)
  {
    if patientIds == [] || responses == [] then 0
    else
      RoundPctBounds(CountTrue(responses), |responses|);
      RoundPct(CountTrue(responses), |responses|)
  }

  /** All responses correct gives 100, none correct gives 0. */
  lemma {:induction false} AvgQuizScoreExtremes(patientIds: seq<string>, responses: seq<bool>)
    requires patientIds != [] && responses != []
    ensures (forall i :: 0 <= i < |responses| ==> responses[i]) ==> GetAvgQuizScore(patientIds, responses) == 100
    ensures (forall i :: 0 <= i < |responses| ==> !responses[i]) ==> GetAvgQuizScore(patientIds, responses) == 0
  {
    CountTrueAll(responses);
    RoundPctBounds(CountTrue(responses), |responses|);
  }

  lemma {:induction false} CountTrueAll(flags: seq<bool>)
    ensures (forall i :: 0 <= i < |flags| ==> flags[i]) ==> CountTrue(flags) == |flags|
    ensures (forall i :: 0 <= i < |flags| ==> !flags[i]) ==> CountTrue(flags) == 0
  {
    if flags != [] {
      CountTrueAll(flags[..|flags| - 1]);
    }
  }

  // ---------------------------------------------------------------------------
  // getAvgVideoCompletion

  datatype ProgressRow = ProgressRow(furthestSeconds: nat, moduleId: string)
  datatype ModuleRow = ModuleRow(id: string, durationSeconds: nat)

  /** `durationMap.get(id)`: the map is built from the rows in order, so the last row for an id wins. */
  function DurationOf(modules: seq<ModuleRow>, id: string): (d: Option<nat>)
    ensures d.Some? <==> exists i :: 0 <= i < |modules| && modules[i].id == id
  {
    if modules == [] then None
    else if modules[|modules| - 1].id == id then Some(modules[|modules| - 1].durationSeconds)
    else DurationOf(modules[..|modules| - 1], id)
  }

  /** Building the map from the rows in order, the last row with a given id wins. */
  lemma {:induction false} DurationOfLastRow(modules: seq<ModuleRow>, id: string)
    requires DurationOf(modules, id).Some?
    ensures exists i :: 0 <= i < |modules| && modules[i].id == id && modules[i].durationSeconds == DurationOf(modules, id).value
                          && forall j :: i < j < |modules| ==> modules[j].id != id
  {
    var n := |modules| - 1;
    if modules[n].id != id {
      var init := modules[..n];
      DurationOfLastRow(init, id);
      var i :| 0 <= i < |init| && init[i].id == id && init[i].durationSeconds == DurationOf(init, id).value
               && forall j :: i < j < |init| ==> init[j].id != id;
      assert modules[i] == init[i];
      assert DurationOf(modules, id) == DurationOf(init, id);
      forall j | i < j < |modules| ensures modules[j].id != id {
        if j < n {
          assert modules[j] == init[j];
        }
      }
    } else {
      assert modules[n].durationSeconds == DurationOf(modules, id).value;
    }
  }

  /**
   * `Math.min(furthest / duration, 1)` with a missing duration read as 1. A zero duration
   * gives `Infinity` (clamped to 1) for a positive position and `NaN` (here None) for 0.
   */
  function Contribution(furthest: nat, duration: Option<nat>): (c: Option<real>)
    ensures c.Some? ==> 0.0 <= c.value <= 1.0
    ensures c.None? <==> duration == Some(0) && furthest == 0
  {
    var d := duration.GetOr(1);
    if d == 0 then (if furthest > 0 then Some(1.0) else None)
    else Some(MinReal(furthest as real / d as real, 1.0))
  }

  /** `totalPct` after the given rows; None once a NaN has entered the sum. */
  function TotalPct(progress: seq<ProgressRow>, modules: seq<ModuleRow>): (t: Option<real>)
    ensures t.Some? ==> 0.0 <= t.value <= |progress| as real
  {
    if progress == [] then Some(0.0)
    else
      var last := progress[|progress| - 1];
      var rest := TotalPct(progress[..|progress| - 1], modules);
      var c := Contribution(last.furthestSeconds, DurationOf(modules, last.moduleId));
      if rest.None? || c.None? then None else Some(rest.value + c.value)
  }

  /** The sum is NaN exactly when some row contributes NaN. */
  lemma {:induction false} TotalPctNaN(progress: seq<ProgressRow>, modules: seq<ModuleRow>)
    ensures TotalPct(progress, modules).None? <==>
      exists i :: 0 <= i < |progress| && Contribution(progress[i].furthestSeconds, DurationOf(modules, progress[i].moduleId)).None?
  {
    if progress != [] {
      var n := |progress| - 1;
      TotalPctNaN(progress[..n], modules);
      assert forall i :: 0 <= i < n ==> progress[..n][i] == progress[i];
    }
  }

  /** What `getAvgVideoCompletion` returns: 0 without patients or rows, else the rounded mean of the capped completions. */
  function AvgVideoCompletion(patientIds: seq<string>, progress: seq<ProgressRow>, modules: seq<ModuleRow>): (r: Percent)
    ensures patientIds == [] || progress == [] ==> r == Value(0)
    ensures r.Value? ==> 0 <= r.pct <= 100
    ensures r.NaN? <==>
      patientIds != [] &&
      exists i :: 0 <= i < |progress| && progress[i].furthestSeconds == 0 && DurationOf(modules, progress[i].moduleId) == Some(0)
  {
    TotalPctNaN(progress, modules);
    if patientIds == [] || progress == [] then Value(0)
    else
      match TotalPct(progress, modules)
      case None => NaN
      case Some(t) =>
        MeanBounds(t, |progress|);
        Value(Round(t / |progress| as real * 100.0))
  }

  /** `getAvgVideoCompletion`: the loop summing each row's capped completion, then the rounded mean. */
  method GetAvgVideoCompletion(patientIds: seq<string>, progress: seq<ProgressRow>, modules: seq<ModuleRow>) returns (r: Percent)
    ensures r == AvgVideoCompletion(patientIds, progress, modules)
  {
    if |patientIds| == 0 {
      return Value(0);
    }
    if |progress| == 0 {
      return Value(0);
    }
    var totalPct := 0.0;
    var isNaN := false;
    var i := 0;
    while i < |progress|
      invariant 0 <= i <= |progress|
      invariant isNaN <==> TotalPct(progress[..i], modules).None?
      invariant !isNaN ==> totalPct == TotalPct(progress[..i], modules).value
    {
      var p := progress[i];
      var duration := DurationOf(modules, p.moduleId).GetOr(1);
      if duration == 0 {
        if p.furthestSeconds > 0 {
          totalPct := totalPct + 1.0;
        } else {
          isNaN := true;
        }
      } else {
        totalPct := totalPct + MinReal(p.furthestSeconds as real / duration as real, 1.0);
      }
      assert progress[..i + 1][..i] == progress[..i];
      i := i + 1;
    }
    assert progress[..i] == progress;
    if isNaN {
      r := NaN;
    } else {
      r := Value(Round(totalPct / |progress| as real * 100.0));
    }
  }

  lemma MeanBounds(total: real, n: nat)
    requires n > 0 && 0.0 <= total <= n as real
    ensures 0 <= Round(total / n as real * 100.0) <= 100
  {
    var x := total / n as real;
    assert x * n as real == total;
    assert 0.0 <= x <= 1.0;
  }

  // ---------------------------------------------------------------------------
  // getEngagementOverTime

  const DayCount: nat := 30

  datatype DayBucket = DayBucket(date: string, videoViews: nat, quizCompletions: nat)

  /** `ts.split("T")[0]`: the date part of an ISO timestamp. */
  function DateKey(ts: string): string {
    Split(ts, 'T')[0]
  }

  /** Number of rows whose timestamp is present and falls on day `key`. */
  function CountOnDay(key: string, rows: seq<Option<string>>): (n: nat)
    ensures n <= |rows|
  {
    if rows == [] then 0
    else
      var last := rows[|rows| - 1];
      CountOnDay(key, rows[..|rows| - 1]) + (if last.Some? && DateKey(last.value) == key then 1 else 0)
  }

  /** One more row adds one to its own day's count and nothing to the others. */
  lemma CountOnDayStep(rows: seq<Option<string>>, i: nat)
    requires i < |rows|
    ensures forall k ::
      CountOnDay(k, rows[..i + 1]) == CountOnDay(k, rows[..i]) + (if rows[i].Some? && DateKey(rows[i].value) == k then 1 else 0)
  {
    assert rows[..i + 1][..i] == rows[..i];
  }

  /** Quiz rows always carry a `created_at`. */
  function Present(rows: seq<string>): (r: seq<Option<string>>)
    ensures |r| == |rows| && forall i :: 0 <= i < |rows| ==> r[i] == Some(rows[i])
  {
    seq(|rows|, i requires 0 <= i < |rows| => Some(rows[i]))
  }

  /** `if (!vp.first_watched_at) continue`: a null or empty timestamp is skipped, so it reads as absent. */
  function Truthful(rows: seq<Option<string>>): (r: seq<Option<string>>)
    ensures |r| == |rows|
    ensures forall i :: 0 <= i < |rows| ==> r[i] == (if rows[i].Some? && rows[i].value != "" then rows[i] else None)
  {
    seq(|rows|, i requires 0 <= i < |rows| => if rows[i].Some? && rows[i].value != "" then rows[i] else None)
  }

  predicate Distinct<T(==)>(s: seq<T>) {
    forall i, j :: 0 <= i < j < |s| ==> s[i] != s[j]
  }

  /**
   * The keys of `dayMap` in the order a Map keeps them: a key set a second time keeps the
   * place of its first insertion.
   */
  function DayKeys(days: seq<string>): (ks: seq<string>)
    ensures Distinct(ks)
    ensures forall k :: k in ks <==> k in days
    ensures |ks| <= |days|
  {
    if days == [] then []
    else
      var ks := DayKeys(days[..|days| - 1]);
      var d := days[|days| - 1];
      if d in ks then ks else ks + [d]
  }

  /**
   * One bucket per day key exactly when the keys are distinct: a repeated key (two dates
   * that map to the same UTC day) leaves fewer buckets, and distinct keys keep their order.
   */
  lemma {:induction false} DayKeysDistinct(days: seq<string>)
    ensures |DayKeys(days)| == |days| <==> Distinct(days)
    ensures Distinct(days) ==> DayKeys(days) == days
  {
    if days != [] {
      var init := days[..|days| - 1];
      var d := days[|days| - 1];
      DayKeysDistinct(init);
      assert days == init + [d];
      if d in init {
        var j :| 0 <= j < |init| && init[j] == d;
        assert days[j] == days[|days| - 1];
      } else {
        assert Distinct(days) <==> Distinct(init);
      }
    }
  }

  /** The zeroed buckets: one per day key, in the Map's insertion order. */
  method ZeroBuckets(days: seq<string>) returns (m: map<string, DayBucket>, order: seq<string>)
    ensures forall k :: k in m <==> k in days
    ensures forall k :: k in m ==> m[k] == DayBucket(k, 0, 0)
    ensures order == DayKeys(days)
  {
    m := map[];
    order := [];
    for i := 0 to |days|
      invariant forall k :: k in m <==> k in days[..i]
      invariant forall k :: k in m ==> m[k] == DayBucket(k, 0, 0)
      invariant order == DayKeys(days[..i])
    {
      assert days[..i + 1][..i] == days[..i];
      if days[i] !in m {
        order := order + [days[i]];
      }
      m := m[days[i] := DayBucket(days[i], 0, 0)];
    }
    assert days[..|days|] == days;
  }

  /** The loop over the video-progress rows: each row with a timestamp on a bucketed day bumps that day's views. */
  method AddVideoViews(m: map<string, DayBucket>, firstWatched: seq<Option<string>>) returns (m': map<string, DayBucket>)
    ensures forall k :: k in m' <==> k in m
    ensures forall k :: k in m ==> m'[k] == m[k].(videoViews := m[k].videoViews + CountOnDay(k, Truthful(firstWatched)))
  {
    ghost var rows := Truthful(firstWatched);
    m' := m;
    for i := 0 to |firstWatched|
      invariant forall k :: k in m' <==> k in m
      invariant forall k :: k in m ==> m'[k] == m[k].(videoViews := m[k].videoViews + CountOnDay(k, rows[..i]))
    {
      assert rows[..i + 1][..i] == rows[..i];
      var vp := firstWatched[i];
      ghost var prev := m';
      if vp.Some? && vp.value != "" {
        var key := DateKey(vp.value);
        if key in m' {
          var entry := m'[key];
          m' := m'[key := entry.(videoViews := entry.videoViews + 1)];
        }
      }
      forall k | k in m
        ensures m'[k] == m[k].(videoViews := m[k].videoViews + CountOnDay(k, rows[..i + 1]))
      {
        var hit := rows[i].Some? && DateKey(rows[i].value) == k;
        assert CountOnDay(k, rows[..i + 1]) == CountOnDay(k, rows[..i]) + (if hit then 1 else 0);
        assert m'[k] == if hit then prev[k].(videoViews := prev[k].videoViews + 1) else prev[k];
      }
    }
    assert rows[..|rows|] == rows;
  }

  /** The loop over the quiz responses: each response on a bucketed day bumps that day's completions. */
  method AddQuizCompletions(m: map<string, DayBucket>, quizCreated: seq<string>) returns (m': map<string, DayBucket>)
    ensures forall k :: k in m' <==> k in m
    ensures forall k :: k in m ==> m'[k] == m[k].(quizCompletions := m[k].quizCompletions + CountOnDay(k, Present(quizCreated)))
  {
    var rows := Present(quizCreated);
    m' := m;
    for i := 0 to |rows|
      invariant forall k :: k in m' <==> k in m
      invariant forall k :: k in m ==> m'[k] == m[k].(quizCompletions := m[k].quizCompletions + CountOnDay(k, rows[..i]))
    {
      assert rows[..i + 1][..i] == rows[..i];
      var key := DateKey(quizCreated[i]);
      assert rows[i] == Some(quizCreated[i]);
      ghost var prev := m';
      if key in m' {
        var entry := m'[key];
        m' := m'[key := entry.(quizCompletions := entry.quizCompletions + 1)];
      }
      forall k | k in m
        ensures m'[k] == m[k].(quizCompletions := m[k].quizCompletions + CountOnDay(k, rows[..i + 1]))
      {
        assert CountOnDay(k, rows[..i + 1]) == CountOnDay(k, rows[..i]) + (if key == k then 1 else 0);
        assert m'[k] == if key == k then prev[k].(quizCompletions := prev[k].quizCompletions + 1) else prev[k];
      }
    }
    assert rows[..|rows|] == rows;
  }

  /**
   * `getEngagementOverTime`: zeroed buckets keyed by the last 30 day keys (oldest first),
   * then one loop per query bumping the bucket of each row's day, and the Map's entries in
   * insertion order. Two of the 30 dates can share a UTC day key (around a daylight-saving
   * change); the second `set` then reuses the first bucket and fewer than 30 come back.
   */
  method GetEngagementOverTime(patientIds: seq<string>, days: seq<string>, firstWatched: seq<Option<string>>, quizCreated: seq<string>)
    returns (r: seq<DayBucket>)
    requires |days| == DayCount
    ensures patientIds == [] ==> r == []
    ensures patientIds != [] ==> |r| == |DayKeys(days)|
    ensures patientIds != [] ==> forall i :: 0 <= i < |r| ==>
      && r[i].date == DayKeys(days)[i]
      && r[i].videoViews == CountOnDay(r[i].date, Truthful(firstWatched))
      && r[i].quizCompletions == CountOnDay(r[i].date, Present(quizCreated))
    ensures patientIds != [] ==> (|r| == DayCount <==> Distinct(days))
    ensures patientIds != [] && Distinct(days) ==> forall i :: 0 <= i < |r| ==> r[i].date == days[i]
  {
    if |patientIds| == 0 {
      return [];
    }
    var zero, order := ZeroBuckets(days);
    var withViews := AddVideoViews(zero, firstWatched);
    var dayMap := AddQuizCompletions(withViews, quizCreated);
    forall k | k in order
      ensures k in dayMap && dayMap[k] == DayBucket(k, CountOnDay(k, Truthful(firstWatched)), CountOnDay(k, Present(quizCreated)))
    {
      assert zero[k] == DayBucket(k, 0, 0);
      assert withViews[k] == DayBucket(k, CountOnDay(k, Truthful(firstWatched)), 0);
    }
    r := seq(|order|, i requires 0 <= i < |order| => dayMap[order[i]]);
    DayKeysDistinct(days);
  }

  /** Sum of one bucket field over the day keys. */
  function SumOverDays(days: seq<string>, rows: seq<Option<string>>): nat {
    if days == [] then 0 else SumOverDays(days[..|days| - 1], rows) + CountOnDay(days[|days| - 1], rows)
  }

  /** Rows whose timestamp is present and whose day is one of the keys. */
  function CountInDays(days: seq<string>, rows: seq<Option<string>>): (n: nat)
    ensures n <= |rows|
  {
    if rows == [] then 0
    else
      var last := rows[|rows| - 1];
      CountInDays(days, rows[..|rows| - 1]) + (if last.Some? && DateKey(last.value) in days then 1 else 0)
  }

  /**
   * Counting identity of the buckets: over distinct day keys, a row with no timestamp or
   * with a day outside the window is counted nowhere, and every other row exactly once.
   */
  lemma {:induction false} BucketsCountEachRowOnce(days: seq<string>, rows: seq<Option<string>>)
    requires Distinct(days)
    ensures SumOverDays(days, rows) == CountInDays(days, rows)
    decreases |rows|
  {
    if rows != [] {
      var init := rows[..|rows| - 1];
      var last := rows[|rows| - 1];
      assert rows == init + [last];
      BucketsCountEachRowOnce(days, init);
      SumOverDaysStep(days, init, last);
    } else {
      SumOverDaysNoRows(days);
    }
  }

  lemma {:induction false} SumOverDaysNoRows(days: seq<string>)
    ensures SumOverDays(days, []) == 0
  {
    if days != [] {
      SumOverDaysNoRows(days[..|days| - 1]);
    }
  }

  /** Adding one row adds to the day sum the number of keys equal to its day. */
  lemma {:induction false} SumOverDaysStep(days: seq<string>, init: seq<Option<string>>, last: Option<string>)
    requires Distinct(days)
    ensures SumOverDays(days, init + [last]) ==
      SumOverDays(days, init) + (if last.Some? && DateKey(last.value) in days then 1 else 0)
    decreases |days|
  {
    var rows := init + [last];
    assert rows[..|rows| - 1] == init;
    if days != [] {
      var front := days[..|days| - 1];
      assert Distinct(front);
      SumOverDaysStep(front, init, last);
      assert last.Some? && DateKey(last.value) == days[|days| - 1] ==> DateKey(last.value) !in front;
      assert forall k :: k in days <==> k in front || k == days[|days| - 1];
    }
  }

  // ---------------------------------------------------------------------------
  // getTopSearches

  const TopSearchLimit: nat := 10

  datatype SearchLog = SearchLog(query: string, resultsReturned: int)
  datatype SearchEntry = SearchEntry(query: string, count: nat, unresolved: nat)
  datatype TopSearches = TopSearches(searches: seq<SearchEntry>, unresolvedCount: nat)

  /** `toLowerCase().trim()`. */
  function Normalize(q: string): string {
    Trim(Lower(q))
  }

  /** Queries that differ only in letter case or in surrounding white space share a key. */
  lemma NormalizeMerges(q: string, q': string, w1: string, w2: string)
    requires Lower(q) == Lower(q') && AllWhite(w1) && AllWhite(w2)
    ensures Normalize(w1 + q' + w2) == Normalize(q)
  {
    LowerConcat(w1, q');
    LowerConcat(w1 + q', w2);
    LowerWhite(w1);
    LowerWhite(w2);
    TrimSurrounded(w1, Lower(q'), w2);
  }

  lemma LowerConcat(a: string, b: string)
    ensures Lower(a + b) == Lower(a) + Lower(b)
  {
  }

  lemma LowerWhite(w: string)
    requires AllWhite(w)
    ensures Lower(w) == w
  {
  }

  /** A log reduced to what the counting loop reads: its normalised query and whether it found nothing. */
  datatype Keyed = Keyed(key: string, unresolved: bool)

  function KeyOf(log: SearchLog): Keyed {
    Keyed(Normalize(log.query), log.resultsReturned == 0)
  }

  function KeyedLogs(logs: seq<SearchLog>): (ks: seq<Keyed>)
    ensures |ks| == |logs| && forall i :: 0 <= i < |logs| ==> ks[i] == KeyOf(logs[i])
  {
    seq(|logs|, i requires 0 <= i < |logs| => KeyOf(logs[i]))
  }

  /** Number of logs under key q. */
  function CountQuery(q: string, logs: seq<Keyed>): (n: nat)
    ensures n <= |logs|
  {
    if logs == [] then 0
    else CountQuery(q, logs[..|logs| - 1]) + (if logs[|logs| - 1].key == q then 1 else 0)
  }

  /** Number of logs under key q that returned no results. */
  function CountUnresolved(q: string, logs: seq<Keyed>): (n: nat)
    ensures n <= CountQuery(q, logs)
  {
    if logs == [] then 0
    else
      var last := logs[|logs| - 1];
      CountUnresolved(q, logs[..|logs| - 1]) + (if last.key == q && last.unresolved then 1 else 0)
  }

  /** The keys of `queryCount`, in the order a Map keeps them: first insertion first. */
  function Keys(logs: seq<Keyed>): (ks: seq<string>)
    ensures Distinct(ks)
    ensures forall q :: q in ks <==> CountQuery(q, logs) > 0
  {
    if logs == [] then []
    else
      var ks := Keys(logs[..|logs| - 1]);
      var q := logs[|logs| - 1].key;
      if q in ks then ks else ks + [q]
  }

  function EntryFor(q: string, logs: seq<Keyed>): SearchEntry {
    SearchEntry(q, CountQuery(q, logs), CountUnresolved(q, logs))
  }

  /** `Array.from(queryCount.entries())` with each entry spread out. */
  function Entries(logs: seq<Keyed>): (es: seq<SearchEntry>)
    ensures |es| == |Keys(logs)|
    ensures forall i :: 0 <= i < |es| ==> es[i] == EntryFor(Keys(logs)[i], logs)
  {
    var ks := Keys(logs);
    seq(|ks|, i requires 0 <= i < |ks| => EntryFor(ks[i], logs))
  }

  function EntryCount(e: SearchEntry): int { e.count }

  /** `logs.filter((l) => l.results_returned === 0).length`. */
  function CountZeroResults(logs: seq<SearchLog>): (n: nat)
    ensures n <= |logs|
  {
    if logs == [] then 0
    else CountZeroResults(logs[..|logs| - 1]) + (if logs[|logs| - 1].resultsReturned == 0 then 1 else 0)
  }

  /** The counting loop: `queryCount` holds, per key, the number of logs and of zero-result logs. */
  method CountQueries(logs: seq<Keyed>) returns (keys: seq<string>, queryCount: map<string, SearchEntry>)
    ensures keys == Keys(logs)
    ensures forall q :: q in queryCount <==> q in keys
    ensures forall q :: q in queryCount ==> queryCount[q] == EntryFor(q, logs)
  {
    keys := [];
    queryCount := map[];
    for i := 0 to |logs|
      invariant keys == Keys(logs[..i])
      invariant forall q :: q in queryCount <==> q in keys
      invariant forall q :: q in queryCount ==> queryCount[q] == EntryFor(q, logs[..i])
    {
      assert logs[..i + 1][..i] == logs[..i];
      var q := logs[i].key;
      var existing := if q in queryCount then queryCount[q] else SearchEntry(q, 0, 0);
      existing := existing.(count := existing.count + 1);
      if logs[i].unresolved {
        existing := existing.(unresolved := existing.unresolved + 1);
      }
      if q !in keys {
        keys := keys + [q];
      }
      queryCount := queryCount[q := existing];
    }
    assert logs[..|logs|] == logs;
  }

  /**
   * `getTopSearches`: one loop counting each normalised query (and its zero-result logs),
   * then the entries sorted by count, most frequent first, cut to ten.
   */
  method GetTopSearches(patientIds: seq<string>, logs: seq<SearchLog>) returns (r: TopSearches)
    ensures patientIds == [] || logs == [] ==> r == TopSearches([], 0)
    ensures patientIds != [] ==>
      r.searches == Take(SortDesc(Entries(KeyedLogs(logs)), EntryCount), TopSearchLimit)
      && r.unresolvedCount == CountZeroResults(logs)
    ensures |r.searches| <= TopSearchLimit && SortedDesc(r.searches, EntryCount)
    ensures forall e :: e in r.searches ==>
      var ks := KeyedLogs(logs); e.count == CountQuery(e.query, ks) > 0 && e.unresolved == CountUnresolved(e.query, ks)
  {
    if |patientIds| == 0 || |logs| == 0 {
      return TopSearches([], 0);
    }
    var keyed := KeyedLogs(logs);
    var keys, queryCount := CountQueries(keyed);
    var entries := seq(|keys|, j requires 0 <= j < |keys| => queryCount[keys[j]]);
    assert entries == Entries(keyed);
    var sorted := SortDesc(entries, EntryCount);
    var searches := Take(sorted, TopSearchLimit);
    forall e | e in searches
      ensures e.count == CountQuery(e.query, keyed) > 0 && e.unresolved == CountUnresolved(e.query, keyed)
    {
      TopEntryCounted(keyed, e);
    }
    r := TopSearches(searches, CountZeroResults(logs));
  }

  /** Every entry that survives the sort and the cut carries its query's own counts. */
  lemma TopEntryCounted(ks: seq<Keyed>, e: SearchEntry)
    requires e in Take(SortDesc(Entries(ks), EntryCount), TopSearchLimit)
    ensures e.count == CountQuery(e.query, ks) > 0 && e.unresolved == CountUnresolved(e.query, ks)
  {
    var sorted := SortDesc(Entries(ks), EntryCount);
    assert e in sorted;
    assert e in multiset(sorted);
    assert e in Entries(ks);
  }

  /** Sum of the counts of a list of entries. */
  function SumCounts(es: seq<SearchEntry>): nat {
    if es == [] then 0 else SumCounts(es[..|es| - 1]) + es[|es| - 1].count
  }

  /** Sum of CountQuery over a list of keys. */
  function SumQueryCounts(ks: seq<string>, logs: seq<Keyed>): nat {
    if ks == [] then 0 else SumQueryCounts(ks[..|ks| - 1], logs) + CountQuery(ks[|ks| - 1], logs)
  }

  /** Before truncation the entry counts add up to the number of logs. */
  lemma {:induction false} EntriesCountAllLogs(logs: seq<Keyed>)
    ensures SumCounts(Entries(logs)) == |logs|
  {
    KeysCountAllLogs(logs);
    SumCountsPrefix(logs, |Keys(logs)|);
    assert Entries(logs)[..|Keys(logs)|] == Entries(logs);
    assert Keys(logs)[..|Keys(logs)|] == Keys(logs);
  }

  lemma {:induction false} SumCountsPrefix(logs: seq<Keyed>, n: nat)
    requires n <= |Keys(logs)|
    ensures SumCounts(Entries(logs)[..n]) == SumQueryCounts(Keys(logs)[..n], logs)
  {
    var es := Entries(logs);
    var ks := Keys(logs);
    if n > 0 {
      SumCountsPrefix(logs, n - 1);
      assert es[..n][..n - 1] == es[..n - 1];
      assert ks[..n][..n - 1] == ks[..n - 1];
    }
  }

  lemma {:induction false} KeysCountAllLogs(logs: seq<Keyed>)
    ensures SumQueryCounts(Keys(logs), logs) == |logs|
  {
    if logs != [] {
      var init := logs[..|logs| - 1];
      var last := logs[|logs| - 1];
      var ks := Keys(init);
      KeysCountAllLogs(init);
      assert logs == init + [last];
      SumQueryCountsStep(ks, init, last);
      if last.key !in ks {
        assert Keys(logs) == ks + [last.key];
        assert (ks + [last.key])[..|ks|] == ks;
      }
    } else {
      assert Keys(logs) == [];
    }
  }

  /** Adding a log adds one to the key sum when its key is listed (keys distinct), and nothing otherwise. */
  lemma {:induction false} SumQueryCountsStep(ks: seq<string>, init: seq<Keyed>, last: Keyed)
    requires Distinct(ks)
    ensures SumQueryCounts(ks, init + [last]) == SumQueryCounts(ks, init) + (if last.key in ks then 1 else 0)
    decreases |ks|
  {
    var logs := init + [last];
    assert logs[..|logs| - 1] == init;
    if ks != [] {
      var front := ks[..|ks| - 1];
      assert Distinct(front);
      SumQueryCountsStep(front, init, last);
      assert forall k :: k in ks <==> k in front || k == ks[|ks| - 1];
    }
  }
}

=== FILE: document_stability.dfy ===
/**
 * The phone-side document stability detector: every sampling tick it downscales the
 * camera frame to a 160x120 RGBA analysis frame, scores its similarity with the previous
 * analysis frame, counts consecutive stable ticks and fires a full-resolution capture once
 * the run is long enough, then holds off for a cooldown window.
 *
 * Drawing and encoding are outside the model: a tick is handed the analysis frame's bytes
 * and the clock reading, and a capture is reported as a flag.
 */
module DocumentStability {
  import opened Wrappers

  const AnalysisWidth: nat := 160
  const AnalysisHeight: nat := 120
  const PixelCount: nat := AnalysisWidth * AnalysisHeight
  /** RGBA, one byte per channel. */
  const FrameBytes: nat := PixelCount * 4
  /** Largest possible sum of R, G and B differences: 255 * 3 per pixel. */
  const MaxDiff: nat := PixelCount * 765

  type Frame = seq<int>

  /** The bytes `getImageData(0, 0, 160, 120)` returns. */
  predicate ValidFrame(f: Frame) {
    |f| == FrameBytes && forall i :: 0 <= i < |f| ==> 0 <= f[i] <= 255
  }

  /** Tuning knobs of the hook (`stabilityThreshold`, `stableFrameCount`, `cooldownMs`). */
  datatype Config = Config(threshold: real, stableFrameCount: nat, cooldownMs: nat)

  const DefaultConfig := Config(0.88, 3, 2500)

  function Abs(x: int): nat { if x < 0 then -x else x }

  /** Sum of the absolute R, G and B differences of pixel p; the alpha byte is skipped. */
  function PixelDiff(cur: Frame, prev: Frame, p: nat): nat
    requires 4 * p + 3 < |cur| == |prev|
  {
    Abs(cur[4 * p] - prev[4 * p]) + Abs(cur[4 * p + 1] - prev[4 * p + 1]) + Abs(cur[4 * p + 2] - prev[4 * p + 2])
  }

  /** `totalDiff` after the first n pixels. */
  function DiffSum(cur: Frame, prev: Frame, n: nat): nat
    requires 4 * n <= |cur| == |prev|
  {
    if n == 0 then 0 else DiffSum(cur, prev, n - 1) + PixelDiff(cur, prev, n - 1)
  }

  /** `1 - totalDiff / maxDiff`, exactly. */
  function Similarity(cur: Frame, prev: Frame): (r: real)
    requires ValidFrame(cur) && ValidFrame(prev)
    ensures 0.0 <= r <= 1.0
  {
    DiffSumBound(cur, prev, PixelCount);
    1.0 - DiffSum(cur, prev, PixelCount) as real / MaxDiff as real
  }

  lemma {:induction false} DiffSumBound(cur: Frame, prev: Frame, n: nat)
    requires ValidFrame(cur) && ValidFrame(prev) && n <= PixelCount
    ensures DiffSum(cur, prev, n) <= 765 * n
  {
    if n > 0 {
      DiffSumBound(cur, prev, n - 1);
    }
  }

  /** A frame compared with itself scores exactly 1. */
  lemma {:induction false} SimilarityReflexive(f: Frame)
    requires ValidFrame(f)
    ensures Similarity(f, f) == 1.0
  {
    DiffSumSelf(f, PixelCount);
  }

  lemma {:induction false} DiffSumSelf(f: Frame, n: nat)
    requires 4 * n <= |f|
    ensures DiffSum(f, f, n) == 0
  {
    if n > 0 {
      DiffSumSelf(f, n - 1);
    }
  }

  /** The score does not depend on which frame is the previous one. */
  lemma {:induction false} SimilaritySymmetric(a: Frame, b: Frame)
    requires ValidFrame(a) && ValidFrame(b)
    ensures Similarity(a, b) == Similarity(b, a)
  {
    DiffSumSymmetric(a, b, PixelCount);
  }

  lemma {:induction false} DiffSumSymmetric(a: Frame, b: Frame, n: nat)
    requires 4 * n <= |a| == |b|
    ensures DiffSum(a, b, n) == DiffSum(b, a, n)
  {
    if n > 0 {
      DiffSumSymmetric(a, b, n - 1);
    }
  }

  /** Bytes at alpha positions (index mod 4 = 3) never affect the score. */
  lemma {:induction false} AlphaIgnored(cur: Frame, cur': Frame, prev: Frame)
    requires ValidFrame(cur) && ValidFrame(cur') && ValidFrame(prev)
    requires forall i :: 0 <= i < FrameBytes && i % 4 != 3 ==> cur[i] == cur'[i]
    ensures Similarity(cur, prev) == Similarity(cur', prev)
  {
    DiffSumAlpha(cur, cur', prev, PixelCount);
  }

  lemma {:induction false} DiffSumAlpha(cur: Frame, cur': Frame, prev: Frame, n: nat)
    requires 4 * n <= |cur| == |cur'| == |prev|
    requires forall i :: 0 <= i < 4 * n && i % 4 != 3 ==> cur[i] == cur'[i]
    ensures DiffSum(cur, prev, n) == DiffSum(cur', prev, n)
  {
    if n > 0 {
      var p := n - 1;
      ColourOffsets(p);
      assert cur[4 * p] == cur'[4 * p];
      assert cur[4 * p + 1] == cur'[4 * p + 1];
      assert cur[4 * p + 2] == cur'[4 * p + 2];
      DiffSumAlpha(cur, cur', prev, p);
      assert PixelDiff(cur, prev, p) == PixelDiff(cur', prev, p);
    }
  }

  /** The three colour bytes of pixel p are not at alpha positions. */
  lemma ColourOffsets(p: nat)
    ensures (4 * p) % 4 == 0 && (4 * p + 1) % 4 == 1 && (4 * p + 2) % 4 == 2
  {
  }

  /** A frame whose colour bytes are all v, fully opaque. */
  function Uniform(v: int): (f: Frame)
    requires 0 <= v <= 255
    ensures ValidFrame(f)
  {
    seq(FrameBytes, i => if i % 4 == 3 then 255 else v)
  }

  /** An all-black frame against an all-white frame scores exactly 0. */
  lemma BlackAgainstWhite()
    ensures Similarity(Uniform(0), Uniform(255)) == 0.0
  {
    DiffSumOpposite(Uniform(0), Uniform(255), PixelCount);
  }

  lemma {:induction false} DiffSumOpposite(black: Frame, white: Frame, n: nat)
    requires 4 * n <= |black| == |white|
    requires forall i :: 0 <= i < 4 * n && i % 4 != 3 ==> black[i] == 0 && white[i] == 255
    ensures DiffSum(black, white, n) == 765 * n
  {
    if n > 0 {
      var p := n - 1;
      ColourOffsets(p);
      DiffSumOpposite(black, white, p);
    }
  }

  /**
   * `computeSimilarity`: the stride-4 loop accumulating `totalDiff`, then
   * `1 - totalDiff / maxDiff`.
   */
  method ComputeSimilarity(current: Frame, prev: Frame) returns (score: real)
    requires ValidFrame(current) && ValidFrame(prev)
    ensures score == Similarity(current, prev)
  {
    var totalDiff := 0;
    var len := |current|;
    var i := 0;
    while i < len
      invariant 0 <= i <= len && i % 4 == 0
      invariant totalDiff == DiffSum(current, prev, i / 4)
    {
      totalDiff := totalDiff + Abs(current[i] - prev[i]);
      totalDiff := totalDiff + Abs(current[i + 1] - prev[i + 1]);
      totalDiff := totalDiff + Abs(current[i + 2] - prev[i + 2]);
      i := i + 4;
    }
    var pixelCount := len / 4;
    var maxDiff := pixelCount * 765;
    score := 1.0 - totalDiff as real / maxDiff as real;
  }

  /** What one analysed tick leaves behind, and what it reports. */
  datatype TickResult = TickResult(prev: Option<Frame>, stableCount: nat, cooldownUntil: int, score: real, captured: bool)

  /** `analyzeFrame` once the video is ready, as a function of the detector's state before the tick. */
  function Analyze(cfg: Config, prev: Option<Frame>, stableCount: nat, cooldownUntil: int, frame: Frame, now: int): TickResult
    requires ValidFrame(frame) && (prev.Some? ==> ValidFrame(prev.value))
  {
    if prev.None? then TickResult(Some(frame), stableCount, cooldownUntil, 0.0, false)
    else
      var score := Similarity(frame, prev.value);
      if now < cooldownUntil then TickResult(Some(frame), 0, cooldownUntil, score, false)
      else if score >= cfg.threshold then
        if stableCount + 1 >= cfg.stableFrameCount then TickResult(Some(frame), 0, now + cfg.cooldownMs, score, true)
        else TickResult(Some(frame), stableCount + 1, cooldownUntil, score, false)
      else TickResult(Some(frame), 0, cooldownUntil, score, false)
  }

  /** With no previous frame the tick stores a baseline, reports 0 and cannot capture. */
  lemma FirstTickIsBaseline(cfg: Config, stableCount: nat, cooldownUntil: int, frame: Frame, now: int)
    requires ValidFrame(frame)
    ensures var t := Analyze(cfg, None, stableCount, cooldownUntil, frame, now);
      t.prev == Some(frame) && t.score == 0.0 && !t.captured
      && t.stableCount == stableCount && t.cooldownUntil == cooldownUntil
  {
  }

  /**
   * Every analysed tick after the first keeps the current frame as the next previous one
   * and reports its similarity with the old one, in cooldown or not, capturing or not.
   */
  lemma TickReplacesPrevious(cfg: Config, prev: Frame, stableCount: nat, cooldownUntil: int, frame: Frame, now: int)
    requires ValidFrame(frame) && ValidFrame(prev)
    ensures var t := Analyze(cfg, Some(prev), stableCount, cooldownUntil, frame, now);
      t.prev == Some(frame) && t.score == Similarity(frame, prev)
  {
  }

  /** During cooldown the counter is forced to 0 and nothing is captured. */
  lemma CooldownSuppresses(cfg: Config, prev: Option<Frame>, stableCount: nat, cooldownUntil: int, frame: Frame, now: int)
    requires ValidFrame(frame) && (prev.Some? ==> ValidFrame(prev.value))
    requires prev.Some? && now < cooldownUntil
    ensures var t := Analyze(cfg, prev, stableCount, cooldownUntil, frame, now);
      t.stableCount == 0 && !t.captured && t.cooldownUntil == cooldownUntil
  {
  }

  /** A sub-threshold score resets the counter, however long the stable run was. */
  lemma UnstableResets(cfg: Config, prev: Frame, stableCount: nat, cooldownUntil: int, frame: Frame, now: int)
    requires ValidFrame(frame) && ValidFrame(prev)
    requires Similarity(frame, prev) < cfg.threshold
    ensures var t := Analyze(cfg, Some(prev), stableCount, cooldownUntil, frame, now);
      t.stableCount == 0 && !t.captured
  {
  }

  /**
   * A capture fires exactly when a stable, out-of-cooldown tick brings the counter to
   * `stableFrameCount`; it leaves the counter at 0 and opens a cooldown of `cooldownMs`.
   * Without a capture, the cooldown deadline does not move.
   */
  lemma CaptureExactly(cfg: Config, prev: Option<Frame>, stableCount: nat, cooldownUntil: int, frame: Frame, now: int)
    requires ValidFrame(frame) && (prev.Some? ==> ValidFrame(prev.value))
    ensures var t := Analyze(cfg, prev, stableCount, cooldownUntil, frame, now);
      && (t.captured <==> prev.Some? && now >= cooldownUntil && t.score >= cfg.threshold
                          && stableCount + 1 >= cfg.stableFrameCount)
      && (t.captured ==> t.stableCount == 0 && t.cooldownUntil == now + cfg.cooldownMs)
      && (!t.captured ==> t.cooldownUntil == cooldownUntil)
  {
  }

  /** The counter stays below `stableFrameCount` after every tick (or at 0 when that is 0). */
  predicate CounterInRange(cfg: Config, stableCount: nat) {
    stableCount < cfg.stableFrameCount || stableCount == 0
  }

  lemma CounterStaysInRange(cfg: Config, prev: Option<Frame>, stableCount: nat, cooldownUntil: int, frame: Frame, now: int)
    requires ValidFrame(frame) && (prev.Some? ==> ValidFrame(prev.value))
    requires CounterInRange(cfg, stableCount)
    ensures CounterInRange(cfg, Analyze(cfg, prev, stableCount, cooldownUntil, frame, now).stableCount)
  {
  }

  /** One sampling tick: the analysis frame and the clock reading. */
  datatype Sample = Sample(frame: Frame, now: int)

  predicate ValidSamples(samples: seq<Sample>) {
    forall k :: 0 <= k < |samples| ==> ValidFrame(samples[k].frame)
  }

  /** The results of a sequence of analysed ticks from a given state. */
  function Run(cfg: Config, prev: Option<Frame>, stableCount: nat, cooldownUntil: int, samples: seq<Sample>): (rs: seq<TickResult>)
    requires (prev.Some? ==> ValidFrame(prev.value)) && ValidSamples(samples)
    ensures |rs| == |samples|
    decreases |samples|
  {
    if samples == [] then []
    else
      var t := Analyze(cfg, prev, stableCount, cooldownUntil, samples[0].frame, samples[0].now);
      [t] + Run(cfg, t.prev, t.stableCount, t.cooldownUntil, samples[1..])
  }

  /** No capture in a run happens before the cooldown deadline the run starts with. */
  lemma {:induction false} CapturesAfterDeadline(cfg: Config, prev: Option<Frame>, stableCount: nat, cooldownUntil: int, samples: seq<Sample>, j: nat)
    requires (prev.Some? ==> ValidFrame(prev.value)) && ValidSamples(samples)
    requires j < |samples| && Run(cfg, prev, stableCount, cooldownUntil, samples)[j].captured
    ensures samples[j].now >= cooldownUntil
    decreases |samples|
  {
    var t := Analyze(cfg, prev, stableCount, cooldownUntil, samples[0].frame, samples[0].now);
    if j > 0 {
      CapturesAfterDeadline(cfg, t.prev, t.stableCount, t.cooldownUntil, samples[1..], j - 1);
    }
  }

  /** Any two captures of a run are at least `cooldownMs` apart. */
  lemma {:induction false} CapturesSpaced(cfg: Config, prev: Option<Frame>, stableCount: nat, cooldownUntil: int, samples: seq<Sample>, i: nat, j: nat)
    requires (prev.Some? ==> ValidFrame(prev.value)) && ValidSamples(samples)
    requires i < j < |samples|
    requires Run(cfg, prev, stableCount, cooldownUntil, samples)[i].captured
    requires Run(cfg, prev, stableCount, cooldownUntil, samples)[j].captured
    ensures samples[j].now - samples[i].now >= cfg.cooldownMs
    decreases |samples|
  {
    var t := Analyze(cfg, prev, stableCount, cooldownUntil, samples[0].frame, samples[0].now);
    if i == 0 {
      CapturesAfterDeadline(cfg, t.prev, t.stableCount, t.cooldownUntil, samples[1..], j - 1);
    } else {
      CapturesSpaced(cfg, t.prev, t.stableCount, t.cooldownUntil, samples[1..], i - 1, j - 1);
    }
  }

  /**
   * With the default settings, five ticks 200 ms apart over one still page capture exactly
   * once: on the fourth tick, which is the third stable comparison after the baseline;
   * the fifth falls in the cooldown.
   */
  lemma StillPageCapturesOnce(f: Frame, t0: int)
    requires ValidFrame(f) && t0 >= 0
    ensures var samples := [Sample(f, t0), Sample(f, t0 + 200), Sample(f, t0 + 400), Sample(f, t0 + 600), Sample(f, t0 + 800)];
      var rs := Run(DefaultConfig, None, 0, 0, samples);
      forall k :: 0 <= k < 5 ==> (rs[k].captured <==> k == 3)
  {
    SimilarityReflexive(f);
    var samples := [Sample(f, t0), Sample(f, t0 + 200), Sample(f, t0 + 400), Sample(f, t0 + 600), Sample(f, t0 + 800)];
    var cfg := DefaultConfig;
    var r0 := Analyze(cfg, None, 0, 0, f, t0);
    var r1 := Analyze(cfg, r0.prev, r0.stableCount, r0.cooldownUntil, f, t0 + 200);
    var r2 := Analyze(cfg, r1.prev, r1.stableCount, r1.cooldownUntil, f, t0 + 400);
    var r3 := Analyze(cfg, r2.prev, r2.stableCount, r2.cooldownUntil, f, t0 + 600);
    var r4 := Analyze(cfg, r3.prev, r3.stableCount, r3.cooldownUntil, f, t0 + 800);
    assert !r0.captured && r0.prev == Some(f);
    assert r1.stableCount == 1 && !r1.captured;
    assert r2.stableCount == 2 && !r2.captured;
    assert r3.captured && r3.cooldownUntil == t0 + 3100;
    assert !r4.captured;
    var s1, s2, s3, s4 := samples[1..], samples[2..], samples[3..], samples[4..];
    assert s4[1..] == [] && s3[1..] == s4 && s2[1..] == s3 && s1[1..] == s2;
    assert Run(cfg, r3.prev, r3.stableCount, r3.cooldownUntil, s4) == [r4];
    assert Run(cfg, r2.prev, r2.stableCount, r2.cooldownUntil, s3) == [r3, r4];
    assert Run(cfg, r1.prev, r1.stableCount, r1.cooldownUntil, s2) == [r2, r3, r4];
    assert Run(cfg, r0.prev, r0.stableCount, r0.cooldownUntil, s1) == [r1, r2, r3, r4];
    assert Run(cfg, None, 0, 0, samples) == [r0, r1, r2, r3, r4];
  }

  /**
   * The hook's state: the previous analysis frame, the consecutive-stable counter, the
   * cooldown deadline, the reported score and whether sampling is running.
   */
  class StabilityDetector {
    const cfg: Config
    var prev: Option<Frame>
    var stableCount: nat
    var cooldownUntil: int
    var score: real
    var sampling: bool
    /** Clock reading of the most recent capture, if any. */
    ghost var lastCapture: Option<int>

    ghost predicate Valid()
      reads this
    {
      && (prev.Some? ==> ValidFrame(prev.value))
      && CounterInRange(cfg, stableCount)
      && 0.0 <= score <= 1.0
      && (lastCapture.Some? ==> cooldownUntil == lastCapture.value + cfg.cooldownMs)
    }

    /** The refs start empty (`null`, 0, 0), the score at 0; sampling follows `enabled`. */
    constructor (cfg: Config, enabled: bool)
      ensures Valid() && this.cfg == cfg
      ensures prev == None && stableCount == 0 && cooldownUntil == 0 && score == 0.0
      ensures sampling == enabled && lastCapture == None
    {
      this.cfg := cfg;
      prev := None;
      stableCount := 0;
      cooldownUntil := 0;
      score := 0.0;
      sampling := enabled;
      lastCapture := None;
    }

    /**
     * The effect on `enabled`: disabling stops sampling and reports 0; enabling starts
     * sampling. Neither touches the previous frame, the counter or the cooldown.
     */
    method SetEnabled(enabled: bool)
      requires Valid()
      modifies this
      ensures Valid()
      ensures sampling == enabled
      ensures score == if enabled then old(score) else 0.0
      ensures prev == old(prev) && stableCount == old(stableCount) && cooldownUntil == old(cooldownUntil)
      ensures lastCapture == old(lastCapture)
    {
      sampling := enabled;
      if !enabled {
        score := 0.0;
      }
    }

    /**
     * One interval tick (`analyzeFrame`). Nothing happens while sampling is off or the
     * video is not ready; otherwise the new state is `Analyze` of the old one, and a
     * capture never comes sooner than `cooldownMs` after the previous one.
     */
    method Tick(frame: Frame, now: int, videoReady: bool) returns (reported: real, captured: bool)
      requires Valid() && ValidFrame(frame)
      modifies this
      ensures Valid()
      ensures !old(sampling) || !videoReady ==>
        !captured && unchanged(this) && reported == score
      ensures old(sampling) && videoReady ==>
        var t := Analyze(cfg, old(prev), old(stableCount), old(cooldownUntil), frame, now);
        && prev == t.prev && stableCount == t.stableCount && cooldownUntil == t.cooldownUntil
        && score == t.score && captured == t.captured
      ensures reported == score && sampling == old(sampling)
      ensures captured && old(lastCapture).Some? ==> now - old(lastCapture).value >= cfg.cooldownMs
      ensures lastCapture == if captured then Some(now) else old(lastCapture)
    {
      captured := false;
      if !sampling || !videoReady {
        reported := score;
        return;
      }
      if prev.None? {
        prev := Some(frame);
        score := 0.0;
        reported := score;
        return;
      }
      var s := ComputeSimilarity(frame, prev.value);
      prev := Some(frame);
      score := s;
      reported := s;
      if now < cooldownUntil {
        stableCount := 0;
        return;
      }
      if s >= cfg.threshold {
        stableCount := stableCount + 1;
        if stableCount >= cfg.stableFrameCount {
          captured := true;
          stableCount := 0;
          cooldownUntil := now + cfg.cooldownMs;
          lastCapture := Some(now);
        }
      } else {
        stableCount := 0;
      }
    }
  }
}

=== FILE: engagement_timeline.dfy ===
/**
 * The engagement timeline of the patient detail page: one event per video start, video
 * completion, quiz answer and search, newest first, at most twenty; twelve demo events
 * when the patient has no rows at all.
 */
module EngagementTimeline {
  import opened Wrappers
  import opened JsStrings
  import opened Sorting

  /** A timestamp column: its text and the instant `new Date(text).getTime()` reads from it. */
  datatype Stamp = Stamp(text: string, ms: int)

  datatype VideoProgress = VideoProgress(id: string, firstWatchedAt: Option<Stamp>, completedAt: Option<Stamp>)
  datatype QuizResponse = QuizResponse(id: string, isCorrect: bool, createdAt: Stamp)
  datatype SearchLog = SearchLog(id: string, searchQuery: string, resultsReturned: int, createdAt: Stamp)

  datatype EventKind = VideoStart | VideoComplete | Quiz | Search | SearchUnresolved
  datatype TimelineEvent = TimelineEvent(id: string, kind: EventKind, text: string, time: int)

  const MaxEvents: nat := 20
  const Hour: int := 3600000
  const HalfHour: int := 1800000

  function Time(e: TimelineEvent): int { e.time }

  /** JavaScript truthiness of a nullable timestamp column: null and "" are false. */
  predicate Truthy(t: Option<Stamp>) {
    t.Some? && t.value.text != ""
  }

  // ---------------------------------------------------------------------------
  // One source row's events

  function StartEvent(vp: VideoProgress): (e: TimelineEvent)
    requires Truthy(vp.firstWatchedAt)
    ensures StartsWith(e.id, "vp-start-") && e.kind == VideoStart && e.time == vp.firstWatchedAt.value.ms
  {
    TimelineEvent("vp-start-" + vp.id, VideoStart, "Started watching a video", vp.firstWatchedAt.value.ms)
  }

  function DoneEvent(vp: VideoProgress): (e: TimelineEvent)
    requires Truthy(vp.completedAt)
    ensures StartsWith(e.id, "vp-done-") && e.kind == VideoComplete && e.time == vp.completedAt.value.ms
  {
    TimelineEvent("vp-done-" + vp.id, VideoComplete, "Completed a video", vp.completedAt.value.ms)
  }

  /** The events of one progress row: a start if it was watched, then a completion if it was completed. */
  function ProgressEvents(vp: VideoProgress): (es: seq<TimelineEvent>)
    ensures |es| == (if Truthy(vp.firstWatchedAt) then 1 else 0) + (if Truthy(vp.completedAt) then 1 else 0)
    ensures Truthy(vp.firstWatchedAt) <==> es != [] && es[0].kind == VideoStart
    ensures Truthy(vp.completedAt) <==> es != [] && es[|es| - 1].kind == VideoComplete
  {
    (if Truthy(vp.firstWatchedAt) then [StartEvent(vp)] else []) +
    (if Truthy(vp.completedAt) then [DoneEvent(vp)] else [])
  }

  /** An id that starts with one prefix does not start with a prefix of a different first letter. */
  lemma PrefixExcludes(id: string, p: string, q: string)
    requires StartsWith(id, p) && p != [] && q != [] && p[0] != q[0]
    ensures !StartsWith(id, q)
  {
    assert id[0] == id[..|p|][0];
  }

  function QuizEvent(qr: QuizResponse): (e: TimelineEvent)
    ensures StartsWith(e.id, "qr-") && e.kind == Quiz && e.time == qr.createdAt.ms
    ensures e.text == "Quiz: correct answer" <==> qr.isCorrect
    ensures e.text == "Quiz: incorrect answer" <==> !qr.isCorrect
  {
    TimelineEvent("qr-" + qr.id, Quiz, if qr.isCorrect then "Quiz: correct answer" else "Quiz: incorrect answer", qr.createdAt.ms)
  }

  function SearchEvent(sl: SearchLog): (e: TimelineEvent)
    ensures StartsWith(e.id, "sl-") && e.time == sl.createdAt.ms
    ensures e.kind == SearchUnresolved <==> sl.resultsReturned == 0
    ensures e.kind == Search <==> sl.resultsReturned != 0
    ensures sl.resultsReturned == 0 ==> StartsWith(e.text, "Unresolved search: \"")
    ensures sl.resultsReturned != 0 ==> StartsWith(e.text, "Searched: \"")
  {
    if sl.resultsReturned == 0 then
      TimelineEvent("sl-" + sl.id, SearchUnresolved, "Unresolved search: \"" + sl.searchQuery + "\"", sl.createdAt.ms)
    else
      TimelineEvent("sl-" + sl.id, Search, "Searched: \"" + sl.searchQuery + "\"", sl.createdAt.ms)
  }

  // ---------------------------------------------------------------------------
  // The pushed events, before sorting

  function AllProgressEvents(vps: seq<VideoProgress>): seq<TimelineEvent> {
    if vps == [] then [] else AllProgressEvents(vps[..|vps| - 1]) + ProgressEvents(vps[|vps| - 1])
  }

  function AllQuizEvents(qrs: seq<QuizResponse>): (es: seq<TimelineEvent>)
    ensures |es| == |qrs| && forall i :: 0 <= i < |qrs| ==> es[i] == QuizEvent(qrs[i])
  {
    seq(|qrs|, i requires 0 <= i < |qrs| => QuizEvent(qrs[i]))
  }

  function AllSearchEvents(sls: seq<SearchLog>): (es: seq<TimelineEvent>)
    ensures |es| == |sls| && forall i :: 0 <= i < |sls| ==> es[i] == SearchEvent(sls[i])
  {
    seq(|sls|, i requires 0 <= i < |sls| => SearchEvent(sls[i]))
  }

  /** The events of real rows in push order: progress rows, then quiz responses, then searches. */
  function RowEvents(vps: seq<VideoProgress>, qrs: seq<QuizResponse>, sls: seq<SearchLog>): seq<TimelineEvent> {
    AllProgressEvents(vps) + AllQuizEvents(qrs) + AllSearchEvents(sls)
  }

  function CountTruthy(ts: seq<Option<Stamp>>): (n: nat)
    ensures n <= |ts|
  {
    if ts == [] then 0 else CountTruthy(ts[..|ts| - 1]) + (if Truthy(ts[|ts| - 1]) then 1 else 0)
  }

  function FirstWatched(vps: seq<VideoProgress>): (ts: seq<Option<Stamp>>)
    ensures |ts| == |vps| && forall i :: 0 <= i < |vps| ==> ts[i] == vps[i].firstWatchedAt
  {
    seq(|vps|, i requires 0 <= i < |vps| => vps[i].firstWatchedAt)
  }

  function Completed(vps: seq<VideoProgress>): (ts: seq<Option<Stamp>>)
    ensures |ts| == |vps| && forall i :: 0 <= i < |vps| ==> ts[i] == vps[i].completedAt
  {
    seq(|vps|, i requires 0 <= i < |vps| => vps[i].completedAt)
  }

  /**
   * Progress rows contribute one start event per truthy `first_watched_at` and one
   * completion event per truthy `completed_at`, and nothing else.
   */
  lemma {:induction false} ProgressEventCounts(vps: seq<VideoProgress>)
    ensures |AllProgressEvents(vps)| == CountTruthy(FirstWatched(vps)) + CountTruthy(Completed(vps))
  {
    if vps != [] {
      var init := vps[..|vps| - 1];
      ProgressEventCounts(init);
      assert FirstWatched(vps)[..|vps| - 1] == FirstWatched(init);
      assert Completed(vps)[..|vps| - 1] == Completed(init);
    }
  }

  /** Every real event's id carries the prefix of the row kind it came from. */
  lemma {:induction false} RowEventIds(vps: seq<VideoProgress>, qrs: seq<QuizResponse>, sls: seq<SearchLog>, e: TimelineEvent)
    requires e in RowEvents(vps, qrs, sls)
    ensures e.kind == VideoStart ==> StartsWith(e.id, "vp-start-")
    ensures e.kind == VideoComplete ==> StartsWith(e.id, "vp-done-")
    ensures e.kind == Quiz ==> StartsWith(e.id, "qr-")
    ensures e.kind in {Search, SearchUnresolved} ==> StartsWith(e.id, "sl-")
    ensures !StartsWith(e.id, "demo-")
  {
    if e in AllProgressEvents(vps) {
      ProgressEventId(vps, e);
      if e.kind == VideoStart {
        PrefixExcludes(e.id, "vp-start-", "demo-");
      } else {
        PrefixExcludes(e.id, "vp-done-", "demo-");
      }
    } else if e in AllQuizEvents(qrs) {
      var i :| 0 <= i < |qrs| && AllQuizEvents(qrs)[i] == e;
      PrefixExcludes(e.id, "qr-", "demo-");
    } else {
      assert e in AllSearchEvents(sls);
      var i :| 0 <= i < |sls| && AllSearchEvents(sls)[i] == e;
      PrefixExcludes(e.id, "sl-", "demo-");
    }
  }

  lemma {:induction false} ProgressEventId(vps: seq<VideoProgress>, e: TimelineEvent)
    requires e in AllProgressEvents(vps)
    ensures (e.kind == VideoStart && StartsWith(e.id, "vp-start-")) || (e.kind == VideoComplete && StartsWith(e.id, "vp-done-"))
  {
    var init := vps[..|vps| - 1];
    var last := vps[|vps| - 1];
    if e !in ProgressEvents(last) {
      ProgressEventId(init, e);
    }
  }

  // ---------------------------------------------------------------------------
  // The demo events

  function DemoEvent(n: string, kind: EventKind, text: string, time: int): (e: TimelineEvent)
    ensures StartsWith(e.id, "demo-") && e.time == time
  {
    assert ("demo-" + n)[..5] == "demo-";
    TimelineEvent("demo-" + n, kind, text, time)
  }

  /** The first six demo events (the first two modules), with `Date.now()` passed in. */
  function DemoEarly(now: int, i: nat): (e: TimelineEvent)
    requires i < 6
    ensures StartsWith(e.id, "demo-") && now - 47 * Hour <= e.time <= now - 57 * HalfHour
  {
    match i
    case 0 => DemoEvent("1", VideoStart, "Started watching Welcome & Overview", now - 47 * Hour)
    case 1 => DemoEvent("2", VideoComplete, "Completed Welcome & Overview", now - 46 * Hour)
    case 2 => DemoEvent("3", Quiz, "Quiz: correct answer — Welcome & Overview", now - 91 * HalfHour)
    case 3 => DemoEvent("4", VideoStart, "Started watching Understanding Your Medications", now - 30 * Hour)
    case 4 => DemoEvent("5", VideoComplete, "Completed Understanding Your Medications", now - 29 * Hour)
    case _ => DemoEvent("6", Quiz, "Quiz: correct answer — Understanding Your Medications", now - 57 * HalfHour)
  }

  /** The last six demo events (the medication-safety module onwards). */
  function DemoLate(now: int, i: nat): (e: TimelineEvent)
    requires i < 6
    ensures StartsWith(e.id, "demo-") && now - 8 * Hour <= e.time <= now - HalfHour
  {
    match i
    case 0 => DemoEvent("7", VideoStart, "Started watching Medication Safety", now - 8 * Hour)
    case 1 => DemoEvent("8", VideoComplete, "Replayed Medication Safety (2nd time)", now - 5 * Hour)
    case 2 => DemoEvent("9", VideoComplete, "Replayed Medication Safety (3rd time)", now - 2 * Hour)
    case 3 => DemoEvent("10", Search, "Searched: \"what does low blood pressure mean\"", now - 3 * HalfHour)
    case 4 => DemoEvent("11", Quiz, "Quiz: incorrect answer — Medication Safety", now - Hour)
    case _ => DemoEvent("12", VideoStart, "Started watching Activity & Exercise Guidelines", now - HalfHour)
  }

  /** `getDemoEvents()`: the twelve demo events, oldest first. */
  function DemoEvents(now: int): (es: seq<TimelineEvent>)
    ensures |es| == 12
    ensures forall i :: 0 <= i < |es| ==> StartsWith(es[i].id, "demo-") && now - 47 * Hour <= es[i].time <= now - HalfHour
  {
    var es := seq(12, i requires 0 <= i < 12 => if i < 6 then DemoEarly(now, i) else DemoLate(now, i - 6));
    assert forall i :: 0 <= i < 6 ==> es[i] == DemoEarly(now, i);
    assert forall i :: 6 <= i < 12 ==> es[i] == DemoLate(now, i - 6);
    es
  }

  // ---------------------------------------------------------------------------
  // The component's event list

  /** The loop over the progress rows. */
  method PushProgressEvents(vps: seq<VideoProgress>) returns (events: seq<TimelineEvent>)
    ensures events == AllProgressEvents(vps)
  {
    events := [];
    for i := 0 to |vps|
      invariant events == AllProgressEvents(vps[..i])
    {
      assert vps[..i + 1][..i] == vps[..i];
      var vp := vps[i];
      if Truthy(vp.firstWatchedAt) {
        events := events + [StartEvent(vp)];
      }
      if Truthy(vp.completedAt) {
        events := events + [DoneEvent(vp)];
      }
    }
    assert vps[..|vps|] == vps;
  }

  /** The loop over the quiz responses. */
  method PushQuizEvents(events: seq<TimelineEvent>, qrs: seq<QuizResponse>) returns (events': seq<TimelineEvent>)
    ensures events' == events + AllQuizEvents(qrs)
  {
    events' := events;
    for i := 0 to |qrs|
      invariant events' == events + AllQuizEvents(qrs[..i])
    {
      events' := events' + [QuizEvent(qrs[i])];
    }
    assert qrs[..|qrs|] == qrs;
  }

  /** The loop over the search logs. */
  method PushSearchEvents(events: seq<TimelineEvent>, sls: seq<SearchLog>) returns (events': seq<TimelineEvent>)
    ensures events' == events + AllSearchEvents(sls)
  {
    events' := events;
    for i := 0 to |sls|
      invariant events' == events + AllSearchEvents(sls[..i])
    {
      events' := events' + [SearchEvent(sls[i])];
    }
    assert sls[..|sls|] == sls;
  }

  /** The events before sorting: the demo when all three inputs are empty, otherwise the rows' events. */
  function Events(vps: seq<VideoProgress>, qrs: seq<QuizResponse>, sls: seq<SearchLog>, now: int): seq<TimelineEvent> {
    if vps == [] && qrs == [] && sls == [] then DemoEvents(now) else RowEvents(vps, qrs, sls)
  }

  /** `recentEvents`: the events sorted newest first and cut to 20. */
  function Recent(vps: seq<VideoProgress>, qrs: seq<QuizResponse>, sls: seq<SearchLog>, now: int): (r: seq<TimelineEvent>)
    ensures |r| <= MaxEvents && SortedDesc(r, Time)
  {
    Take(SortDesc(Events(vps, qrs, sls, now), Time), MaxEvents)
  }

  /** The component's event pipeline: choose demo or row events, sort in place, slice. */
  method RecentEvents(vps: seq<VideoProgress>, qrs: seq<QuizResponse>, sls: seq<SearchLog>, now: int) returns (recent: seq<TimelineEvent>)
    ensures recent == Recent(vps, qrs, sls, now)
  {
    var events: seq<TimelineEvent>;
    if |vps| == 0 && |qrs| == 0 && |sls| == 0 {
      events := DemoEvents(now);
    } else {
      events := PushProgressEvents(vps);
      events := PushQuizEvents(events, qrs);
      events := PushSearchEvents(events, sls);
    }
    var sorted := SortDesc(events, Time);
    recent := Take(sorted, MaxEvents);
  }

  /** Every event shown is one of the events built. */
  lemma RecentFromEvents(vps: seq<VideoProgress>, qrs: seq<QuizResponse>, sls: seq<SearchLog>, now: int, e: TimelineEvent)
    requires e in Recent(vps, qrs, sls, now)
    ensures e in Events(vps, qrs, sls, now)
  {
    var sorted := SortDesc(Events(vps, qrs, sls, now), Time);
    assert e in sorted;
    assert e in multiset(sorted);
  }

  /** With no rows at all the demo is shown: twelve events, all demo ids. */
  lemma DemoWhenEmpty(now: int)
    ensures var r := Recent([], [], [], now); |r| == 12 && forall e :: e in r ==> StartsWith(e.id, "demo-")
  {
    var r := Recent([], [], [], now);
    forall e | e in r
      ensures StartsWith(e.id, "demo-")
    {
      RecentFromEvents([], [], [], now, e);
    }
  }

  /** With any row at all no demo event is shown, even when the rows yield no event. */
  lemma NoDemoOtherwise(vps: seq<VideoProgress>, qrs: seq<QuizResponse>, sls: seq<SearchLog>, now: int, e: TimelineEvent)
    requires vps != [] || qrs != [] || sls != []
    requires e in Recent(vps, qrs, sls, now)
    ensures !StartsWith(e.id, "demo-")
  {
    RecentFromEvents(vps, qrs, sls, now, e);
    RowEventIds(vps, qrs, sls, e);
  }

  /** The slice keeps the latest events: one newer than the oldest shown is shown. */
  lemma KeepsLatest(vps: seq<VideoProgress>, qrs: seq<QuizResponse>, sls: seq<SearchLog>, now: int, e: TimelineEvent)
    requires e in Events(vps, qrs, sls, now)
    requires var r := Recent(vps, qrs, sls, now); |r| == MaxEvents ==> e.time > r[MaxEvents - 1].time
    ensures e in Recent(vps, qrs, sls, now)
  {
    TopKKept(Events(vps, qrs, sls, now), Time, MaxEvents, e);
  }
}

=== FILE: extract_discharge.dfy ===
/**
 * The `extract-discharge` edge function: it authorises the request, marks the scan as
 * processing, downloads the scanned file, sends it to the vision model, strips code
 * fences from the reply, parses it as JSON and records the scan as failed or ready for
 * review. Storage, the database, the model call and `JSON.parse` are inputs here: their
 * outcomes are parameters, and the status updates written to `discharge_scans` are part
 * of the result.
 */
module ExtractDischarge {
  import opened Wrappers
  import opened JsStrings
  import ScannerSchema

  type Json = ScannerSchema.Json

  // ---------------------------------------------------------------------------
  // Media type and the binary string

  /** The media type sent with the document, from the storage path's extension. */
  function MediaType(path: string): (m: string)
    ensures EndsWith(path, ".pdf") ==> m == "application/pdf"
    ensures !EndsWith(path, ".pdf") && EndsWith(path, ".png") ==> m == "image/png"
    ensures !EndsWith(path, ".pdf") && !EndsWith(path, ".png") ==> m == "image/jpeg"
  {
    if EndsWith(path, ".pdf") then "application/pdf"
    else if EndsWith(path, ".png") then "image/png"
    else "image/jpeg"
  }

  predicate IsByte(b: int) { 0 <= b < 256 }

  /** The char codes of a string: the inverse of building it byte by byte. */
  function CharCodes(s: string): (codes: seq<int>)
    ensures |codes| == |s| && forall i :: 0 <= i < |s| ==> codes[i] == s[i] as int
  {
    seq(|s|, i requires 0 <= i < |s| => s[i] as int)
  }

  /** The loop appending `String.fromCharCode(bytes[i])` for every byte of the file. */
  method BinaryString(bytes: seq<int>) returns (binary: string)
    requires forall i :: 0 <= i < |bytes| ==> IsByte(bytes[i])
    ensures CharCodes(binary) == bytes
  {
    binary := "";
    for i := 0 to |bytes|
      invariant |binary| == i && forall j :: 0 <= j < i ==> binary[j] as int == bytes[j]
    {
      binary := binary + [bytes[i] as char];
    }
  }

  // ---------------------------------------------------------------------------
  // Code-fence stripping

  const Fence := "```"

  /** The optional tag after an opening fence: "json" in any letter case, at the front of `t`. */
  predicate JsonTag(t: string) {
    |t| >= 4 && LowerChar(t[0]) == 'j' && LowerChar(t[1]) == 's' && LowerChar(t[2]) == 'o' && LowerChar(t[3]) == 'n'
  }

  /** Three backticks at positions i, i + 1 and i + 2 of s. */
  predicate FenceAt(s: string, i: int) {
    0 <= i && i + 3 <= |s| && s[i] == '`' && s[i + 1] == '`' && s[i + 2] == '`'
  }

  /** The text opens with a fence. */
  predicate OpensWithFence(s: string) {
    FenceAt(s, 0)
  }

  /** The text, once trailing white space is ignored, closes with a fence. */
  predicate ClosesWithFence(s: string) {
    var t := TrimEnd(s);
    FenceAt(t, |t| - 3)
  }

  /** `replace(/^```(?:json)?\s*\n?/i, "")`: a leading fence, an optional "json" tag in any case, and the white space after it. */
  function StripLeadingFence(s: string): (r: string)
    ensures !OpensWithFence(s) ==> r == s
  {
    if !OpensWithFence(s) then s
    else
      var t := s[3..];
      var u := if JsonTag(t) then t[4..] else t;
      TrimStart(u)
  }

  /** `replace(/\n?```\s*$/i, "")`: a fence closing the text, the white space after it and one newline before it. */
  function StripTrailingFence(s: string): (r: string)
    ensures !ClosesWithFence(s) ==> r == s
    ensures ClosesWithFence(s) ==> |r| <= |s| - 3
  {
    var t := TrimEnd(s);
    if !FenceAt(t, |t| - 3) then s
    else
      var u := t[..|t| - 3];
      if |u| > 0 && u[|u| - 1] == '\n' then u[..|u| - 1] else u
  }

  /** The cleaned model reply: both fences removed, then trimmed. */
  function StripFences(s: string): string {
    Trim(StripTrailingFence(StripLeadingFence(s)))
  }

  /** Text with no fence at either end is only trimmed. */
  lemma FenceFreeOnlyTrimmed(s: string)
    requires !OpensWithFence(s) && !ClosesWithFence(s)
    ensures StripFences(s) == Trim(s)
  {
  }

  /** Behind an opening fence, the tag (when there is one) and the white space after it go. */
  lemma StripLeadingFenceOf(t: string)
    ensures StripLeadingFence(Fence + t) == TrimStart(if JsonTag(t) then t[4..] else t)
  {
    assert (Fence + t)[0] == '`' && (Fence + t)[1] == '`' && (Fence + t)[2] == '`';
    assert (Fence + t)[3..] == t;
  }

  /** A leading fence with an optional "json" tag and a newline goes, with the white space after it. */
  lemma LeadingFenceRemoved(tag: string, rest: string)
    requires tag == "" || (|tag| == 4 && JsonTag(tag))
    ensures StripLeadingFence(Fence + tag + "\n" + rest) == TrimStart(rest)
  {
    FenceAndTagRemoved(tag, rest);
    assert IsWhite('\n');
    TrimStartPrefix("\n", rest);
  }

  /** The fence and the tag go, leaving the newline for the white-space trim. */
  lemma FenceAndTagRemoved(tag: string, rest: string)
    requires tag == "" || (|tag| == 4 && JsonTag(tag))
    ensures StripLeadingFence(Fence + tag + "\n" + rest) == TrimStart("\n" + rest)
  {
    var t := tag + ("\n" + rest);
    calc {
      StripLeadingFence(Fence + tag + "\n" + rest);
      { assert Fence + tag + "\n" + rest == Fence + t; }
      StripLeadingFence(Fence + t);
      { StripLeadingFenceOf(t); }
      TrimStart(if JsonTag(t) then t[4..] else t);
      { TagDropped(tag, rest); }
      TrimStart("\n" + rest);
    }
  }

  /** What follows the optional tag is the newline and the rest. */
  lemma TagDropped(tag: string, rest: string)
    requires tag == "" || (|tag| == 4 && JsonTag(tag))
    ensures var t := tag + ("\n" + rest); (if JsonTag(t) then t[4..] else t) == "\n" + rest
  {
    var t := tag + ("\n" + rest);
    if tag == "" {
      assert t[0] == '\n';
    } else {
      assert t[..4] == tag;
      assert t[4..] == "\n" + rest;
    }
  }

  /** A closing fence with one newline before it goes. */
  lemma TrailingFenceRemoved(b: string)
    ensures StripTrailingFence(b + "\n" + Fence) == b
  {
    var s := b + "\n" + Fence;
    assert !IsWhite(s[|s| - 1]);
    assert FenceAt(s, |s| - 3);
    assert s[..|s| - 3] == b + "\n";
    assert (b + "\n")[..|b|] == b;
  }

  /** Removing the opening fence of a fenced block leaves the body, trimmed at the front, and the closing fence. */
  lemma OpeningFenceRemoved(tag: string, body: string)
    requires tag == "" || (|tag| == 4 && JsonTag(tag))
    requires !AllWhite(body)
    ensures StripLeadingFence(Fence + tag + "\n" + body + "\n" + Fence) == TrimStart(body) + "\n" + Fence
  {
    var w := "\n" + Fence;
    var head := Fence + tag + "\n";
    calc {
      StripLeadingFence(head + body + "\n" + Fence);
      { assert head + body + "\n" + Fence == head + (body + w); }
      StripLeadingFence(head + (body + w));
      { LeadingFenceRemoved(tag, body + w); }
      TrimStart(body + w);
      { TrimStartSuffix(body, w); }
      TrimStart(body) + w;
      { assert TrimStart(body) + w == TrimStart(body) + "\n" + Fence; }
      TrimStart(body) + "\n" + Fence;
    }
  }

  /** A body wrapped in a fenced block (tagged "json" in any case, or untagged) comes back trimmed. */
  lemma FencedBodyRoundTrip(tag: string, body: string)
    requires tag == "" || (|tag| == 4 && JsonTag(tag))
    requires !AllWhite(body)
    ensures StripFences(Fence + tag + "\n" + body + "\n" + Fence) == Trim(body)
  {
    OpeningFenceRemoved(tag, body);
    TrailingFenceRemoved(TrimStart(body));
    TrimStartIdempotent(body);
  }

  lemma TrimStartIdempotent(s: string)
    ensures Trim(TrimStart(s)) == Trim(s)
  {
  }

  /** The default reply text "{}" passes through unchanged. */
  lemma DefaultTextUnchanged()
    ensures StripFences("{}") == "{}"
  {
    assert !IsWhite('{') && !IsWhite('}');
  }

  // ---------------------------------------------------------------------------
  // The request handler

  datatype RequestBody = BodyOk(scanId: string, storagePath: string) | BodyThrows(message: string)

  datatype Request = Request(httpMethod: string, authorization: Option<string>, body: RequestBody)

  /** The model call: it throws, or answers with an HTTP ok flag and a JSON body. */
  datatype ApiOutcome = ApiThrows(message: string) | ApiReply(ok: bool, body: Json)

  /** What the function sends to the model: the media type and the binary string later base64-encoded. */
  datatype ApiRequest = ApiRequest(mediaType: string, binary: string)

  datatype Body = Text(text: string) | JsonBody(json: Json)
  datatype Response = Response(status: int, body: Body)

  /** One `update` of the scan's row: its new status and, when written, its extracted data. */
  datatype ScanUpdate = ScanUpdate(status: string, extractedData: Option<Json>)

  function Obj(key: string, value: Json): Json {
    ScannerSchema.JObj(map[key := value])
  }

  function ErrorResponse(status: int, message: Json): Response {
    Response(status, JsonBody(Obj("error", message)))
  }

  function Field(v: Json, key: string): Option<Json> {
    if v.JObj? && key in v.fields then Some(v.fields[key]) else None
  }

  /**
   * A property read on the reply body: its value, or the TypeError thrown when the body
   * is `null` (the code reads `claudeData.error` and `claudeData.content` without `?.`).
   */
  datatype Read = Got(value: Json) | TypeError(message: string)

  /** V8's message for reading a property of `null`. */
  function NullRead(key: string): string {
    "Cannot read properties of null (reading '" + key + "')"
  }

  /** The read yielded a string. */
  predicate GotText(r: Read) {
    r.Got? && r.value.JStr?
  }

  /**
   * `claudeData.error?.message ?? "Claude API error"`: the API's message when it is there
   * and not null, otherwise the fallback; a `null` body throws.
   */
  function ApiErrorMessage(body: Json): (r: Read)
    ensures r.TypeError? <==> body.JNull?
    ensures r.TypeError? ==> r.message == NullRead("error")
    ensures r.Got? ==> r.value != ScannerSchema.JNull
    ensures r.Got? && r.value != ScannerSchema.JStr("Claude API error") ==>
      exists e :: Field(body, "error") == Some(e) && Field(e, "message") == Some(r.value)
  {
    if body.JNull? then TypeError(NullRead("error"))
    else
      match Field(body, "error")
      case Some(e) =>
        (match Field(e, "message")
         case Some(m) => if m.JNull? then Got(ScannerSchema.JStr("Claude API error")) else Got(m)
         case None => Got(ScannerSchema.JStr("Claude API error")))
      case None => Got(ScannerSchema.JStr("Claude API error"))
  }

  /**
   * `content?.[0]`: the first element of an array, or the value under the key "0" of an
   * object; anything else (a string's first character has no `text`) reads as missing.
   */
  function FirstBlock(content: Json): Option<Json> {
    if content.JArr? && |content.items| > 0 then Some(content.items[0])
    else if content.JObj? && "0" in content.fields then Some(content.fields["0"])
    else None
  }

  /**
   * `claudeData.content?.[0]?.text ?? "{}"`: the first content block's text, "{}" when
   * missing or null; a `null` body throws.
   */
  function ReplyText(body: Json): (r: Read)
    ensures r.TypeError? <==> body.JNull?
    ensures r.TypeError? ==> r.message == NullRead("content")
    ensures r.Got? ==> r.value != ScannerSchema.JNull
    ensures r.Got? && r.value != ScannerSchema.JStr("{}") ==>
      exists c, b :: Field(body, "content") == Some(c) && FirstBlock(c) == Some(b) && Field(b, "text") == Some(r.value)
  {
    if body.JNull? then TypeError(NullRead("content"))
    else
      match Field(body, "content")
      case Some(c) =>
        (match FirstBlock(c)
         case Some(b) =>
           (match Field(b, "text")
            case Some(t) => if t.JNull? then Got(ScannerSchema.JStr("{}")) else Got(t)
            case None => Got(ScannerSchema.JStr("{}")))
         case None => Got(ScannerSchema.JStr("{}")))
      case None => Got(ScannerSchema.JStr("{}"))
  }

  /** The catch's response for a thrown error: its message with status 500. */
  function Caught(message: string): Response {
    ErrorResponse(500, ScannerSchema.JStr(message))
  }

  const Processing := ScanUpdate("processing", None)

  /** The success response: `{ success: true, extracted_data }` with status 200. */
  function Extracted(data: Json): Response {
    Response(200, JsonBody(ScannerSchema.JObj(map["success" := ScannerSchema.JBool(true), "extracted_data" := data])))
  }

  /** The fixed responses. */
  const OptionsResponse := Response(200, Text("ok"))
  const MissingAuthorization := ErrorResponse(401, ScannerSchema.JStr("Missing authorization"))
  const DownloadFailed := ErrorResponse(400, ScannerSchema.JStr("Failed to download file"))
  const ParseFailed := ErrorResponse(500, ScannerSchema.JStr("Failed to parse extraction result"))

  /** A request that gets past the preflight, authorization and body checks. */
  predicate Admitted(req: Request) {
    req.httpMethod != "OPTIONS" && req.authorization.Some? && req.authorization != Some("") && req.body.BodyOk?
  }

  /**
   * The handler. `download` is the downloaded file's bytes (None when storage reports an
   * error or no data), `api` the model call's outcome and `parse` stands for `JSON.parse`
   * (None when it throws).
   */
  method Handle(req: Request, download: Option<seq<int>>, api: ApiOutcome, parse: string -> Option<Json>)
    returns (resp: Response, updates: seq<ScanUpdate>, sent: Option<ApiRequest>)
    requires download.Some? ==> forall i :: 0 <= i < |download.value| ==> IsByte(download.value[i])
    ensures req.httpMethod == "OPTIONS" ==> resp == OptionsResponse && updates == []
    ensures req.httpMethod != "OPTIONS" && (req.authorization.None? || req.authorization == Some("")) ==>
      resp == MissingAuthorization && updates == []
    ensures req.httpMethod != "OPTIONS" && req.authorization.Some? && req.authorization != Some("") && req.body.BodyThrows? ==>
      updates == [] && resp == Caught(req.body.message)
    ensures Admitted(req) && download.None? ==> resp == DownloadFailed && updates == [Processing, ScanUpdate("failed", None)]
    ensures Admitted(req) && download.Some? && api.ApiThrows? ==> resp == Caught(api.message) && updates == [Processing]
    ensures updates != [] <==> Admitted(req)
    ensures updates == [] || updates[0] == Processing
    ensures sent.Some? ==> Admitted(req) && download.Some?
    ensures sent.Some? ==> sent.value.mediaType == MediaType(req.body.storagePath) && CharCodes(sent.value.binary) == download.value
    ensures resp.status == 200 <==> req.httpMethod == "OPTIONS" || (|updates| == 2 && updates[1].status == "review")
    ensures (exists i :: 0 <= i < |updates| && updates[i].status == "failed") ==> resp.status in {400, 500}
  {
    if req.httpMethod == "OPTIONS" {
      return OptionsResponse, [], None;
    }
    if req.authorization.None? || req.authorization == Some("") {
      return MissingAuthorization, [], None;
    }
    if req.body.BodyThrows? {
      return Caught(req.body.message), [], None;
    }
    resp, updates, sent := Process(req.body.storagePath, download, api, parse);
    assert updates[0].status == "processing";
  }

  /** From marking the scan "processing" on: download, call the model, interpret its reply. */
  method Process(path: string, download: Option<seq<int>>, api: ApiOutcome, parse: string -> Option<Json>)
    returns (resp: Response, updates: seq<ScanUpdate>, sent: Option<ApiRequest>)
    requires download.Some? ==> forall i :: 0 <= i < |download.value| ==> IsByte(download.value[i])
    ensures 1 <= |updates| <= 2 && updates[0] == Processing
    ensures download.None? ==> resp == DownloadFailed && updates == [Processing, ScanUpdate("failed", None)]
    ensures sent.Some? <==> download.Some?
    ensures sent.Some? ==> sent.value.mediaType == MediaType(path) && CharCodes(sent.value.binary) == download.value
    ensures sent.Some? && api.ApiReply? && !api.ok ==>
      && updates == [Processing, ScanUpdate("failed", Some(Obj("error", api.body)))]
      && (ApiErrorMessage(api.body).Got? ==> resp == ErrorResponse(500, ApiErrorMessage(api.body).value))
      && (ApiErrorMessage(api.body).TypeError? ==> resp == Caught(ApiErrorMessage(api.body).message))
    ensures sent.Some? && api.ApiReply? && api.ok && GotText(ReplyText(api.body)) ==>
      var text := StripFences(ReplyText(api.body).value.s);
      && (parse(text).None? ==> resp == ParseFailed && updates == [Processing, ScanUpdate("failed", Some(Obj("raw", ScannerSchema.JStr(text))))])
      && (parse(text).Some? ==> resp == Extracted(parse(text).value) && updates == [Processing, ScanUpdate("review", parse(text))])
    ensures resp.status == 200 <==> |updates| == 2 && updates[1].status == "review"
    ensures |updates| == 2 && updates[1].status == "failed" ==> resp.status in {400, 500}
    ensures sent.Some? && api.ApiThrows? ==> resp == Caught(api.message) && updates == [Processing]
    ensures sent.Some? && api.ApiReply? && api.ok && ReplyText(api.body).TypeError? ==>
      resp == Caught(ReplyText(api.body).message) && updates == [Processing]
    ensures sent.Some? && api.ApiReply? && api.ok && ReplyText(api.body).Got? && !ReplyText(api.body).value.JStr? ==>
      resp == Caught("extractedText.replace is not a function") && updates == [Processing]
  {
    if download.None? {
      return DownloadFailed, [Processing, ScanUpdate("failed", None)], None;
    }
    var binary := BinaryString(download.value);
    sent := Some(ApiRequest(MediaType(path), binary));
    if api.ApiThrows? {
      return Caught(api.message), [Processing], sent;
    }
    var claudeData := api.body;
    if !api.ok {
      // the failed status is written before the message is read, so a throw there still leaves it
      updates := [Processing, ScanUpdate("failed", Some(Obj("error", claudeData)))];
      var message := ApiErrorMessage(claudeData);
      resp := if message.Got? then ErrorResponse(500, message.value) else Caught(message.message);
      return;
    }
    resp, updates := Interpret(claudeData, parse);
  }

  /** The steps after an ok reply: read the first text block, strip the fences, parse, and answer. */
  method Interpret(claudeData: Json, parse: string -> Option<Json>) returns (resp: Response, updates: seq<ScanUpdate>)
    ensures 1 <= |updates| <= 2 && updates[0] == Processing
    ensures resp.status == 200 <==> |updates| == 2 && updates[1].status == "review"
    ensures |updates| == 2 && updates[1].status == "failed" ==> resp.status == 500
    ensures ReplyText(claudeData).TypeError? ==> resp == Caught(ReplyText(claudeData).message) && updates == [Processing]
    ensures ReplyText(claudeData).Got? && !ReplyText(claudeData).value.JStr? ==>
      resp == Caught("extractedText.replace is not a function") && updates == [Processing]
    ensures GotText(ReplyText(claudeData)) ==>
      var text := StripFences(ReplyText(claudeData).value.s);
      && (parse(text).None? ==> resp == ParseFailed && updates == [Processing, ScanUpdate("failed", Some(Obj("raw", ScannerSchema.JStr(text))))])
      && (parse(text).Some? ==> resp == Extracted(parse(text).value) && updates == [Processing, ScanUpdate("review", parse(text))])
  {
    var reply := ReplyText(claudeData);
    if reply.TypeError? {
      return Caught(reply.message), [Processing];
    }
    if !reply.value.JStr? {
      // `extractedText.replace` is not a function on a non-string: the thrown TypeError is caught.
      return Caught("extractedText.replace is not a function"), [Processing];
    }
    var extractedText := StripFences(reply.value.s);
    var extracted := parse(extractedText);
    if extracted.None? {
      return ParseFailed, [Processing, ScanUpdate("failed", Some(Obj("raw", ScannerSchema.JStr(extractedText))))];
    }
    updates := [Processing, ScanUpdate("review", extracted)];
    resp := Extracted(extracted.value);
  }
}

=== FILE: js_math.dfy ===
/** The few pieces of JavaScript arithmetic the dashboard relies on, stated on exact numbers. */
module JsMath {

  /** `Math.round(x)`: the integer nearest to x, halves rounded towards +infinity. */
  function Round(x: real): (r: int)
    ensures r as real <= x + 0.5 < r as real + 1.0
  {
    (x + 0.5).Floor
  }

  /**
   * `Math.round(100 * a / b)` for a positive denominator, computed on integers:
   * the integer r with r - 1/2 <= 100 * a / b < r + 1/2. Dafny's `/` on a positive
   * divisor is floor division, so negative numerators round the way `Math.round` does.
   */
  function RoundPct(a: int, b: int): (r: int)
    requires b > 0
    ensures (2 * r - 1) * b <= 200 * a < (2 * r + 1) * b
  {
    var d, n := 2 * b, 200 * a + b;
    var q, m := n / d, n % d;
    assert n == q * d + m && 0 <= m < d;
    assert (2 * q - 1) * b == q * d - b;
    assert (2 * q + 1) * b == q * d + b;
    q
  }

  /** A percentage computed from a fraction in 0..1 lies in 0..100, with 0 and 1 exact. */
  lemma RoundPctBounds(a: int, b: int)
    requires b > 0 && 0 <= a <= b
    ensures 0 <= RoundPct(a, b) <= 100
    ensures a == 0 ==> RoundPct(a, b) == 0
    ensures a == b ==> RoundPct(a, b) == 100
  {
    var r := RoundPct(a, b);
    if a == 0 {
      RoundPctUnique(a, b, 0);
    }
    if a == b {
      RoundPctUnique(a, b, 100);
    }
    if r < 0 {
      MulLe(2 * r + 1, -1, b);
    } else if r > 100 {
      MulLe(201, 2 * r - 1, b);
    }
  }

  /** The characterisation in RoundPct's contract has exactly one solution. */
  lemma RoundPctUnique(a: int, b: int, r: int)
    requires b > 0
    requires (2 * r - 1) * b <= 200 * a < (2 * r + 1) * b
    ensures RoundPct(a, b) == r
  {
    var s := RoundPct(a, b);
    if s < r {
      MulLe(2 * s + 1, 2 * r - 1, b);
    } else if s > r {
      MulLe(2 * r + 1, 2 * s - 1, b);
    }
  }

  lemma MulLe(x: int, y: int, d: nat)
    requires x <= y
    ensures x * d <= y * d
  {
  }

  function Min(x: int, y: int): int { if x <= y then x else y }
  function Max(x: int, y: int): int { if x >= y then x else y }
  function MinReal(x: real, y: real): real { if x <= y then x else y }
  function MaxReal(x: real, y: real): real { if x >= y then x else y }

  /**
   * A percentage as JavaScript computes it from a ratio of durations: a finite value,
   * or NaN when both durations are zero (`0 / 0`).
   */
  datatype Percent = Value(pct: int) | NaN
}

=== FILE: js_strings.dfy ===
/**
 * The JavaScript string operations the dashboard uses, on strings as sequences of
 * Unicode scalar values (`seq<char>`). JavaScript indexes UTF-16 code units instead; the
 * two agree on every character of the Basic Multilingual Plane. Case mapping covers the
 * ASCII letters only.
 */
module JsStrings {

  /**
   * The characters `String.prototype.trim` and the regular-expression class `\s`
   * treat as white space (ECMAScript's WhiteSpace and LineTerminator productions).
   */
  predicate IsWhite(c: char) {
    var n := c as int;
    9 <= n <= 13            // tab, line feed, vertical tab, form feed, carriage return
    || n == 0x20 || n == 0xA0 || n == 0x1680
    || 0x2000 <= n <= 0x200A
    || n == 0x2028 || n == 0x2029 || n == 0x202F || n == 0x205F
    || n == 0x3000 || n == 0xFEFF
  }

  predicate AllWhite(s: string) {
    forall i :: 0 <= i < |s| ==> IsWhite(s[i])
  }

  /** `trimStart`: drops the longest all-white prefix (see TrimStartWhite for what it drops). */
  function TrimStart(s: string): (r: string)
    ensures |r| <= |s|
    ensures r == [] || !IsWhite(r[0])
  {
    if s == [] || !IsWhite(s[0]) then s
    else TrimStart(s[1..])
  }

  /** trimStart keeps a suffix of its input. */
  lemma {:induction false} TrimStartIsSuffix(s: string)
    ensures TrimStart(s) == s[|s| - |TrimStart(s)|..]
  {
    if s != [] && IsWhite(s[0]) {
      TrimStartIsSuffix(s[1..]);
    }
  }

  /** What trimStart drops is all white space. */
  lemma {:induction false} TrimStartWhite(s: string)
    ensures AllWhite(s[..|s| - |TrimStart(s)|])
  {
    if s != [] && IsWhite(s[0]) {
      TrimStartWhite(s[1..]);
      var r := TrimStart(s);
      assert s[..|s| - |r|] == [s[0]] + s[1..][..|s| - 1 - |r|];
    }
  }

  /** `trimEnd`: drops the longest all-white suffix (see TrimEndWhite for what it drops). */
  function TrimEnd(s: string): (r: string)
    ensures |r| <= |s|
    ensures r == [] || !IsWhite(r[|r| - 1])
  {
    if s == [] || !IsWhite(s[|s| - 1]) then s
    else TrimEnd(s[..|s| - 1])
  }

  /** trimEnd keeps a prefix of its input. */
  lemma {:induction false} TrimEndIsPrefix(s: string)
    ensures TrimEnd(s) == s[..|TrimEnd(s)|]
  {
    if s != [] && IsWhite(s[|s| - 1]) {
      TrimEndIsPrefix(s[..|s| - 1]);
    }
  }

  /** What trimEnd drops is all white space. */
  lemma {:induction false} TrimEndWhite(s: string)
    ensures AllWhite(s[|TrimEnd(s)|..])
  {
    if s != [] && IsWhite(s[|s| - 1]) {
      TrimEndWhite(s[..|s| - 1]);
      var r := TrimEnd(s);
      assert s[|r|..] == s[..|s| - 1][|r|..] + [s[|s| - 1]];
    }
  }

  /** `trim`: no white space at either end (see TrimOnlyWhite for what it removes). */
  function Trim(s: string): (r: string)
    ensures r == [] || (!IsWhite(r[0]) && !IsWhite(r[|r| - 1]))
  {
    var t := TrimStart(s);
    TrimEndIsPrefix(t);
    TrimEnd(t)
  }

  /** Trimming removes nothing but white space, from the two ends only. */
  lemma TrimOnlyWhite(s: string)
    ensures exists i, j :: 0 <= i <= j <= |s| && Trim(s) == s[i..j] && AllWhite(s[..i]) && AllWhite(s[j..])
  {
    var t := TrimStart(s);
    var r := TrimEnd(t);
    var i := |s| - |t|;
    TrimStartWhite(s);
    TrimEndWhite(t);
    TrimStartIsSuffix(s);
    TrimEndIsPrefix(t);
    assert r == s[i..i + |r|];
    assert s[i + |r|..] == t[|r|..];
  }

  /** White space added around a string does not survive trimming. */
  lemma {:induction false} TrimSurrounded(w1: string, s: string, w2: string)
    requires AllWhite(w1) && AllWhite(w2)
    ensures Trim(w1 + s + w2) == Trim(s)
  {
    TrimStartPrefix(w1, s + w2);
    assert w1 + s + w2 == w1 + (s + w2);
    TrimStartSuffix(s, w2);
    if AllWhite(s) {
      TrimStartAllWhite(w2);
      TrimStartAllWhite(s);
    } else {
      TrimEndSuffix(TrimStart(s), w2);
    }
  }

  /** An all-white string trims to nothing. */
  lemma TrimStartAllWhite(s: string)
    requires AllWhite(s)
    ensures TrimStart(s) == []
  {
    TrimStartIsSuffix(s);
  }

  lemma {:induction false} TrimStartPrefix(w: string, s: string)
    requires AllWhite(w)
    ensures TrimStart(w + s) == TrimStart(s)
    decreases |w|
  {
    if w != [] {
      assert (w + s)[1..] == w[1..] + s;
      TrimStartPrefix(w[1..], s);
    } else {
      assert w + s == s;
    }
  }

  /** Trimming the start only looks into w when s is all white. */
  lemma {:induction false} TrimStartSuffix(s: string, w: string)
    ensures TrimStart(s + w) == (if AllWhite(s) then TrimStart(w) else TrimStart(s) + w)
    decreases |s|
  {
    if s == [] {
      assert s + w == w;
    } else if IsWhite(s[0]) {
      TrimStartDropWhite(s, w);
      TrimStartSuffix(s[1..], w);
    } else {
      TrimStartKeep(s, w);
    }
  }

  /** A white first character is dropped, whatever follows. */
  lemma TrimStartDropWhite(s: string, w: string)
    requires s != [] && IsWhite(s[0])
    ensures TrimStart(s + w) == TrimStart(s[1..] + w) && TrimStart(s) == TrimStart(s[1..])
    ensures AllWhite(s) == AllWhite(s[1..])
  {
    assert (s + w)[1..] == s[1..] + w;
  }

  /** A string that starts with a non-white character is left as it is. */
  lemma TrimStartKeep(s: string, w: string)
    requires s != [] && !IsWhite(s[0])
    ensures TrimStart(s + w) == s + w == TrimStart(s) + w && !AllWhite(s)
  {
    assert (s + w)[0] == s[0];
  }

  lemma {:induction false} TrimEndSuffix(s: string, w: string)
    requires AllWhite(w)
    ensures TrimEnd(s + w) == TrimEnd(s)
    decreases |w|
  {
    if w != [] {
      assert (s + w)[..|s + w| - 1] == s + w[..|w| - 1];
      TrimEndSuffix(s, w[..|w| - 1]);
    } else {
      assert s + w == s;
    }
  }

  function LowerChar(c: char): char {
    if 'A' <= c <= 'Z' then (c as int + 32) as char else c
  }

  function UpperChar(c: char): char {
    if 'a' <= c <= 'z' then (c as int - 32) as char else c
  }

  /** `toLowerCase` on ASCII letters. */
  function Lower(s: string): (r: string)
    ensures |r| == |s| && forall i :: 0 <= i < |s| ==> r[i] == LowerChar(s[i])
  {
    seq(|s|, i requires 0 <= i < |s| => LowerChar(s[i]))
  }

  /** `toUpperCase` on ASCII letters. */
  function Upper(s: string): (r: string)
    ensures |r| == |s| && forall i :: 0 <= i < |s| ==> r[i] == UpperChar(s[i])
  {
    seq(|s|, i requires 0 <= i < |s| => UpperChar(s[i]))
  }

  predicate StartsWith(s: string, p: string) {
    |p| <= |s| && s[..|p|] == p
  }

  predicate EndsWith(s: string, p: string) {
    |p| <= |s| && s[|s| - |p|..] == p
  }

  /**
   * `s.split(sep)` for a one-character separator: the maximal separator-free pieces,
   * empty ones included, so the result always has one more piece than s has separators.
   */
  function Split(s: string, sep: char): (r: seq<string>)
    ensures |r| >= 1
    ensures forall k :: 0 <= k < |r| ==> sep !in r[k]
  {
    if s == [] then [""]
    else
      var rest := Split(s[1..], sep);
      if s[0] == sep then [""] + rest else [[s[0]] + rest[0]] + rest[1..]
  }

  /** Joining the pieces with the separator gives the string back. */
  function Join(parts: seq<string>, sep: char): string
    requires |parts| >= 1
  {
    if |parts| == 1 then parts[0] else parts[0] + [sep] + Join(parts[1..], sep)
  }

  lemma {:induction false} SplitJoin(s: string, sep: char)
    ensures Join(Split(s, sep), sep) == s
  {
    if s != [] {
      var rest := Split(s[1..], sep);
      SplitJoin(s[1..], sep);
      if s[0] == sep {
        assert ([""] + rest)[1..] == rest;
      } else {
        var r := [[s[0]] + rest[0]] + rest[1..];
        if |rest| == 1 {
          assert Join(r, sep) == [s[0]] + rest[0];
        } else {
          assert r[1..] == rest[1..];
          assert Join(rest, sep) == rest[0] + [sep] + Join(rest[1..], sep);
        }
      }
    }
  }

  /** A separator-free string splits into itself. */
  lemma {:induction false} SplitNoSep(a: string, sep: char)
    requires sep !in a
    ensures Split(a, sep) == [a]
  {
    if a != [] {
      SplitNoSep(a[1..], sep);
      assert [a[0]] + a[1..] == a;
    }
  }

  /** A separator-free piece followed by the separator splits off as the first piece. */
  lemma {:induction false} SplitConcat(a: string, b: string, sep: char)
    requires sep !in a
    ensures Split(a + [sep] + b, sep) == [a] + Split(b, sep)
  {
    var s := a + [sep] + b;
    if a == [] {
      assert s[1..] == b;
    } else {
      SplitConcat(a[1..], b, sep);
      assert s[1..] == a[1..] + [sep] + b;
      assert [a[0]] + a[1..] == a;
    }
  }

  /** Splitting the join of separator-free pieces gives the pieces back. */
  lemma {:induction false} JoinSplit(parts: seq<string>, sep: char)
    requires |parts| >= 1 && forall k :: 0 <= k < |parts| ==> sep !in parts[k]
    ensures Split(Join(parts, sep), sep) == parts
  {
    if |parts| == 1 {
      SplitNoSep(parts[0], sep);
    } else {
      JoinSplit(parts[1..], sep);
      SplitConcat(parts[0], Join(parts[1..], sep), sep);
      assert [parts[0]] + parts[1..] == parts;
    }
  }
}

=== FILE: pathway_progress.dfy ===
/**
 * The pathway-progress card of the patient detail page: the day of the pathway, the
 * share of the pathway elapsed, the completed-video count, and per module the share of
 * the video watched; five demo modules when the pathway has no video modules.
 */
module PathwayProgress {
  import opened Wrappers
  import opened JsMath

  datatype VideoModule = VideoModule(id: string, title: string, durationSeconds: nat)
  datatype VideoProgress = VideoProgress(videoModuleId: string, furthestSeconds: nat, isCompleted: bool)

  datatype DemoModule = DemoModule(id: string, title: string, watchPct: nat, watchCount: nat, isCompleted: bool)

  const DemoModules: seq<DemoModule> := [
    DemoModule("d1", "Welcome & Overview", 100, 1, true),
    DemoModule("d2", "Understanding Your Medications", 100, 2, true),
    DemoModule("d3", "Medication Safety", 100, 3, true),
    DemoModule("d4", "Activity & Exercise Guidelines", 62, 1, false),
    DemoModule("d5", "When to Seek Help", 0, 0, false)
  ]

  datatype ModuleLine = ModuleLine(moduleId: string, watchPct: Percent, isCompleted: bool)

  datatype PathwayView = PathwayView(
    displayDay: int, totalDays: int, progressPct: int,
    completedCount: nat, totalModules: nat,
    demo: bool, lines: seq<ModuleLine>)

  // ---------------------------------------------------------------------------
  // Day and elapsed share

  /** `dayNumber`: whole days since the start date, plus one. */
  function DayNumber(daysSinceStart: int): int {
    daysSinceStart + 1
  }

  /** `Math.min(Math.round(dayNumber / totalDays * 100), 100)`. */
  function ProgressPct(dayNumber: int, totalDays: int): (r: int)
    requires totalDays > 0
    ensures r <= 100
    ensures dayNumber >= totalDays ==> r == 100
    ensures 0 <= dayNumber ==> 0 <= r
    ensures 0 <= dayNumber < totalDays ==> r == RoundPct(dayNumber, totalDays)
  {
    RoundPctRange(dayNumber, totalDays);
    Min(RoundPct(dayNumber, totalDays), 100)
  }

  /** The rounded percentage is at least 0 for a non-negative numerator and at least 100 once it reaches the denominator. */
  lemma RoundPctRange(a: int, b: int)
    requires b > 0
    ensures 0 <= a ==> 0 <= RoundPct(a, b)
    ensures a >= b ==> RoundPct(a, b) >= 100
    ensures 0 <= a <= b ==> RoundPct(a, b) <= 100
  {
    var r := RoundPct(a, b);
    if 0 <= a && r < 0 {
      MulLe(2 * r + 1, -1, b);
    }
    if a >= b && r < 100 {
      MulLe(2 * r + 1, 200, b);
    }
    if 0 <= a <= b {
      RoundPctBounds(a, b);
    }
  }

  /** `Math.max(dayNumber, 1)`: the day shown is never below 1. */
  function DisplayDay(dayNumber: int): (d: int)
    ensures d >= 1 && d >= dayNumber
    ensures dayNumber >= 1 ==> d == dayNumber
  {
    Max(dayNumber, 1)
  }

  // ---------------------------------------------------------------------------
  // Per-module progress

  /** `progressMap.get(moduleId)`: the map is built from the rows in order, so the last row for a module wins. */
  function ProgressFor(progress: seq<VideoProgress>, moduleId: string): (p: Option<VideoProgress>)
    ensures p.None? <==> forall i :: 0 <= i < |progress| ==> progress[i].videoModuleId != moduleId
    ensures p.Some? ==> exists i :: 0 <= i < |progress| && progress[i] == p.value && p.value.videoModuleId == moduleId
                          && forall j :: i < j < |progress| ==> progress[j].videoModuleId != moduleId
  {
    if progress == [] then None
    else if progress[|progress| - 1].videoModuleId == moduleId then Some(progress[|progress| - 1])
    else ProgressFor(progress[..|progress| - 1], moduleId)
  }

  /** A later row for the same module replaces an earlier one; a row for another module changes nothing. */
  lemma LastRowWins(progress: seq<VideoProgress>, vp: VideoProgress, moduleId: string)
    ensures ProgressFor(progress + [vp], moduleId) ==
      if vp.videoModuleId == moduleId then Some(vp) else ProgressFor(progress, moduleId)
  {
    assert (progress + [vp])[..|progress|] == progress;
  }

  /**
   * A module's `watchPct`: 0 with no progress row, otherwise the rounded share of the
   * video watched capped at 100. A zero duration makes the share `Infinity` (shown as 100)
   * for a positive position and `NaN` for position 0.
   */
  function WatchPct(vp: Option<VideoProgress>, durationSeconds: nat): (w: Percent)
    ensures vp.None? ==> w == Value(0)
    ensures w.NaN? <==> vp.Some? && durationSeconds == 0 && vp.value.furthestSeconds == 0
    ensures w.Value? ==> 0 <= w.pct <= 100
    ensures vp.Some? && durationSeconds > 0 ==> w == Value(Min(RoundPct(vp.value.furthestSeconds, durationSeconds), 100))
    ensures vp.Some? && vp.value.furthestSeconds >= durationSeconds > 0 ==> w == Value(100)
  {
    match vp
    case None => Value(0)
    case Some(p) =>
      if durationSeconds == 0 then (if p.furthestSeconds > 0 then Value(100) else NaN)
      else
        RoundPctRange(p.furthestSeconds, durationSeconds);
        Value(Min(RoundPct(p.furthestSeconds, durationSeconds), 100))
  }

  function Line(mod: VideoModule, progress: seq<VideoProgress>): ModuleLine {
    var vp := ProgressFor(progress, mod.id);
    ModuleLine(mod.id, WatchPct(vp, mod.durationSeconds), vp.Some? && vp.value.isCompleted)
  }

  // ---------------------------------------------------------------------------
  // Completed count and the card

  /** `filter((p) => p.is_completed).length`, over the progress rows or the demo modules. */
  function CountCompleted<T>(xs: seq<T>, done: T -> bool): (n: nat)
    ensures n <= |xs|
    ensures n == 0 <==> forall i :: 0 <= i < |xs| ==> !done(xs[i])
    ensures n == |xs| <==> forall i :: 0 <= i < |xs| ==> done(xs[i])
  {
    if xs == [] then 0
    else CountCompleted(xs[..|xs| - 1], done) + (if done(xs[|xs| - 1]) then 1 else 0)
  }

  predicate RowCompleted(p: VideoProgress) { p.isCompleted }

  predicate DemoCompletedFlag(m: DemoModule) { m.isCompleted }

  /** The demo list shows three of its five modules completed. */
  lemma DemoCompleted()
    ensures CountCompleted(DemoModules, DemoCompletedFlag) == 3 && |DemoModules| == 5
  {
    var d := DemoModules;
    assert d[..4][..3] == d[..3] && d[..3][..2] == d[..2] && d[..2][..1] == d[..1] && d[..1][..0] == [];
    assert d[..|d| - 1] == d[..4];
    assert CountCompleted(d[..1], DemoCompletedFlag) == 1;
    assert CountCompleted(d[..2], DemoCompletedFlag) == 2;
    assert CountCompleted(d[..3], DemoCompletedFlag) == 3;
    assert CountCompleted(d[..4], DemoCompletedFlag) == 3;
  }

  /** `PathwayProgress`. */
  function BuildPathway(daysSinceStart: int, totalDays: int, modules: seq<VideoModule>, progress: seq<VideoProgress>): (v: PathwayView)
    requires totalDays > 0
    ensures v.demo <==> modules == []
    ensures v.displayDay >= 1 && v.progressPct <= 100
    ensures v.displayDay == DisplayDay(DayNumber(daysSinceStart)) && v.totalDays == totalDays
    ensures v.progressPct == ProgressPct(DayNumber(daysSinceStart), totalDays)
    ensures v.demo ==> v.completedCount == CountCompleted(DemoModules, DemoCompletedFlag)
    ensures v.demo ==> v.totalModules == 5 && v.lines == []
    ensures !v.demo ==> v.totalModules == |modules| && |v.lines| == |modules| && v.completedCount == CountCompleted(progress, RowCompleted)
    ensures !v.demo ==> forall i :: 0 <= i < |modules| ==> v.lines[i] == Line(modules[i], progress)
  {
    var dayNumber := DayNumber(daysSinceStart);
    var useDemo := |modules| == 0;
    var completedCount := if useDemo then CountCompleted(DemoModules, DemoCompletedFlag) else CountCompleted(progress, RowCompleted);
    var totalModules := if useDemo then |DemoModules| else |modules|;
    var lines := if useDemo then [] else seq(|modules|, i requires 0 <= i < |modules| => Line(modules[i], progress));
    PathwayView(DisplayDay(dayNumber), totalDays, ProgressPct(dayNumber, totalDays), completedCount, totalModules, useDemo, lines)
  }

  /** The demo card reads "3/5 videos completed". */
  lemma DemoCard(daysSinceStart: int, totalDays: int, progress: seq<VideoProgress>)
    requires totalDays > 0
    ensures var v := BuildPathway(daysSinceStart, totalDays, [], progress); v.completedCount == 3 && v.totalModules == 5
  {
    DemoCompleted();
  }

  /**
   * `completedCount` counts the completed progress rows whether or not they belong to a
   * listed module, so it can exceed the number of modules shown.
   */
  lemma CompletedCountCanExceedModules()
    ensures var v := BuildPathway(0, 30, [VideoModule("m1", "Intro", 60)],
                                  [VideoProgress("m1", 60, true), VideoProgress("other", 10, true)]);
            v.completedCount == 2 > v.totalModules
  {
    var progress := [VideoProgress("m1", 60, true), VideoProgress("other", 10, true)];
    assert progress[..1][..0] == [];
  }
}

=== FILE: patient_table.dfy ===
/** The patient list table: avatar initials and the row-selection checkboxes. */
module PatientTable {
  import opened JsStrings
  import opened Sorting

  datatype PatientRow = PatientRow(id: string, name: string, progress: real)

  // ---------------------------------------------------------------------------
  // getInitials

  /** `map((n) => n[0]).join("")`: the first character of each word; an empty word gives `undefined`, which joins as nothing. */
  function FirstChars(words: seq<string>): (r: string)
    ensures |r| <= |words|
  {
    if words == [] then []
    else (if words[0] == [] then [] else [words[0][0]]) + FirstChars(words[1..])
  }

  /**
   * `getInitials`: the upper-cased first characters of the space-separated words, at most
   * two. A character here is a whole scalar value, where `n[0]` and `slice(0, 2)` take
   * UTF-16 code units.
   */
  function Initials(name: string): (r: string)
    ensures |r| <= 2
    ensures forall i :: 0 <= i < |r| ==> !('a' <= r[i] <= 'z')
  {
    Take(Upper(FirstChars(Split(name, ' '))), 2)
  }

  /** For a name made of words joined by single spaces, the initials come from those words in order. */
  lemma InitialsOfWords(words: seq<string>)
    requires |words| >= 1 && forall k :: 0 <= k < |words| ==> ' ' !in words[k]
    ensures Initials(Join(words, ' ')) == Take(Upper(FirstChars(words)), 2)
  {
    JoinSplit(words, ' ');
  }

  /** An empty word, as repeated spaces produce, adds no initial. */
  lemma {:induction false} EmptyWordsAddNothing(before: seq<string>, after: seq<string>)
    ensures FirstChars(before + [""] + after) == FirstChars(before + after)
    decreases |before|
  {
    if before == [] {
      assert before + [""] + after == [""] + after && before + after == after;
      assert ([""] + after)[1..] == after;
    } else {
      EmptyWordsAddNothing(before[1..], after);
      assert (before + [""] + after)[1..] == before[1..] + [""] + after;
      assert (before + after)[1..] == before[1..] + after;
    }
  }

  /** "ada lovelace byron" shows "AL": two initials, upper-cased, the third word dropped. */
  lemma InitialsExample()
    ensures Initials("ada lovelace byron") == "AL"
  {
    var words := ["ada", "lovelace", "byron"];
    calc {
      Initials("ada lovelace byron");
      { ExampleJoined(); }
      Initials(Join(words, ' '));
      { InitialsOfWords(words); }
      Take(Upper(FirstChars(words)), 2);
      { assert FirstChars(words) == "alb"; }
      Take(Upper("alb"), 2);
      { assert Upper("alb") == "ALB"; }
      Take("ALB", 2);
    }
  }

  lemma ExampleJoined()
    ensures Join(["ada", "lovelace", "byron"], ' ') == "ada lovelace byron"
  {
  }

  // ---------------------------------------------------------------------------
  // Selection

  function RowIds(rows: seq<PatientRow>): set<string> {
    set r | r in rows :: r.id
  }

  predicate DistinctIds(rows: seq<PatientRow>) {
    forall i, j :: 0 <= i < j < |rows| ==> rows[i].id != rows[j].id
  }

  /** `allSelected`: at least one row, and as many selected ids as rows. Only the sizes are compared. */
  function AllSelectedOf(selected: set<string>, rows: seq<PatientRow>): (b: bool)
    ensures b <==> |rows| > 0 && |selected| == |rows|
  {
    |rows| > 0 && |selected| == |rows|
  }

  /** The set `toggleRow(id)` stores: id's membership flipped. */
  function Toggled(selected: set<string>, id: string): (s: set<string>)
    ensures id in s <==> id !in selected
    ensures forall x :: x != id ==> (x in s <==> x in selected)
  {
    if id in selected then selected - {id} else selected + {id}
  }

  /** Toggling the same row twice restores the selection. */
  lemma ToggleTwice(selected: set<string>, id: string)
    ensures Toggled(Toggled(selected, id), id) == selected
  {
  }

  /** With distinct row ids, selecting all rows' ids makes `allSelected` hold. */
  lemma {:induction false} RowIdsCount(rows: seq<PatientRow>)
    requires DistinctIds(rows)
    ensures |RowIds(rows)| == |rows|
  {
    if rows != [] {
      var init := rows[..|rows| - 1];
      var last := rows[|rows| - 1];
      assert DistinctIds(init);
      RowIdsCount(init);
      assert RowIds(rows) == RowIds(init) + {last.id} by {
        assert rows == init + [last];
      }
      assert last.id !in RowIds(init);
    }
  }

  /**
   * Sizes only: a selection left over from other rows reads as "all selected" when its
   * size happens to match, although the shown row is not selected.
   */
  lemma StaleSelectionReadsAsAll()
    ensures var rows := [PatientRow("p1", "Ada", 50.0)];
            AllSelectedOf({"p9"}, rows) && "p1" !in {"p9"}
  {
  }

  /** With a duplicated row id, select-all can never make the header checkbox read "all selected". */
  lemma DuplicateIdsNeverAll()
    ensures var rows := [PatientRow("p1", "Ada", 50.0), PatientRow("p1", "Ada", 50.0)];
            !AllSelectedOf(RowIds(rows), rows)
  {
    var rows := [PatientRow("p1", "Ada", 50.0), PatientRow("p1", "Ada", 50.0)];
    assert RowIds(rows) == {"p1"};
  }

  /** The table's selection state. */
  class Selection {
    var selected: set<string>

    constructor()
      ensures selected == {}
    {
      selected := {};
    }

    function AllSelected(rows: seq<PatientRow>): bool
      reads this
    {
      AllSelectedOf(selected, rows)
    }

    /** `toggleRow(id)`: flips id and nothing else. */
    method ToggleRow(id: string)
      modifies this
      ensures selected == Toggled(old(selected), id)
    {
      var next := selected;
      if id in next {
        next := next - {id};
      } else {
        next := next + {id};
      }
      selected := next;
    }

    /** `toggleAll`: clears when all are selected, otherwise selects exactly the rows' ids. */
    method ToggleAll(rows: seq<PatientRow>)
      modifies this
      ensures old(AllSelected(rows)) ==> selected == {}
      ensures !old(AllSelected(rows)) ==> selected == RowIds(rows)
      ensures rows != [] && DistinctIds(rows) ==> AllSelected(rows) != old(AllSelected(rows))
    {
      if AllSelected(rows) {
        selected := {};
      } else {
        selected := RowIds(rows);
        if DistinctIds(rows) {
          RowIdsCount(rows);
        }
      }
    }
  }
}

=== FILE: progress_bar.dfy ===
/** The progress bar of the patient list: a clamped percentage and a colour band. */
module ProgressBar {

  datatype BarColor = Success | Info | Warning

  /** `Math.max(0, Math.min(100, value))`. */
  function Clamp(value: real): (c: real)
    ensures 0.0 <= c <= 100.0
    ensures 0.0 <= value <= 100.0 ==> c == value
    ensures value < 0.0 ==> c == 0.0
    ensures value > 100.0 ==> c == 100.0
  {
    if 0.0 > (if 100.0 <= value then 100.0 else value) then 0.0
    else if 100.0 <= value then 100.0 else value
  }

  /** Clamping a clamped value changes nothing. */
  lemma ClampIdempotent(value: real)
    ensures Clamp(Clamp(value)) == Clamp(value)
  {
  }

  /** `getColor`: success from 80, info from 50, warning below. */
  function GetColor(value: real): (color: BarColor)
    ensures color == Success <==> value >= 80.0
    ensures color == Info <==> 50.0 <= value < 80.0
    ensures color == Warning <==> value < 50.0
  {
    if value >= 80.0 then Success
    else if value >= 50.0 then Info
    else Warning
  }

  datatype Bar = Bar(width: real, color: BarColor)

  /** `ProgressBar`: width and colour both come from the clamped value. */
  function RenderBar(value: real): (b: Bar)
    ensures b.width == Clamp(value) && b.color == GetColor(Clamp(value))
    ensures value > 100.0 ==> b == Bar(100.0, Success)
    ensures value < 0.0 ==> b == Bar(0.0, Warning)
  {
    var clamped := Clamp(value);
    Bar(clamped, GetColor(clamped))
  }
}

=== FILE: quiz_performance.dfy ===
/**
 * The quiz-performance card of the patient detail page: demo figures when the patient has
 * no responses, otherwise the overall score and one summary per video module.
 */
module QuizPerformance {
  import opened Wrappers
  import opened JsMath

  datatype VideoModule = VideoModule(id: string, title: string)
  datatype Question = Question(id: string, moduleId: string)
  datatype Response = Response(questionId: string, isCorrect: bool, attemptNumber: int)

  datatype DemoModule = DemoModule(id: string, title: string, correct: nat, total: nat, attempts: nat)
  datatype Overall = Overall(correct: nat, total: nat, pct: int)
  datatype ModuleSummary = ModuleSummary(moduleId: string, title: string, correct: nat, total: nat, attempts: int, pct: int)
  datatype QuizView = Demo(overall: Overall, demo: seq<DemoModule>) | Live(overall: Overall, modules: seq<ModuleSummary>)

  const DemoModules: seq<DemoModule> := [
    DemoModule("dq1", "Welcome & Overview", 3, 3, 1),
    DemoModule("dq2", "Understanding Your Medications", 2, 3, 1),
    DemoModule("dq3", "Medication Safety", 1, 2, 2)
  ]

  function SumDemoTotal(ms: seq<DemoModule>): nat {
    if ms == [] then 0 else SumDemoTotal(ms[..|ms| - 1]) + ms[|ms| - 1].total
  }

  function SumDemoCorrect(ms: seq<DemoModule>): nat {
    if ms == [] then 0 else SumDemoCorrect(ms[..|ms| - 1]) + ms[|ms| - 1].correct
  }

  /** The demo headline: the reduced totals of the demo modules and their rounded percentage. */
  function DemoOverall(): (o: Overall)
    ensures o == Overall(6, 8, 75)
  {
    var total := SumDemoTotal(DemoModules);
    var correct := SumDemoCorrect(DemoModules);
    var d := DemoModules;
    assert d[..|d| - 1] == d[..2] && d[..2][..1] == d[..1] && d[..1][..0] == [];
    assert SumDemoTotal(d[..1]) == 3 && SumDemoCorrect(d[..1]) == 3;
    assert SumDemoTotal(d[..2]) == 6 && SumDemoCorrect(d[..2]) == 5;
    Overall(correct, total, RoundPct(correct, total))
  }

  // ---------------------------------------------------------------------------
  // Grouping

  /** The items whose key is k, in input order. */
  function Filter<T>(items: seq<T>, key: T -> string, k: string): (r: seq<T>)
    ensures |r| <= |items|
  {
    if items == [] then []
    else
      var last := items[|items| - 1];
      Filter(items[..|items| - 1], key, k) + (if key(last) == k then [last] else [])
  }

  lemma {:induction false} FilterMembers<T>(items: seq<T>, key: T -> string, k: string, x: T)
    ensures x in Filter(items, key, k) <==> x in items && key(x) == k
  {
    if items != [] {
      FilterMembers(items[..|items| - 1], key, k, x);
      assert items == items[..|items| - 1] + [items[|items| - 1]];
    }
  }

  /** `map.get(k) ?? []`. */
  function Get<T>(m: map<string, seq<T>>, k: string): seq<T> {
    if k in m then m[k] else []
  }

  /**
   * The two grouping loops: each item is pushed onto the list of its key. Every key's
   * list is exactly its items in input order, and only keys that occur get a list.
   */
  method GroupBy<T>(items: seq<T>, key: T -> string) returns (groups: map<string, seq<T>>)
    ensures forall k :: Get(groups, k) == Filter(items, key, k)
    ensures forall k :: k in groups ==> groups[k] != []
  {
    groups := map[];
    for i := 0 to |items|
      invariant forall k :: Get(groups, k) == Filter(items[..i], key, k)
      invariant forall k :: k in groups ==> groups[k] != []
    {
      assert items[..i + 1][..i] == items[..i];
      var x := items[i];
      var existing := Get(groups, key(x));
      groups := groups[key(x) := existing + [x]];
    }
    assert items[..|items|] == items;
  }

  function ModuleOf(q: Question): string { q.moduleId }
  function QuestionOf(r: Response): string { r.questionId }

  // ---------------------------------------------------------------------------
  // Overall and per-module figures

  function CountCorrect(rs: seq<Response>): (n: nat)
    ensures n <= |rs|
  {
    if rs == [] then 0 else CountCorrect(rs[..|rs| - 1]) + (if rs[|rs| - 1].isCorrect then 1 else 0)
  }

  /** The overall line: correct out of all responses, 0% when there are none. */
  function OverallOf(responses: seq<Response>): (o: Overall)
    ensures o.total == |responses| && o.correct == CountCorrect(responses) && o.correct <= o.total
    ensures 0 <= o.pct <= 100
    ensures o.total == 0 ==> o.pct == 0
    ensures o.total > 0 ==> o.pct == RoundPct(o.correct, o.total)
  {
    var total := |responses|;
    var correct := CountCorrect(responses);
    if total > 0 then
      RoundPctBounds(correct, total);
      Overall(correct, total, RoundPct(correct, total))
    else Overall(correct, total, 0)
  }

  lemma {:induction false} CountCorrectAll(rs: seq<Response>)
    ensures (forall i :: 0 <= i < |rs| ==> rs[i].isCorrect) ==> CountCorrect(rs) == |rs|
    ensures (forall i :: 0 <= i < |rs| ==> !rs[i].isCorrect) ==> CountCorrect(rs) == 0
  {
    if rs != [] {
      CountCorrectAll(rs[..|rs| - 1]);
    }
  }

  /** With responses, the overall line reads 100% when all are correct and 0% when none is. */
  lemma OverallExtremes(responses: seq<Response>)
    requires responses != []
    ensures (forall i :: 0 <= i < |responses| ==> responses[i].isCorrect) ==> OverallOf(responses).pct == 100
    ensures (forall i :: 0 <= i < |responses| ==> !responses[i].isCorrect) ==> OverallOf(responses).pct == 0
  {
    CountCorrectAll(responses);
    RoundPctBounds(CountCorrect(responses), |responses|);
  }

  /** `Math.max(floor, ...rs.map((r) => r.attempt_number))`. */
  function MaxAttempt(rs: seq<Response>, floor: int): (m: int)
    ensures m >= floor
    ensures forall i :: 0 <= i < |rs| ==> rs[i].attemptNumber <= m
    ensures m == floor || exists i :: 0 <= i < |rs| && rs[i].attemptNumber == m
  {
    if rs == [] then floor else Max(MaxAttempt(rs[..|rs| - 1], floor), rs[|rs| - 1].attemptNumber)
  }

  /** `modTotal` after the given questions. */
  function ModTotal(qs: seq<Question>, responses: seq<Response>): nat {
    if qs == [] then 0
    else ModTotal(qs[..|qs| - 1], responses) + |Filter(responses, QuestionOf, qs[|qs| - 1].id)|
  }

  /** `modCorrect` after the given questions. */
  function ModCorrect(qs: seq<Question>, responses: seq<Response>): (n: nat)
    ensures n <= ModTotal(qs, responses)
  {
    if qs == [] then 0
    else ModCorrect(qs[..|qs| - 1], responses) + CountCorrect(Filter(responses, QuestionOf, qs[|qs| - 1].id))
  }

  /** `attempts` after the given questions. */
  function ModAttempts(qs: seq<Question>, responses: seq<Response>): int {
    if qs == [] then 0
    else MaxAttempt(Filter(responses, QuestionOf, qs[|qs| - 1].id), ModAttempts(qs[..|qs| - 1], responses))
  }

  /** A module's summary, or None when it has no questions or none of them has a response. */
  function SummaryOf(mod: VideoModule, qs: seq<Question>, responses: seq<Response>): (s: Option<ModuleSummary>)
    ensures s.None? <==> qs == [] || ModTotal(qs, responses) == 0
    ensures s.Some? ==> s.value.moduleId == mod.id && 0 < s.value.total && s.value.correct <= s.value.total
    ensures s.Some? ==> 0 <= s.value.pct <= 100 && s.value.attempts >= 0
    ensures s.Some? ==>
      && s.value.title == mod.title
      && s.value.total == ModTotal(qs, responses)
      && s.value.correct == ModCorrect(qs, responses)
      && s.value.attempts == ModAttempts(qs, responses)
      && s.value.pct == RoundPct(s.value.correct, s.value.total)
  {
    if qs == [] then None
    else
      var total := ModTotal(qs, responses);
      var correct := ModCorrect(qs, responses);
      if total == 0 then None
      else
        RoundPctBounds(correct, total);
        AttemptsAtLeastZero(qs, responses);
        Some(ModuleSummary(mod.id, mod.title, correct, total, ModAttempts(qs, responses), RoundPct(correct, total)))
  }

  lemma {:induction false} AttemptsAtLeastZero(qs: seq<Question>, responses: seq<Response>)
    ensures ModAttempts(qs, responses) >= 0
  {
    if qs != [] {
      AttemptsAtLeastZero(qs[..|qs| - 1], responses);
    }
  }

  /** The loop over a module's questions accumulating `modTotal`, `modCorrect` and `attempts`. */
  method SummarizeModule(mod: VideoModule, qs: seq<Question>, responsesByQuestion: map<string, seq<Response>>, ghost responses: seq<Response>)
    returns (s: Option<ModuleSummary>)
    requires forall k :: Get(responsesByQuestion, k) == Filter(responses, QuestionOf, k)
    ensures s == SummaryOf(mod, qs, responses)
  {
    if |qs| == 0 {
      return None;
    }
    var modCorrect := 0;
    var modTotal := 0;
    var attempts := 0;
    for i := 0 to |qs|
      invariant modTotal == ModTotal(qs[..i], responses)
      invariant modCorrect == ModCorrect(qs[..i], responses)
      invariant attempts == ModAttempts(qs[..i], responses)
    {
      assert qs[..i + 1][..i] == qs[..i];
      var rs := Get(responsesByQuestion, qs[i].id);
      modTotal := modTotal + |rs|;
      modCorrect := modCorrect + CountCorrect(rs);
      attempts := MaxAttempt(rs, attempts);
    }
    assert qs[..|qs|] == qs;
    if modTotal == 0 {
      return None;
    }
    RoundPctBounds(modCorrect, modTotal);
    s := Some(ModuleSummary(mod.id, mod.title, modCorrect, modTotal, attempts, RoundPct(modCorrect, modTotal)));
  }

  /** The summaries the card lists: the modules in order, the omitted ones dropped. */
  function Summaries(modules: seq<VideoModule>, questions: seq<Question>, responses: seq<Response>): seq<ModuleSummary> {
    if modules == [] then []
    else
      var m := modules[|modules| - 1];
      Summaries(modules[..|modules| - 1], questions, responses) +
        match SummaryOf(m, Filter(questions, ModuleOf, m.id), responses)
        case None => []
        case Some(s) => [s]
  }

  /** `QuizPerformance`: demo data exactly when there are no responses, otherwise the real figures. */
  method BuildQuizPerformance(modules: seq<VideoModule>, questions: seq<Question>, responses: seq<Response>) returns (v: QuizView)
    ensures v.Demo? <==> responses == []
    ensures v.Demo? ==> v == Demo(Overall(6, 8, 75), DemoModules)
    ensures v.Live? ==> v.overall == OverallOf(responses) && v.modules == Summaries(modules, questions, responses)
  {
    if |responses| == 0 {
      return Demo(DemoOverall(), DemoModules);
    }
    var questionsByModule := GroupBy(questions, ModuleOf);
    var responsesByQuestion := GroupBy(responses, QuestionOf);
    var summaries: seq<ModuleSummary> := [];
    for i := 0 to |modules|
      invariant summaries == Summaries(modules[..i], questions, responses)
    {
      assert modules[..i + 1][..i] == modules[..i];
      var s := SummarizeModule(modules[i], Get(questionsByModule, modules[i].id), responsesByQuestion, responses);
      if s.Some? {
        summaries := summaries + [s.value];
      }
    }
    assert modules[..|modules|] == modules;
    v := Live(OverallOf(responses), summaries);
  }

  // ---------------------------------------------------------------------------
  // modTotal counts the module's responses

  function Ids(qs: seq<Question>): set<string> {
    set q | q in qs :: q.id
  }

  predicate DistinctIds(qs: seq<Question>) {
    forall i, j :: 0 <= i < j < |qs| ==> qs[i].id != qs[j].id
  }

  /** Number of responses answering one of the given question ids. */
  function CountAnswering(responses: seq<Response>, ids: set<string>): nat {
    if responses == [] then 0
    else CountAnswering(responses[..|responses| - 1], ids) + (if responses[|responses| - 1].questionId in ids then 1 else 0)
  }

  /**
   * With distinct question ids, a module's `modTotal` is the number of responses that
   * answer one of its questions: every such response is counted once.
   */
  lemma {:induction false} ModTotalCountsModuleResponses(qs: seq<Question>, responses: seq<Response>)
    requires DistinctIds(qs)
    ensures ModTotal(qs, responses) == CountAnswering(responses, Ids(qs))
  {
    if qs == [] {
      CountAnsweringNone(responses, Ids(qs));
    } else {
      var init := qs[..|qs| - 1];
      var q := qs[|qs| - 1];
      assert DistinctIds(init);
      ModTotalCountsModuleResponses(init, responses);
      assert Ids(qs) == Ids(init) + {q.id} by {
        assert qs == init + [q];
      }
      assert q.id !in Ids(init);
      CountAnsweringAdd(responses, Ids(init), q.id);
    }
  }

  lemma {:induction false} CountAnsweringNone(responses: seq<Response>, ids: set<string>)
    requires ids == {}
    ensures CountAnswering(responses, ids) == 0
  {
    if responses != [] {
      CountAnsweringNone(responses[..|responses| - 1], ids);
    }
  }

  lemma {:induction false} CountAnsweringAdd(responses: seq<Response>, ids: set<string>, id: string)
    requires id !in ids
    ensures CountAnswering(responses, ids + {id}) == CountAnswering(responses, ids) + |Filter(responses, QuestionOf, id)|
  {
    if responses != [] {
      CountAnsweringAdd(responses[..|responses| - 1], ids, id);
    }
  }

  /** The question ids of a module grow by one question at a time. */
  lemma IdsSnoc(qs: seq<Question>)
    requires qs != []
    ensures Ids(qs) == Ids(qs[..|qs| - 1]) + {qs[|qs| - 1].id}
  {
    assert qs == qs[..|qs| - 1] + [qs[|qs| - 1]];
  }

  /** `attempts` bounds every attempt number among the module's responses. */
  lemma {:induction false} ModAttemptsBound(qs: seq<Question>, responses: seq<Response>)
    ensures forall r :: r in responses && r.questionId in Ids(qs) ==> r.attemptNumber <= ModAttempts(qs, responses)
  {
    if qs != [] {
      var q := qs[|qs| - 1];
      ModAttemptsBound(qs[..|qs| - 1], responses);
      IdsSnoc(qs);
      forall r | r in responses && r.questionId == q.id
        ensures r.attemptNumber <= ModAttempts(qs, responses)
      {
        FilterMembers(responses, QuestionOf, q.id, r);
      }
    }
  }

  /** `attempts` is 0 or the attempt number of one of the module's responses: with the bound, the largest one. */
  lemma {:induction false} ModAttemptsAttained(qs: seq<Question>, responses: seq<Response>)
    ensures ModAttempts(qs, responses) == 0 ||
      exists r :: r in responses && r.questionId in Ids(qs) && r.attemptNumber == ModAttempts(qs, responses)
  {
    if qs != [] {
      var init := qs[..|qs| - 1];
      var q := qs[|qs| - 1];
      ModAttemptsAttained(init, responses);
      IdsSnoc(qs);
      var group := Filter(responses, QuestionOf, q.id);
      var m := ModAttempts(qs, responses);
      if m != ModAttempts(init, responses) {
        var i :| 0 <= i < |group| && group[i].attemptNumber == m;
        FilterMembers(responses, QuestionOf, q.id, group[i]);
        assert group[i] in responses && group[i].questionId in Ids(qs);
      }
    }
  }

}

=== FILE: scanner_schema.dfy ===
/**
 * The two zod object schemas of the scanner: the clinical data extracted from a discharge
 * packet, where every field is optional, and the form that confirms a new patient. A zod
 * object parse rejects a value of the wrong type with one issue per offending key, and on
 * success returns the known keys only.
 */
module ScannerSchema {
  import opened Wrappers

  /** A parsed JSON value; an object is a map from key to value. */
  datatype Json = JNull | JBool(b: bool) | JNum(n: real) | JStr(s: string) | JArr(items: seq<Json>) | JObj(fields: map<string, Json>)

  /** A zod issue: the top-level key it concerns ("" for the value itself) and its message. */
  datatype Issue = Issue(key: string, message: string)

  datatype ParseResult<T> = Success(data: T) | Failure(issues: seq<Issue>)

  function TypeName(v: Json): string {
    match v
    case JNull => "null"
    case JBool(_) => "boolean"
    case JNum(_) => "number"
    case JStr(_) => "string"
    case JArr(_) => "array"
    case JObj(_) => "object"
  }

  /** zod's message for a value of the wrong type. */
  function Expected(expected: string, v: Json): string {
    "Expected " + expected + ", received " + TypeName(v)
  }

  // ---------------------------------------------------------------------------
  // extractedDataSchema

  datatype FieldKind = NullableString | NullableNumber | MedicationList

  /** The keys of the extracted-data object, in declaration order. */
  const ExtractedKeys: seq<string> := [
    "patient_name", "discharge_date",
    "weight_admission_kg", "weight_discharge_kg", "resting_heart_rate_bpm",
    "heart_rhythm", "blood_pressure", "nyha_class",
    "ejection_fraction_pct", "lv_assessment_method", "lv_assessment_date",
    "potassium", "sodium", "urea", "creatinine", "egfr",
    "medications",
    "patient_specific_instructions", "care_plan_notes", "follow_up_date", "follow_up_instructions",
    "diagnosis"
  ]

  /** The keys declared as nullable numbers; every other declared key but "medications" is a nullable string. */
  const NumberKeys: set<string> := {
    "weight_admission_kg", "weight_discharge_kg", "resting_heart_rate_bpm", "ejection_fraction_pct",
    "potassium", "sodium", "urea", "creatinine", "egfr"
  }

  const MedicationKeys: set<string> := {"name", "dosage", "frequency"}

  /** The kind a declared key is given. */
  function KindOf(key: string): (kind: FieldKind)
    ensures kind == MedicationList <==> key == "medications"
    ensures kind == NullableNumber <==> key in NumberKeys
  {
    if key == "medications" then MedicationList
    else if key in NumberKeys then NullableNumber
    else NullableString
  }

  /** Every numeric key and the medication list are among the declared keys. */
  lemma NumberKeysDeclared()
    ensures forall k :: k in NumberKeys ==> k in ExtractedKeys
    ensures "medications" in ExtractedKeys
  {
    assert ExtractedKeys[16] == "medications";
  }

  /** A medication item: an object with a string `name`, and `dosage` and `frequency` strings when present (null is refused). */
  predicate ValidMedication(item: Json) {
    && item.JObj?
    && "name" in item.fields && item.fields["name"].JStr?
    && ("dosage" in item.fields ==> item.fields["dosage"].JStr?)
    && ("frequency" in item.fields ==> item.fields["frequency"].JStr?)
  }

  /** What a key of each kind accepts. */
  predicate ValidValue(kind: FieldKind, v: Json) {
    match kind
    case NullableString => v.JNull? || v.JStr?
    case NullableNumber => v.JNull? || v.JNum?
    case MedicationList => v.JArr? && forall i :: 0 <= i < |v.items| ==> ValidMedication(v.items[i])
  }

  /** The extracted-data rules stated declaratively: an object whose declared keys, where present, hold acceptable values. */
  predicate ValidExtracted(v: Json) {
    v.JObj? && forall k :: k in v.fields && k in ExtractedKeys ==> ValidValue(KindOf(k), v.fields[k])
  }

  function ItemIssues(key: string, item: Json): seq<Issue> {
    if !item.JObj? then [Issue(key, Expected("object", item))]
    else
      var f := item.fields;
      (if "name" !in f then [Issue(key, "Required")] else if !f["name"].JStr? then [Issue(key, Expected("string", f["name"]))] else []) +
      (if "dosage" in f && !f["dosage"].JStr? then [Issue(key, Expected("string", f["dosage"]))] else []) +
      (if "frequency" in f && !f["frequency"].JStr? then [Issue(key, Expected("string", f["frequency"]))] else [])
  }

  function ItemsIssues(key: string, items: seq<Json>): (issues: seq<Issue>)
    ensures issues == [] <==> forall i :: 0 <= i < |items| ==> ValidMedication(items[i])
  {
    if items == [] then []
    else ItemIssues(key, items[0]) + ItemsIssues(key, items[1..])
  }

  function ValueIssues(key: string, kind: FieldKind, v: Json): (issues: seq<Issue>)
    ensures issues == [] <==> ValidValue(kind, v)
  {
    match kind
    case NullableString => if v.JNull? || v.JStr? then [] else [Issue(key, Expected("string", v))]
    case NullableNumber => if v.JNull? || v.JNum? then [] else [Issue(key, Expected("number", v))]
    case MedicationList => if v.JArr? then ItemsIssues(key, v.items) else [Issue(key, Expected("array", v))]
  }

  /** The issues of the declared keys, in declaration order; an absent key is fine. */
  function ShapeIssues(keys: seq<string>, fields: map<string, Json>): seq<Issue> {
    if keys == [] then []
    else
      (if keys[0] in fields then ValueIssues(keys[0], KindOf(keys[0]), fields[keys[0]]) else []) + ShapeIssues(keys[1..], fields)
  }

  /** A medication item with its unknown keys removed. */
  function StripItem(item: Json): Json {
    if item.JObj? then JObj(map k | k in item.fields && k in MedicationKeys :: item.fields[k]) else item
  }

  /** The value a key holds after the parse: a medication list loses the items' unknown keys. */
  function Clean(kind: FieldKind, v: Json): Json {
    if kind == MedicationList && v.JArr? then JArr(seq(|v.items|, i requires 0 <= i < |v.items| => StripItem(v.items[i])))
    else v
  }

  /**
   * A cleaned value is the value itself, except that each medication item keeps its
   * `name`, `dosage` and `frequency` and loses every other key.
   */
  lemma CleanKeeps(kind: FieldKind, v: Json)
    ensures kind != MedicationList || !v.JArr? ==> Clean(kind, v) == v
    ensures kind == MedicationList && v.JArr? ==>
      var c := Clean(kind, v);
      c.JArr? && |c.items| == |v.items| &&
      forall i :: 0 <= i < |v.items| && v.items[i].JObj? ==>
        c.items[i].JObj? &&
        forall k :: k in c.items[i].fields <==> k in v.items[i].fields && k in MedicationKeys
    ensures kind == MedicationList && v.JArr? ==>
      forall i, k :: 0 <= i < |v.items| && v.items[i].JObj? && k in v.items[i].fields && k in MedicationKeys ==>
        Clean(kind, v).items[i].fields[k] == v.items[i].fields[k]
  {
  }

  /** `extractedDataSchema.safeParse`. */
  function ParseExtracted(v: Json): (r: ParseResult<Json>)
    ensures r.Success? ==> v.JObj? && r.data.JObj?
    ensures r.Success? ==> forall k :: k in r.data.fields ==> k in ExtractedKeys && k in v.fields
    ensures r.Success? ==> forall k :: k in v.fields && k in ExtractedKeys ==>
      k in r.data.fields && r.data.fields[k] == Clean(KindOf(k), v.fields[k])
  {
    if !v.JObj? then Failure([Issue("", Expected("object", v))])
    else
      var issues := ShapeIssues(ExtractedKeys, v.fields);
      if issues != [] then Failure(issues)
      else Success(JObj(map k | k in v.fields && k in ExtractedKeys :: Clean(KindOf(k), v.fields[k])))
  }

  /** No issue for a list of keys exactly when every one of them that is present holds an acceptable value. */
  lemma {:induction false} ShapeIssuesNone(keys: seq<string>, fields: map<string, Json>)
    ensures ShapeIssues(keys, fields) == [] <==>
      forall k :: k in keys && k in fields ==> ValidValue(KindOf(k), fields[k])
  {
    if keys != [] {
      ShapeIssuesNone(keys[1..], fields);
      assert forall k :: k in keys <==> k == keys[0] || k in keys[1..];
    }
  }

  /** The parse accepts exactly the values the declarative rules allow. */
  lemma ParseExtractedSucceedsIff(v: Json)
    ensures ParseExtracted(v).Success? <==> ValidExtracted(v)
  {
    if v.JObj? {
      ShapeIssuesNone(ExtractedKeys, v.fields);
    }
  }

  /** Every field is optional, so the empty object parses to itself. */
  lemma EmptyObjectValid()
    ensures ParseExtracted(JObj(map[])) == Success(JObj(map[]))
  {
    ParseExtractedSucceedsIff(JObj(map[]));
  }

  /** An object holding a single declared key parses exactly when that key's value is acceptable. */
  lemma SingleKey(key: string, v: Json)
    requires key in ExtractedKeys
    ensures ParseExtracted(JObj(map[key := v])).Success? <==> ValidValue(KindOf(key), v)
  {
    var m := map[key := v];
    ParseExtractedSucceedsIff(JObj(m));
    assert m.Keys == {key};
  }

  /** A numeric clinical field accepts a number or null and refuses every other type. */
  lemma NumberFieldAccepts(key: string, v: Json)
    requires key in NumberKeys
    ensures ParseExtracted(JObj(map[key := v])).Success? <==> v.JNum? || v.JNull?
  {
    NumberKeysDeclared();
    SingleKey(key, v);
  }

  /** A medication list accepts exactly the items with a string name whose dosage and frequency, if present, are strings. */
  lemma MedicationsAccept(items: seq<Json>)
    ensures ParseExtracted(JObj(map["medications" := JArr(items)])).Success? <==>
      forall i :: 0 <= i < |items| ==> ValidMedication(items[i])
  {
    NumberKeysDeclared();
    SingleKey("medications", JArr(items));
  }

  /** Parsing what a parse returned gives the same data back. */
  lemma ParseExtractedIdempotent(v: Json)
    requires ParseExtracted(v).Success?
    ensures ParseExtracted(ParseExtracted(v).data) == ParseExtracted(v)
  {
    var d := ParseExtracted(v).data;
    ParseExtractedSucceedsIff(v);
    forall k | k in d.fields
      ensures ValidValue(KindOf(k), d.fields[k]) && Clean(KindOf(k), d.fields[k]) == d.fields[k]
    {
      CleanValid(KindOf(k), v.fields[k]);
    }
    ParseExtractedSucceedsIff(d);
    assert ParseExtracted(d).data.fields == d.fields;
  }

  /** Cleaning keeps a value acceptable and a second cleaning changes nothing. */
  lemma CleanValid(kind: FieldKind, v: Json)
    requires ValidValue(kind, v)
    ensures ValidValue(kind, Clean(kind, v)) && Clean(kind, Clean(kind, v)) == Clean(kind, v)
  {
    if kind == MedicationList {
      var c := Clean(kind, v);
      forall i | 0 <= i < |c.items|
        ensures ValidMedication(c.items[i]) && StripItem(c.items[i]) == c.items[i]
      {
        assert ValidMedication(v.items[i]);
      }
      assert Clean(kind, c).items == c.items;
    }
  }

  // ---------------------------------------------------------------------------
  // confirmPatientSchema

  datatype ConfirmInput = ConfirmInput(
    scanId: Option<string>, name: string, email: Option<string>, dischargeDate: Option<string>,
    diagnosis: Option<string>, medications: seq<string>, restrictions: Option<string>,
    followUpDate: Option<string>, carePathwayId: string, clinicalData: Option<map<string, Json>>)

  /** An optional string field as parsed: present exactly when the key is, holding the key's string. */
  predicate HoldsString(fields: map<string, Json>, key: string, o: Option<string>) {
    (o.Some? <==> key in fields) && (o.Some? ==> fields[key] == JStr(o.value))
  }

  /** A parsed medication list: the array's strings in order, or [] when the key is absent. */
  predicate HoldsStrings(fields: map<string, Json>, key: string, ss: seq<string>) {
    if key in fields then
      fields[key].JArr? && |fields[key].items| == |ss| && forall i :: 0 <= i < |ss| ==> fields[key].items[i] == JStr(ss[i])
    else ss == []
  }

  /** `z.string().optional()`. */
  function OptString(fields: map<string, Json>, key: string): (r: (seq<Issue>, Option<string>))
    ensures r.0 == [] <==> key !in fields || fields[key].JStr?
    ensures r.0 == [] ==> HoldsString(fields, key, r.1)
  {
    if key !in fields then ([], None)
    else if fields[key].JStr? then ([], Some(fields[key].s))
    else ([Issue(key, Expected("string", fields[key]))], None)
  }

  /** `z.string().min(1, message)`: required, a string, and not empty. */
  function RequiredString(fields: map<string, Json>, key: string, message: string): (r: (seq<Issue>, string))
    ensures r.0 == [] <==> key in fields && fields[key].JStr? && fields[key].s != ""
    ensures key in fields && fields[key] == JStr("") ==> r.0 == [Issue(key, message)]
  {
    if key !in fields then ([Issue(key, "Required")], "")
    else if !fields[key].JStr? then ([Issue(key, Expected("string", fields[key]))], "")
    else if |fields[key].s| < 1 then ([Issue(key, message)], "")
    else ([], fields[key].s)
  }

  function StringItems(items: seq<Json>): (r: (seq<Issue>, seq<string>))
    ensures r.0 == [] <==> forall i :: 0 <= i < |items| ==> items[i].JStr?
    ensures r.0 == [] ==> |r.1| == |items| && forall i :: 0 <= i < |items| ==> items[i] == JStr(r.1[i])
  {
    if items == [] then ([], [])
    else
      var rest := StringItems(items[1..]);
      if items[0].JStr? then (rest.0, [items[0].s] + rest.1)
      else ([Issue("medications", Expected("string", items[0]))] + rest.0, rest.1)
  }

  /** `z.array(z.string()).default([])`. */
  function Medications(fields: map<string, Json>): (r: (seq<Issue>, seq<string>))
    ensures "medications" !in fields ==> r == ([], [])
    ensures r.0 == [] ==> HoldsStrings(fields, "medications", r.1)
    ensures r.0 == [] <==>
      ("medications" in fields ==>
         fields["medications"].JArr? && forall i :: 0 <= i < |fields["medications"].items| ==> fields["medications"].items[i].JStr?)
  {
    if "medications" !in fields then ([], [])
    else if fields["medications"].JArr? then StringItems(fields["medications"].items)
    else ([Issue("medications", Expected("array", fields["medications"]))], [])
  }

  /** `z.record(z.string(), z.unknown()).optional()`. */
  function ClinicalData(fields: map<string, Json>): (r: (seq<Issue>, Option<map<string, Json>>))
    ensures r.0 == [] <==> "clinical_data" !in fields || fields["clinical_data"].JObj?
    ensures r.0 == [] ==>
      (r.1.Some? <==> "clinical_data" in fields) && (r.1.Some? ==> fields["clinical_data"] == JObj(r.1.value))
  {
    if "clinical_data" !in fields then ([], None)
    else if fields["clinical_data"].JObj? then ([], Some(fields["clinical_data"].fields))
    else ([Issue("clinical_data", Expected("object", fields["clinical_data"]))], None)
  }

  predicate OptionalString(f: map<string, Json>, key: string) {
    key in f ==> f[key].JStr?
  }

  predicate NonEmptyString(f: map<string, Json>, key: string) {
    key in f && f[key].JStr? && f[key].s != ""
  }

  /** The confirm-form rules stated declaratively. */
  predicate ValidConfirm(f: map<string, Json>) {
    && OptionalString(f, "scan_id") && NonEmptyString(f, "name") && OptionalString(f, "email")
    && OptionalString(f, "discharge_date") && OptionalString(f, "diagnosis")
    && ("medications" in f ==> f["medications"].JArr? && forall i :: 0 <= i < |f["medications"].items| ==> f["medications"].items[i].JStr?)
    && OptionalString(f, "restrictions") && OptionalString(f, "follow_up_date")
    && NonEmptyString(f, "care_pathway_id")
    && ("clinical_data" in f ==> f["clinical_data"].JObj?)
  }

  /** Every optional field, the medication list and the clinical data of a parsed form, tied to the input. */
  predicate ConfirmHolds(f: map<string, Json>, d: ConfirmInput) {
    && HoldsString(f, "scan_id", d.scanId) && HoldsString(f, "email", d.email)
    && HoldsString(f, "discharge_date", d.dischargeDate) && HoldsString(f, "diagnosis", d.diagnosis)
    && HoldsString(f, "restrictions", d.restrictions) && HoldsString(f, "follow_up_date", d.followUpDate)
    && HoldsStrings(f, "medications", d.medications)
    && (d.clinicalData.Some? <==> "clinical_data" in f)
    && (d.clinicalData.Some? ==> f["clinical_data"] == JObj(d.clinicalData.value))
  }

  const NameRequired := "Patient name is required"
  const PathwayRequired := "Care pathway is required"

  /** `confirmPatientSchema.safeParse`: every key's issues in declaration order, or the parsed input. */
  function ParseConfirm(v: Json): (r: ParseResult<ConfirmInput>)
    ensures r.Success? ==> r.data.name != "" && r.data.carePathwayId != ""
    ensures r.Success? <==> v.JObj? && ValidConfirm(v.fields)
    ensures r.Success? ==> v.JObj? && "name" in v.fields && v.fields["name"] == JStr(r.data.name)
    ensures r.Success? ==> v.JObj? && "care_pathway_id" in v.fields && v.fields["care_pathway_id"] == JStr(r.data.carePathwayId)
    ensures r.Success? ==> v.JObj? && ConfirmHolds(v.fields, r.data)
  {
    if !v.JObj? then Failure([Issue("", Expected("object", v))])
    else
      var f := v.fields;
      var scanId := OptString(f, "scan_id");
      var name := RequiredString(f, "name", NameRequired);
      var email := OptString(f, "email");
      var dischargeDate := OptString(f, "discharge_date");
      var diagnosis := OptString(f, "diagnosis");
      var medications := Medications(f);
      var restrictions := OptString(f, "restrictions");
      var followUpDate := OptString(f, "follow_up_date");
      var pathway := RequiredString(f, "care_pathway_id", PathwayRequired);
      var clinical := ClinicalData(f);
      var issues := scanId.0 + name.0 + email.0 + dischargeDate.0 + diagnosis.0 + medications.0
                    + restrictions.0 + followUpDate.0 + pathway.0 + clinical.0;
      if issues != [] then Failure(issues)
      else Success(ConfirmInput(scanId.1, name.1, email.1, dischargeDate.1, diagnosis.1, medications.1,
                                restrictions.1, followUpDate.1, pathway.1, clinical.1))
  }

  /** An empty patient name fails with "Patient name is required". */
  lemma EmptyNameFails(fields: map<string, Json>)
    requires "name" in fields && fields["name"] == JStr("")
    ensures ParseConfirm(JObj(fields)).Failure? && Issue("name", NameRequired) in ParseConfirm(JObj(fields)).issues
  {
  }

  /** An empty care pathway fails with "Care pathway is required". */
  lemma EmptyPathwayFails(fields: map<string, Json>)
    requires "care_pathway_id" in fields && fields["care_pathway_id"] == JStr("")
    ensures ParseConfirm(JObj(fields)).Failure? && Issue("care_pathway_id", PathwayRequired) in ParseConfirm(JObj(fields)).issues
  {
  }

  /** An absent medication list parses to the empty list. */
  lemma MedicationsDefault(fields: map<string, Json>)
    requires "medications" !in fields && ParseConfirm(JObj(fields)).Success?
    ensures ParseConfirm(JObj(fields)).data.medications == []
  {
  }

  /** The smallest valid form: a name and a pathway, everything else defaulted. */
  lemma MinimalConfirm(name: string, pathway: string)
    requires name != "" && pathway != ""
    ensures ParseConfirm(JObj(map["name" := JStr(name), "care_pathway_id" := JStr(pathway)])) ==
      Success(ConfirmInput(None, name, None, None, None, [], None, None, pathway, None))
  {
  }
}

=== FILE: sorting.dfy ===
/**
 * `Array.prototype.sort` with a comparator `(a, b) => key(b) - key(a)`: a stable sort
 * into non-increasing key order (ECMAScript 2019 requires sort to be stable), followed
 * by `slice(0, k)`.
 */
module Sorting {

  ghost predicate SortedDesc<T>(s: seq<T>, key: T -> int) {
    forall i, j :: 0 <= i < j < |s| ==> key(s[i]) >= key(s[j])
  }

  /** Places x in front of the first element whose key is at most key(x). */
  function Insert<T>(x: T, s: seq<T>, key: T -> int): (r: seq<T>)
    requires SortedDesc(s, key)
    ensures SortedDesc(r, key)
    ensures multiset(r) == multiset(s) + multiset{x}
    ensures |r| == |s| + 1
  {
    if s == [] || key(s[0]) <= key(x) then
      ConsSorted(x, s, key);
      [x] + s
    else
      var t := Insert(x, s[1..], key);
      assert s == [s[0]] + s[1..];
      HeadBoundsAll(s[0], s[1..], x, t, key);
      ConsSorted(s[0], t, key);
      [s[0]] + t
  }

  /** Putting a head that bounds every element in front of a sorted sequence keeps it sorted. */
  lemma ConsSorted<T>(h: T, t: seq<T>, key: T -> int)
    requires SortedDesc(t, key)
    requires t == [] || key(h) >= key(t[0])
    ensures SortedDesc([h] + t, key)
  {
    var r := [h] + t;
    forall i, j | 0 <= i < j < |r| ensures key(r[i]) >= key(r[j]) {
      if i == 0 {
        assert r[j] == t[j - 1];
      } else {
        assert r[i] == t[i - 1] && r[j] == t[j - 1];
      }
    }
  }

  /** A head that bounds every element of s and x also bounds any rearrangement of s + [x]. */
  lemma HeadBoundsAll<T>(h: T, s: seq<T>, x: T, t: seq<T>, key: T -> int)
    requires forall i :: 0 <= i < |s| ==> key(h) >= key(s[i])
    requires key(h) >= key(x)
    requires multiset(t) == multiset(s) + multiset{x}
    ensures forall j :: 0 <= j < |t| ==> key(h) >= key(t[j])
  {
    forall j | 0 <= j < |t| ensures key(h) >= key(t[j]) {
      assert t[j] in multiset(s) + multiset{x};
      if t[j] != x {
        assert t[j] in s;
      }
    }
  }

  /** The stable descending sort: a sorted permutation of s. */
  function SortDesc<T>(s: seq<T>, key: T -> int): (r: seq<T>)
    ensures SortedDesc(r, key)
    ensures multiset(r) == multiset(s)
    ensures |r| == |s|
  {
    if s == [] then []
    else
      assert s == [s[0]] + s[1..];
      Insert(s[0], SortDesc(s[1..], key), key)
  }

  /** The elements of s whose key is k, in their order in s. */
  function WithKey<T>(s: seq<T>, key: T -> int, k: int): (r: seq<T>)
    ensures |r| <= |s|
    ensures forall i :: 0 <= i < |r| ==> key(r[i]) == k
  {
    if s == [] then [] else (if key(s[0]) == k then [s[0]] else []) + WithKey(s[1..], key, k)
  }

  /** Insertion goes in front of the ties already placed, after every strictly greater key. */
  lemma {:induction false} InsertStable<T>(x: T, s: seq<T>, key: T -> int, k: int)
    requires SortedDesc(s, key)
    ensures WithKey(Insert(x, s, key), key, k) == (if key(x) == k then [x] else []) + WithKey(s, key, k)
    decreases |s|
  {
    if s == [] || key(s[0]) <= key(x) {
      assert ([x] + s)[1..] == s;
    } else {
      var t := Insert(x, s[1..], key);
      InsertStable(x, s[1..], key, k);
      assert ([s[0]] + t)[0] == s[0] && ([s[0]] + t)[1..] == t;
    }
  }

  /**
   * The sort is stable: for every key value, the elements with that key appear in the
   * result in the order they have in the input.
   */
  lemma {:induction false} SortDescStable<T>(s: seq<T>, key: T -> int, k: int)
    ensures WithKey(SortDesc(s, key), key, k) == WithKey(s, key, k)
    decreases |s|
  {
    if s != [] {
      SortDescStable(s[1..], key, k);
      InsertStable(s[0], SortDesc(s[1..], key), key, k);
    }
  }

  /** The key-k elements of a prefix are a prefix of the key-k elements. */
  lemma {:induction false} WithKeyPrefix<T>(t: seq<T>, key: T -> int, k: int, n: nat)
    requires n <= |t|
    ensures WithKey(t[..n], key, k) <= WithKey(t, key, k)
    decreases n
  {
    if n > 0 {
      WithKeyPrefix(t[1..], key, k, n - 1);
      assert t[..n][0] == t[0] && t[..n][1..] == t[1..][..n - 1];
    }
  }

  /** `slice(0, k)`. */
  function Take<T>(s: seq<T>, k: nat): (r: seq<T>)
    ensures |r| <= k && |r| <= |s|
    ensures |s| <= k ==> r == s
    ensures |s| > k ==> |r| == k
    ensures r == s[..|r|]
  {
    if |s| <= k then s else s[..k]
  }

  /** Every element the slice leaves out has a key no greater than any element it keeps. */
  lemma TopKBound<T>(s: seq<T>, key: T -> int, k: nat, i: nat, j: nat)
    requires i < |Take(SortDesc(s, key), k)| <= j < |s|
    ensures key(SortDesc(s, key)[j]) <= key(Take(SortDesc(s, key), k)[i])
  {
  }

  /**
   * The slice keeps the top k: an element of s is kept when nothing was cut off, or when
   * its key beats the key of the last element kept.
   */
  lemma {:induction false} TopKKept<T>(s: seq<T>, key: T -> int, k: nat, e: T)
    requires e in s
    requires var r := Take(SortDesc(s, key), k);
      |r| < |s| ==> 0 < |r| && key(e) > key(r[|r| - 1])
    ensures e in Take(SortDesc(s, key), k)
  {
    var sorted := SortDesc(s, key);
    var r := Take(sorted, k);
    assert e in multiset(s);
    assert e in multiset(sorted);
    var j :| 0 <= j < |sorted| && sorted[j] == e;
    assert r[j] == e;
  }

  /**
   * Among tied elements the cut keeps the ones that come first in the input: the kept
   * elements with key k are a prefix of the input's elements with key k.
   */
  lemma TopKTiesFirst<T>(s: seq<T>, key: T -> int, k: int, n: nat)
    ensures WithKey(Take(SortDesc(s, key), n), key, k) <= WithKey(s, key, k)
  {
    var sorted := SortDesc(s, key);
    WithKeyPrefix(sorted, key, k, |Take(sorted, n)|);
    SortDescStable(s, key, k);
  }
}

=== FILE: webrtc_signaling.dfy ===
/**
 * The peer-connection manager of the scanning pipeline: one side (the phone as sender,
 * the desktop as receiver) of the offer/answer/ICE-candidate exchange over a broadcast
 * channel, with the buffer that holds remote candidates until a remote description is set.
 *
 * Each handler runs to completion as one step. Every call into the browser's peer
 * connection that can fail (`setRemoteDescription`, `createAnswer` with
 * `setLocalDescription`, `createOffer` with `setLocalDescription`, `addIceCandidate`)
 * is given its outcome as a boolean parameter; the session descriptions it produces are
 * parameters too.
 */
module WebRtcSignaling {
  import opened Wrappers

  /** Event names on the broadcast channel. */
  const OfferEvent := "webrtc:offer"
  const AnswerEvent := "webrtc:answer"
  const IceCandidateEvent := "webrtc:ice-candidate"
  const PhoneConnectedEvent := "scan:phone-connected"
  const PageCapturedEvent := "scan:page-captured"
  const ScanDoneEvent := "scan:done"

  datatype Role = Sender | Receiver

  /** The state the hook exposes. */
  datatype ConnectionState = New | Connecting | Connected | Disconnected | Failed

  /** `RTCPeerConnection.connectionState` as the browser reports it. */
  datatype TransportState = TransportNew | TransportConnecting | TransportConnected
                          | TransportDisconnected | TransportFailed | TransportClosed

  /** Status values the relay passes to the subscribe callback. */
  datatype ChannelStatus = Subscribed | TimedOut | Closed | ChannelError

  /** An `RTCIceCandidateInit`. */
  datatype Candidate = Candidate(candidate: string, sdpMid: Option<string>, sdpMLineIndex: Option<int>)

  /** A message this side broadcasts. */
  datatype Signal =
    | Offer(sdp: string)
    | Answer(sdp: string)
    | IceCandidate(candidate: Candidate)
    | PhoneConnected
    | PageCaptured(pageNumber: int)
    | ScanDone(totalPages: int)

  function EventName(s: Signal): string {
    match s
    case Offer(_) => OfferEvent
    case Answer(_) => AnswerEvent
    case IceCandidate(_) => IceCandidateEvent
    case PhoneConnected => PhoneConnectedEvent
    case PageCaptured(_) => PageCapturedEvent
    case ScanDone(_) => ScanDoneEvent
  }

  /** `payload?.sdp` is truthy: present and not the empty string. */
  predicate HasSdp(sdp: Option<string>) {
    sdp.Some? && sdp.value != ""
  }

  /** The `onconnectionstatechange` mapping: four transport states are copied, the others ignored. */
  function MapTransportState(current: ConnectionState, s: TransportState): (r: ConnectionState)
    ensures s.TransportConnected? ==> r == Connected
    ensures s.TransportDisconnected? ==> r == Disconnected
    ensures s.TransportFailed? ==> r == Failed
    ensures s.TransportConnecting? ==> r == Connecting
    ensures s.TransportNew? || s.TransportClosed? ==> r == current
  {
    match s
    case TransportConnected => Connected
    case TransportDisconnected => Disconnected
    case TransportFailed => Failed
    case TransportConnecting => Connecting
    case _ => current
  }

  /** An app-level event as it arrives, its number field possibly missing. */
  datatype AppEvent = PhoneConnectedIn | PageCapturedIn(pageNumber: Option<int>) | ScanDoneIn(totalPages: Option<int>)

  /** The callback the page receives for an app-level event. */
  datatype Callback = OnPhoneConnected | OnPageCaptured(pageNumber: int) | OnScanDone(totalPages: int)

  function Deliver(e: AppEvent): Callback {
    match e
    case PhoneConnectedIn => OnPhoneConnected
    case PageCapturedIn(n) => OnPageCaptured(n.GetOr(0))
    case ScanDoneIn(n) => OnScanDone(n.GetOr(0))
  }

  /** A missing page number or page total is delivered as 0; a present one unchanged. */
  lemma DeliverDefaults(n: Option<int>)
    ensures Deliver(PageCapturedIn(n)) == OnPageCaptured(if n.Some? then n.value else 0)
    ensures Deliver(ScanDoneIn(n)) == OnScanDone(if n.Some? then n.value else 0)
  {
  }

  class SignalingPeer {
    const role: Role
    /** Whether the sender was given a local camera stream. */
    const hasLocalStream: bool
    var connectionState: ConnectionState
    var hasRemoteDesc: bool
    /** Remote candidates waiting for a remote description, in arrival order. */
    var buffer: seq<Candidate>
    /** Everything this side has broadcast, in order. */
    var outbox: seq<Signal>
    /** Whether the channel is subscribed and the peer connection open (false after teardown). */
    var open: bool
    /** Every remote candidate delivered and not discarded by a teardown, in arrival order. */
    ghost var received: seq<Candidate>
    /** Every candidate handed to `addIceCandidate`, in order. */
    ghost var applied: seq<Candidate>

    /**
     * The buffering rule: candidates reach the peer connection in arrival order, each
     * exactly once, and none waits once a remote description is set.
     */
    ghost predicate Valid()
      reads this
    {
      && received == applied + buffer
      && (hasRemoteDesc ==> buffer == [])
    }

    /** Set-up: a fresh peer connection and a freshly subscribed channel. */
    constructor (role: Role, hasLocalStream: bool)
      ensures Valid() && this.role == role && this.hasLocalStream == hasLocalStream
      ensures connectionState == New && !hasRemoteDesc && buffer == [] && outbox == [] && open
      ensures received == [] && applied == []
    {
      this.role := role;
      this.hasLocalStream := hasLocalStream;
      connectionState := New;
      hasRemoteDesc := false;
      buffer := [];
      outbox := [];
      open := true;
      received := [];
      applied := [];
    }

    /** `sendSignal`: broadcasts while the channel is there, and does nothing after teardown. */
    method SendSignal(s: Signal)
      modifies this
      ensures outbox == old(outbox) + (if open then [s] else [])
      ensures connectionState == old(connectionState) && hasRemoteDesc == old(hasRemoteDesc)
      ensures buffer == old(buffer) && open == old(open)
      ensures received == old(received) && applied == old(applied)
    {
      if open {
        outbox := outbox + [s];
      }
    }

    /**
     * `addIceCandidate` inside a try/catch: the candidate is handed over. The catch only
     * logs a rejection, so the outcome changes no state and is not a parameter.
     */
    method AddIceCandidate(c: Candidate)
      modifies this
      ensures applied == old(applied) + [c]
      ensures connectionState == old(connectionState) && hasRemoteDesc == old(hasRemoteDesc)
      ensures buffer == old(buffer) && outbox == old(outbox) && open == old(open)
      ensures received == old(received)
    {
      applied := applied + [c];
    }

    /**
     * `flushIceCandidates`: hands every buffered candidate over in order, whatever each
     * outcome (a rejection is caught per candidate), then empties the buffer.
     */
    method FlushIceCandidates()
      requires received == applied + buffer
      modifies this
      ensures received == applied + buffer
      ensures applied == old(applied) + old(buffer) && buffer == []
      ensures connectionState == old(connectionState) && hasRemoteDesc == old(hasRemoteDesc)
      ensures outbox == old(outbox) && open == old(open) && received == old(received)
    {
      var i := 0;
      while i < |buffer|
        invariant 0 <= i <= |buffer| && buffer == old(buffer)
        invariant applied == old(applied) + buffer[..i]
        invariant connectionState == old(connectionState) && hasRemoteDesc == old(hasRemoteDesc)
        invariant outbox == old(outbox) && open == old(open) && received == old(received)
      {
        AddIceCandidate(buffer[i]);
        assert buffer[..i + 1] == buffer[..i] + [buffer[i]];
        i := i + 1;
      }
      assert buffer[..i] == buffer;
      buffer := [];
    }

    /**
     * The OFFER handler. Only a receiver acts, and only on a non-empty sdp: it goes to
     * connecting, sets the remote description, flushes the buffer, answers exactly once,
     * and goes to failed on any error.
     */
    method OnOffer(sdp: Option<string>, remoteOk: bool, answerOk: bool, answerSdp: string)
      requires Valid() && open
      modifies this
      ensures Valid() && open
      ensures role != Receiver || !HasSdp(sdp) ==>
        connectionState == old(connectionState) && hasRemoteDesc == old(hasRemoteDesc) && buffer == old(buffer)
        && outbox == old(outbox) && applied == old(applied) && received == old(received)
      ensures role == Receiver && HasSdp(sdp) ==>
        && connectionState == (if remoteOk && answerOk then Connecting else Failed)
        && hasRemoteDesc == (old(hasRemoteDesc) || remoteOk)
        && applied == old(applied) + (if remoteOk then old(buffer) else [])
        && buffer == (if remoteOk then [] else old(buffer))
        && outbox == old(outbox) + (if remoteOk && answerOk then [Answer(answerSdp)] else [])
        && received == old(received)
    {
      if role != Receiver || !HasSdp(sdp) {
        return;
      }
      connectionState := Connecting;
      if !remoteOk {
        connectionState := Failed;
        return;
      }
      hasRemoteDesc := true;
      FlushIceCandidates();
      if !answerOk {
        connectionState := Failed;
        return;
      }
      SendSignal(Answer(answerSdp));
    }

    /**
     * The ANSWER handler. Only a sender acts, and only on a non-empty sdp: it sets the
     * remote description and flushes the buffer. An error is logged and leaves
     * everything, the connection state included, as it was.
     */
    method OnAnswer(sdp: Option<string>, remoteOk: bool)
      requires Valid() && open
      modifies this
      ensures Valid() && open
      ensures connectionState == old(connectionState) && outbox == old(outbox) && received == old(received)
      ensures role == Sender && HasSdp(sdp) && remoteOk ==>
        hasRemoteDesc && buffer == [] && applied == old(applied) + old(buffer)
      ensures role != Sender || !HasSdp(sdp) || !remoteOk ==>
        hasRemoteDesc == old(hasRemoteDesc) && buffer == old(buffer) && applied == old(applied)
    {
      if role != Sender || !HasSdp(sdp) {
        return;
      }
      if !remoteOk {
        return;
      }
      hasRemoteDesc := true;
      FlushIceCandidates();
    }

    /**
     * The ICE_CANDIDATE handler. A payload without a candidate is ignored; before a remote
     * description the candidate joins the end of the buffer; after it, it goes straight
     * to the peer connection, and a rejection changes nothing.
     */
    method OnIceCandidate(candidate: Option<Candidate>)
      requires Valid() && open
      modifies this
      ensures Valid() && open
      ensures connectionState == old(connectionState) && hasRemoteDesc == old(hasRemoteDesc) && outbox == old(outbox)
      ensures candidate.None? ==> buffer == old(buffer) && applied == old(applied) && received == old(received)
      ensures candidate.Some? ==> received == old(received) + [candidate.value]
      ensures candidate.Some? && !old(hasRemoteDesc) ==>
        buffer == old(buffer) + [candidate.value] && applied == old(applied)
      ensures candidate.Some? && old(hasRemoteDesc) ==>
        buffer == [] && applied == old(applied) + [candidate.value]
    {
      if candidate.None? {
        return;
      }
      received := received + [candidate.value];
      if !hasRemoteDesc {
        buffer := buffer + [candidate.value];
      } else {
        AddIceCandidate(candidate.value);
      }
    }

    /** `onicecandidate`: every locally discovered candidate is broadcast at once. */
    method OnLocalCandidate(candidate: Option<Candidate>)
      requires Valid() && open
      modifies this
      ensures Valid() && open
      ensures outbox == old(outbox) + (if candidate.Some? then [IceCandidate(candidate.value)] else [])
      ensures connectionState == old(connectionState) && hasRemoteDesc == old(hasRemoteDesc)
      ensures buffer == old(buffer) && applied == old(applied) && received == old(received)
    {
      if candidate.Some? {
        SendSignal(IceCandidate(candidate.value));
      }
    }

    /**
     * The subscribe callback. On SUBSCRIBED a sender with a local stream goes to
     * connecting and announces PHONE_CONNECTED before its OFFER; a failure to make the
     * offer sets failed. Other statuses, a receiver, or no stream: nothing happens.
     */
    method OnSubscribed(status: ChannelStatus, offerOk: bool, offerSdp: string)
      requires Valid() && open
      modifies this
      ensures Valid() && open
      ensures hasRemoteDesc == old(hasRemoteDesc) && buffer == old(buffer)
      ensures applied == old(applied) && received == old(received)
      ensures status != Subscribed || role != Sender || !hasLocalStream ==>
        connectionState == old(connectionState) && outbox == old(outbox)
      ensures status == Subscribed && role == Sender && hasLocalStream ==>
        && connectionState == (if offerOk then Connecting else Failed)
        && outbox == old(outbox) + [PhoneConnected] + (if offerOk then [Offer(offerSdp)] else [])
    {
      if status != Subscribed {
        return;
      }
      if role == Sender && hasLocalStream {
        connectionState := Connecting;
        SendSignal(PhoneConnected);
        if !offerOk {
          connectionState := Failed;
          return;
        }
        SendSignal(Offer(offerSdp));
      }
    }

    /** `onconnectionstatechange`. */
    method OnTransportState(s: TransportState)
      requires Valid() && open
      modifies this
      ensures Valid() && open
      ensures connectionState == MapTransportState(old(connectionState), s)
      ensures hasRemoteDesc == old(hasRemoteDesc) && buffer == old(buffer) && outbox == old(outbox)
      ensures applied == old(applied) && received == old(received)
    {
      if s == TransportConnected {
        connectionState := Connected;
      } else if s == TransportDisconnected {
        connectionState := Disconnected;
      } else if s == TransportFailed {
        connectionState := Failed;
      } else if s == TransportConnecting {
        connectionState := Connecting;
      }
    }

    /** `sendMessage`: app-level events (page captured, scan done) go out on the same channel. */
    method SendMessage(s: Signal)
      requires Valid()
      modifies this
      ensures Valid()
      ensures outbox == old(outbox) + (if open then [s] else [])
      ensures connectionState == old(connectionState) && hasRemoteDesc == old(hasRemoteDesc)
      ensures buffer == old(buffer) && open == old(open)
      ensures applied == old(applied) && received == old(received)
    {
      SendSignal(s);
    }

    /**
     * The effect cleanup: unsubscribes, closes the peer connection, clears the
     * remote-description flag and discards the buffered candidates. Safe at any point,
     * whether or not negotiation finished; the exposed state is left as it was.
     */
    method Teardown()
      requires Valid()
      modifies this
      ensures Valid()
      ensures !open && !hasRemoteDesc && buffer == []
      ensures connectionState == old(connectionState) && outbox == old(outbox)
      ensures applied == old(applied) && received == old(applied)
    {
      open := false;
      hasRemoteDesc := false;
      buffer := [];
      received := applied;
    }
  }

  /**
   * A receiver that hears two candidates before the offer keeps them, applies both in
   * arrival order once the offer sets the remote description (whether or not the peer
   * connection rejects one of them), answers exactly once, and applies a later candidate directly.
   */
  method ReceiverNegotiation(c1: Candidate, c2: Candidate, c3: Candidate, offerSdp: string, answerSdp: string)
    returns (state: ConnectionState, sent: seq<Signal>, waiting: seq<Candidate>, ghost handedOver: seq<Candidate>)
    requires offerSdp != ""
    ensures state == Connecting && sent == [Answer(answerSdp)] && waiting == []
    ensures handedOver == [c1, c2, c3]
  {
    var peer := new SignalingPeer(Receiver, false);
    peer.OnIceCandidate(Some(c1));
    peer.OnIceCandidate(Some(c2));
    assert peer.buffer == [c1, c2] && peer.applied == [];
    peer.OnOffer(Some(offerSdp), true, true, answerSdp);
    peer.OnIceCandidate(Some(c3));
    state, sent, waiting, handedOver := peer.connectionState, peer.outbox, peer.buffer, peer.applied;
  }

  /**
   * A sender with a camera stream announces itself and offers once the channel is joined,
   * then completes the exchange when the answer arrives.
   */
  method SenderNegotiation(c1: Candidate, offerSdp: string, answerSdp: string)
    returns (state: ConnectionState, sent: seq<Signal>, waiting: seq<Candidate>, ghost handedOver: seq<Candidate>)
    requires answerSdp != ""
    ensures state == Connecting && sent == [PhoneConnected, Offer(offerSdp)] && waiting == []
    ensures handedOver == [c1]
  {
    var peer := new SignalingPeer(Sender, true);
    peer.OnSubscribed(Subscribed, true, offerSdp);
    peer.OnIceCandidate(Some(c1));
    peer.OnAnswer(Some(answerSdp), true);
    state, sent, waiting, handedOver := peer.connectionState, peer.outbox, peer.buffer, peer.applied;
  }
}

=== FILE: wrappers.dfy ===
/** Optional values: JavaScript's `undefined` / `null` for a field or a lookup that may be missing. */
module Wrappers {

  datatype Option<+T> = None | Some(value: T) {

    /** The value, or `default` when it is missing (the `??` operator). */
    function GetOr(default: T): T {
      match this
      case Some(v) => v
      case None => default
    }
  }
}
